=== FILE: README.md ===
# Debussy Concert pipeline assembler, modelled in Dafny

Debussy Concert (and its older form, `airflow_concert`) assembles Airflow
DAGs from a musical hierarchy:

- a **motif** builds one task or one task group (a BigQuery query job, a
  BigQuery `MERGE` upsert, an external-table creation, a MySQL export over
  Dataproc, a copy from Cloud Storage or S3 into the lake);
- a **phrase** is a named task group that holds its motifs and runs them one
  after another;
- a **movement** is a named task group that holds its phrases and runs them
  one after another;
- a **composition** builds one movement per ingestion target, either into a
  single DAG (`build` / `play`) or into one DAG per target
  (`build_multi_dag` / `multi_play`).

The model keeps the Airflow side abstract. A DAG under construction is an
immutable graph of nodes (the DAG, task groups, tasks) and edges. Each node
records the group it sits in. Operators are plain records of the arguments
they are given. Every build is a function or method from a graph to a larger
graph. Python's exceptions become `Result` errors, named after the Python
exception class. Keyword-argument binding is modelled explicitly (module
`Kwargs`), because several call sites pass keywords their callee does not
declare.

Modules and the code they follow:

| module | follows |
|---|---|
| `Results`, `Strings`, `Templates`, `Kwargs` | Python's exceptions, `str.join`/`str.split`, `str.format` and keyword binding |
| `Config` | the configuration records the compositions read |
| `Workflow`, `Operators` | the DAG/task-group/task graph and the operators placed in it |
| `MergeQuery`, `MergeReplaceMotif` | `airflow_concert/motif/merge_table.py` |
| `BigQueryJob`, `QueryJobMotif` | `debussy_concert/motif/mixins/bigquery_job.py`, `debussy_concert/motif/bigquery_query_job.py` |
| `ExportTable` | `debussy_concert/data_ingestion/motif/export_table.py` |
| `ExternalTable`, `ExternalTableLegacy` | the two `create_external_table.py` motifs |
| `SourceToGcs`, `StorageIngestion` | `examples/storage_ingestion/storage_ingestion_dag.py` |
| `Motifs` | one sum type over every motif a modelled phrase holds |
| `Phrases`, `Movements`, `Compositions` | `phrase_base.py`, `end.py`, `movement_base.py`, `composition_base.py` |
| `IngestionPhrases`, `DataIngestion`, `IngestionComposition` | `raw_vault_to_raw.py`, `data_ingestion.py`, `data_ingestion/composition/base.py` |
| `Debussy`, `FeuxDArtifice`, `AirflowFeux` | the three relational-database compositions |
| `DagParameters` | `debussy_concert/core/config/config_dag_parameters.py` |

Five builders in the source cannot return a movement as written, because they
pass keywords their callee does not declare:

- `DataIngestionBase.ingestion_movement_builder` (a finding, below);
- the storage example's `gcs_data_ingestion_movement_builder` (a finding, below);
- `Debussy.mysql_movement_builder`;
- `Debussy.rdbms_ingestion_movement_builder`;
- `FeuxDArtifice.rdbms_ingestion_movement_builder` of the ingestion tree.

All five are modelled as written, and their contracts state the `TypeError`
they raise. The two findings also have a corrected builder, which the rest of
the model uses.

## Model

| member | source | states |
|---|---|---|
| MergeQuery.BuildMergeQuery | airflow_concert/motif/merge_table.py:11-64 | The builder succeeds exactly when every replacement field of the given template is one of the ten keywords it passes; otherwise it raises `KeyError` naming a field that is not one of them. |
| MergeQuery.MergeStatement | airflow_concert/motif/merge_table.py:53-89 | With the `MERGE` template the builder never fails, and the statement is the template's literal text with the ten computed values in template order. |
| MergeQuery.MergeEnvironmentLookup | airflow_concert/motif/merge_table.py:53-64 | Every field of the `MERGE` template is one of the keywords passed to `format`, and looking the fields up yields the ten computed values in order. |
| MergeQuery.ComputePiiClauses | airflow_concert/motif/merge_table.py:28-35 | Without PII columns all three PII clauses are empty. With them, the delta selects everything except them and joins the PII table on the primary key, and the extra-column list splits back, at its commas, into exactly the PII columns, each behind the `PII.` alias. |
| MergeQuery.PrefixedSplitBack | airflow_concert/motif/merge_table.py:30 | The comma-joined `PII.`-prefixed columns split back, at their commas, into exactly the prefixed columns. |
| MergeQuery.FieldListsOnePerField | airflow_concert/motif/merge_table.py:50-52 | The update, insert-column and insert-value lists split back, at their commas, into exactly one entry per field, in field order. |
| MergeQuery.WhereClause | airflow_concert/motif/merge_table.py:37-40 | The delta filter reads, line by line, as a test of the date partition against its value followed by `AND`, then a test of the time partition against its value. |
| MergeQuery.MergeClause | airflow_concert/motif/merge_table.py:41-49 | The match predicate always starts with primary-key equality between the main table and the delta. Without a non-empty partition field it is that one line; with one, read line by line, it is that equality followed by `AND`, then a line testing the main table's partition field `BETWEEN` the two bounds (a missing bound reads `None`). |
| MergeQuery.RangeExtendsKeyOnly | airflow_concert/motif/merge_table.py:41-49 | The range predicate is the key-only predicate with ` AND` appended to its key-equality line and one more line testing the main table's partition field `BETWEEN` exactly the two given bounds; the key-only predicate does not depend on the bounds. |
| Templates.FormatInterleave | airflow_concert/motif/merge_table.py:53-64 | `str.format` on a template whose fields all have values replaces each field by its value and keeps the literal text between them. |
| Templates.Format | debussy_concert/data_ingestion/motif/export_table.py:31-32 | `str.format` succeeds exactly when every field has a value; otherwise it raises `KeyError` naming a field without one. |
| MergeReplaceMotif.New | airflow_concert/motif/merge_table.py:92-104 | The motif keeps its table and the two table URIs; a falsy name falls back to the class name. |
| MergeReplaceMotif.MergeArgsOf | airflow_concert/motif/merge_table.py:111-142 | The Python task receives the `MERGE` template, the two tables, the comma-joined PII column names, an empty PII table, the `loadDate`/`loadTimestamp` partitions with their run macros, the primary key, the field names in order, and no partition bounds. |
| MergeReplaceMotif.Build | airflow_concert/motif/merge_table.py:106-142 | `build` adds one group named after the motif under the given group, holding one Python task that runs the merge-query builder with those arguments, and adds no edge. |
| MergeReplaceMotif.MotifMatchIsKeyOnly | airflow_concert/motif/merge_table.py:111-142 | The statement the motif renders is always produced, and its match is key equality alone, because the motif never passes a partition field. |
| MergeReplaceMotif.PiiColumnsRoundTrip | airflow_concert/motif/merge_table.py:112 | Comma-free PII column names survive the trip through the comma-joined argument: splitting it gives back exactly those names. |
| BigQueryJob.ParseTableReference | debussy_concert/motif/mixins/bigquery_job.py:18-25 | A table URI parses exactly when it holds exactly two dots; the parts then join back, with dots, to the URI, and none contains a dot. Anything else raises `AttributeError`, as reading a group of a failed match does. |
| BigQueryJob.ParseDotted | debussy_concert/motif/mixins/bigquery_job.py:18-33 | Round trip: three dot-free parts joined by dots parse back to exactly those parts. |
| BigQueryJob.TableReference.ToDict | debussy_concert/motif/mixins/bigquery_job.py:27-33 | The REST reference has exactly the keys `projectId`, `datasetId` and `tableId`, holding the parsed project, dataset and table. |
| BigQueryJob.TimePartitioning.ToDict | debussy_concert/motif/mixins/bigquery_job.py:55-61 | The REST partitioning has exactly the keys `type`, `expirationMs` and `field`, holding the three constructor arguments. |
| BigQueryJob.NewTimePartitioning | debussy_concert/motif/mixins/bigquery_job.py:48-53 | A partitioning is created exactly when its type is `DAY`, `HOUR`, `MONTH` or `YEAR`, and keeps its three arguments; otherwise it raises `ValueError("Invalid type: ...")`. |
| BigQueryJob.QueryJobConfiguration | debussy_concert/motif/mixins/bigquery_job.py:65-82 | The query job uses standard SQL and keeps the given dispositions. A destination table appears exactly when the argument is truthy, as the parsed reference's dictionary, and a malformed one makes the configuration fail. A time partitioning appears exactly when one is given. |
| BigQueryJob.ExtractJobConfiguration | debussy_concert/motif/mixins/bigquery_job.py:84-127 | An unknown destination format raises `ValueError` before the source is parsed. Otherwise the configuration succeeds exactly when the source parses. It then holds the source reference, the URIs as a list (one URI becomes a one-element list), a header row, and the given delimiter and format. |
| BigQueryJob.QueryDestinationRoundTrip | debussy_concert/motif/mixins/bigquery_job.py:27-82 | A query job writing to a table named by three dot-free parts records exactly those parts as `projectId`, `datasetId` and `tableId`. |
| QueryJobMotif.New | debussy_concert/motif/bigquery_query_job.py:8-16 | A new motif is not set up yet and keeps the dispositions and partitioning it is given, which default to `WRITE_APPEND`, `CREATE_IF_NEEDED` and none; a falsy name falls back to the class name. |
| QueryJobMotif.SetUp | debussy_concert/motif/bigquery_query_job.py:18-22 | `setup` records the query and the destination and changes nothing else. |
| QueryJobMotif.Configuration | debussy_concert/motif/bigquery_query_job.py:24-35 | The configuration exists exactly when the motif was set up with an absent or well-formed destination. Before `setup` it raises `AttributeError` for `sql_query`. |
| QueryJobMotif.Build | debussy_concert/motif/bigquery_query_job.py:24-35 | `build` succeeds exactly when the configuration does. It adds one insert-job task, named after the motif, to the given group, on the default connection, and adds no edge. |
| QueryJobMotif.SetupThenBuild | debussy_concert/motif/bigquery_query_job.py:18-35 | After `setup(sql)`, the built task runs exactly that SQL with no destination, and with the dispositions given at construction. It is time-partitioned exactly when the motif was, with that partitioning's dictionary. |
| ExportTable.ExportSql | debussy_concert/data_ingestion/motif/export_table.py:14-18 | The export statement is always produced: the `EXPORT DATA` text with the URI and the query in their places. |
| ExportTable.NewQueryMotif | debussy_concert/data_ingestion/motif/export_table.py:20-24 | The export motif keeps its query and partition, and has neither a destination nor a SQL query yet. |
| ExportTable.SetUpQueryMotif | debussy_concert/data_ingestion/motif/export_table.py:26-34 | `setup` stores the destination and sets the query job's SQL to the export of the query to `<destination>/<partition>/*.parquet`, with no destination table. |
| ExportTable.ExportUri | debussy_concert/data_ingestion/motif/export_table.py:28-30 | The export URI starts with the destination and continues with exactly two more path segments, the partition and `*.parquet`. |
| ExportTable.ExportQueryBuilds | debussy_concert/data_ingestion/motif/export_table.py:26-34 | After `setup`, with the destination table it never assigns taken as `None`, the export motif builds one query task running that export statement. |
| ExportTable.NewMySqlMotif | debussy_concert/data_ingestion/motif/export_table.py:41-47 | The MySQL export motif keeps its movement parameters and has no destination yet; a falsy name falls back to the class name. |
| ExportTable.SetUpMySqlMotif | debussy_concert/data_ingestion/motif/export_table.py:131-133 | `setup` stores the destination and changes nothing else. |
| ExportTable.JdbcUrl | debussy_concert/data_ingestion/motif/export_table.py:177 | The JDBC URL is the fixed MySQL prefix, with the host and port placeholders left literal, followed by the source name. |
| ExportTable.RawVaultPath | debussy_concert/data_ingestion/motif/export_table.py:193-194 | The job writes under the destination, followed by the load-date and load-timestamp partition segments. |
| ExportTable.JdbcArgs | debussy_concert/data_ingestion/motif/export_table.py:186-195 | The PySpark job gets seven arguments in order: driver, JDBC URL, the latest secret version, source name, query, run timestamp and raw-vault path. |
| ExportTable.BuildMySqlMotif | debussy_concert/data_ingestion/motif/export_table.py:149-204 | `build` succeeds exactly when the motif was set up (otherwise `AttributeError` for `destination_storage_uri`). It adds a group named after the motif holding a start task, cluster creation, the JDBC job and cluster deletion. |
| ExportTable.MySqlChainOrder | debussy_concert/data_ingestion/motif/export_table.py:149-163 | The motif's four tasks run strictly one after another, in that order, and nothing else is linked inside its group. |
| ExternalTable.TableResourceFor | debussy_concert/pipeline/data_ingestion/motif/create_external_table.py:14-26 | The table resource is an external PARQUET table with hive partitioning AUTO over the given prefix and a single source URI. |
| ExternalTable.SourceUrisUnderPrefix | debussy_concert/pipeline/data_ingestion/motif/create_external_table.py:14-26 | The single source URI selects every Parquet file directly under the prefix. |
| ExternalTable.New | debussy_concert/pipeline/data_ingestion/motif/create_external_table.py:10-12 | A new motif keeps its connection, defaulting to `google_cloud_default`, and is not set up yet. |
| ExternalTable.SetUp | debussy_concert/pipeline/data_ingestion/motif/create_external_table.py:28-33 | `setup` stores the prefix and the table, keeps the rest, and returns the motif. |
| ExternalTable.Build | debussy_concert/pipeline/data_ingestion/motif/create_external_table.py:35-50 | `build` succeeds exactly when the motif was set up (otherwise `AttributeError`). It adds one task creating the table over the prefix, with the motif's connection as the BigQuery connection. |
| ExternalTable.SetupThenBuild | debussy_concert/pipeline/data_ingestion/motif/create_external_table.py:28-50 | What `setup` supplies is what the task uses: the prefix as both bucket and hive prefix, the table as destination, and the task named after the motif. |
| ExternalTableLegacy.New | airflow_concert/motif/create_external_table.py:9-20 | The older motif keeps its table, and its prefix and destination, both absent by default. |
| ExternalTableLegacy.SetUp | airflow_concert/motif/create_external_table.py:36-42 | `setup` overwrites the prefix and the destination and keeps the rest. |
| ExternalTableLegacy.SetUpOverwrites | airflow_concert/motif/create_external_table.py:36-42 | Only the last `setup` matters. |
| ExternalTableLegacy.Build | airflow_concert/motif/create_external_table.py:22-56 | `build` always adds one task named after the motif that creates the external table from the stored prefix and destination. |
| ExternalTableLegacy.BuildWithoutPrefix | airflow_concert/motif/create_external_table.py:22-34 | Built without a prefix, the table reads from `None/*.parquet`, because the f-string renders the missing prefix as `None`. |
| SourceToGcs.New | examples/storage_ingestion/storage_ingestion_dag.py:26-36 | The copy motif keeps the source hook and file, and always writes through a Cloud Storage hook on the lake connection; it is not set up yet. |
| SourceToGcs.SetUp | examples/storage_ingestion/storage_ingestion_dag.py:38-42 | `setup` stores the destination and the partition directory under it, and keeps the rest. |
| SourceToGcs.SchemaUri | examples/storage_ingestion/storage_ingestion_dag.py:40-42 | The partition directory starts with the destination and adds exactly one path segment, the partition, ending in a separator. |
| SourceToGcs.Build | examples/storage_ingestion/storage_ingestion_dag.py:44-54 | `build` succeeds exactly when the motif was set up (otherwise `AttributeError` for `gcs_schema_uri`). It adds one copy task from the source file to `0.parquet` in the partition directory. |
| SourceToGcs.SetupThenBuild | examples/storage_ingestion/storage_ingestion_dag.py:38-54 | After `setup(d)`, the file is copied to `d/<partition>/0.parquet`. |
| Motifs.Build | airflow_concert/phrase/phrase_base.py:35-37 | A motif's build succeeds exactly when everything it reads was set up; it then adds one subtree under the given group whose root has the id the motif fixes. A merge or load motif that was never set up fails with `AttributeError` naming the first missing setup argument; the older tree's table export and the opaque start and end motifs always build. |
| Phrases.New | airflow_concert/phrase/phrase_base.py:17-24 | A phrase keeps its motifs, or has none when none are given; a falsy name falls back to the class name. |
| Phrases.AddMotif | airflow_concert/phrase/phrase_base.py:26-27 | `add_motif` appends at the end and keeps the earlier motifs in order. |
| Phrases.Build | airflow_concert/phrase/phrase_base.py:32-40 | An empty phrase raises `IndexError`. Otherwise the build succeeds exactly when every motif builds. It then creates one group named after the phrase, holding exactly one child per motif in motif order, each linked to the next and nothing else linked at that level. |
| Phrases.Play | airflow_concert/phrase/phrase_base.py:29-30 | `play` is `build`, with the same outcome. |
| Phrases.ChainBuiltSubtree | airflow_concert/phrase/phrase_base.py:32-40 | A chain built under a group is a single subtree of it, rooted at a group carrying the chain's name. |
| Phrases.NewEndPhrase | debussy_concert/core/phrase/utils/end.py:6-11 | An end phrase holds exactly one motif: the given end motif, or else a fresh `EndMotif`. |
| Phrases.EndPhraseBuildable | debussy_concert/core/phrase/utils/end.py:6-11 | The default end phrase always builds. |
| Movements.New | debussy_concert/core/movement/movement_base.py:23-34 | A movement keeps its phrases in order; a falsy name falls back to the class name. |
| Movements.PhraseIds | debussy_concert/core/movement/movement_base.py:43-48 | The phrase groups carry the phrases' names, in order. |
| Movements.Build | debussy_concert/core/movement/movement_base.py:39-49 | A movement without phrases raises `IndexError`. Otherwise the build succeeds exactly when every phrase has motifs that all build. It then creates one group under the DAG holding exactly one phrase group per phrase, in order, each linked to the next; each phrase group in turn holds its phrase's motifs, in order, each linked to the next. |
| Movements.Play | debussy_concert/core/movement/movement_base.py:36-37 | `play` is `build`, with the same outcome. |
| Compositions.NewDagFrom | airflow_concert/composition/composition_base.py:60 | A DAG is made exactly when the parameters hold a string `dag_id`; it carries that id and the parameters. |
| Compositions.MultiDagId | airflow_concert/composition/composition_base.py:51 | A target's DAG id is the base id, a dot, and the target's name; without a base id, reading it raises `AttributeError`. |
| Compositions.MultiDagIdsDistinct | airflow_concert/composition/composition_base.py:51 | Targets with distinct names get distinct DAG ids. |
| Compositions.MultiDagParameters | airflow_concert/composition/composition_base.py:51-54 | The DAG `build_multi_dag` makes for a target is named by that target's multi-DAG id and gets every parameter except `dag_id`, with its value unchanged. |
| Compositions.Build | airflow_concert/composition/composition_base.py:59-65 | The build succeeds exactly when the DAG can be made and every target's movement can be made and built. It then returns one DAG, the only DAG node, holding one separate movement group per target, in target order, with nothing linking different targets' movements. Each movement group holds its movement's phrase groups chained in order, and each of those holds its motifs chained in order. |
| Compositions.Play | airflow_concert/composition/composition_base.py:41-42 | `play` is `build`, with the same outcome. |
| Compositions.BuildOwn | airflow_concert/composition/composition_base.py:50-56 | One round of `build_multi_dag`: a fresh DAG with the target's id and the other parameters, holding exactly the target's movement, its phrase groups chained in order, each holding its motifs chained in order. |
| Compositions.BuildMulti | airflow_concert/composition/composition_base.py:47-57 | `build_multi_dag` succeeds exactly when every target's movement can be made and built, and, when there are targets, the parameters name a DAG. It then returns one DAG per target, in order, each holding exactly that target's movement, down to the chained motifs of every phrase. |
| Compositions.MultiPlay | airflow_concert/composition/composition_base.py:44-45 | `multi_play` is `build_multi_dag`, with the same outcome. |
| DagParameters.CreateFromDict | debussy_concert/core/config/config_dag_parameters.py:11-23 | A missing `start_date` raises `KeyError`, and one that is neither a date nor a dictionary raises `TypeError` naming its type. Otherwise dictionary dates become dates and everything else is kept. The caller's dictionary and the stored arguments agree. |
| DagParameters.CreateFromDictIdempotent | debussy_concert/core/config/config_dag_parameters.py:11-23 | A dictionary `create_from_dict` wrote back is accepted again and comes back unchanged. |
| DagParameters.GetItem | debussy_concert/core/config/config_dag_parameters.py:25-29 | `p[k]` finds a stored argument first, then a method of the class, and otherwise raises `AttributeError`. |
| DagParameters.Spread | debussy_concert/core/config/config_dag_parameters.py:25-29 | `{**p}` yields exactly the stored keys, each with what `p[k]` finds. |
| DagParameters.SpreadRoundTrip | debussy_concert/core/config/config_dag_parameters.py:7-9 | Parameters made from a dictionary and spread again give back that dictionary. |
| IngestionPhrases.SetUpExport | debussy_concert/data_ingestion/motif/export_table.py:26-34 | The phrase's `setup` sets up an export motif with the destination and leaves any other motif as it is; the motif's root id does not change. |
| IngestionPhrases.SetUpExportBuildable | debussy_concert/data_ingestion/motif/export_table.py:131-133 | Setting up a storage export motif makes it buildable. |
| IngestionPhrases.RawMotifs | debussy_concert/pipeline/data_ingestion/phrase/raw_vault_to_raw.py:22-31 | The external-table raw phrase creates the table and then merges; the load phrase holds only its load motif. |
| IngestionPhrases.TableUri | debussy_concert/pipeline/data_ingestion/phrase/raw_vault_to_raw.py:33-39 | A table URI built from dot-free parts parses back as table `<prefix>_<name>` of that dataset and project. |
| IngestionPhrases.RawVaultExternalTableUri | debussy_concert/pipeline/data_ingestion/phrase/raw_vault_to_raw.py:33-39 | The raw-vault external table is the target's table in the raw-vault dataset, known only once movement parameters are set (otherwise `AttributeError`). |
| IngestionPhrases.TableUriDataset | debussy_concert/pipeline/data_ingestion/phrase/raw_vault_to_raw.py:33-39 | Two table URIs of the same target agree exactly when their datasets do. |
| IngestionPhrases.SetUpRaw | debussy_concert/pipeline/data_ingestion/phrase/raw_vault_to_raw.py:41-73 | After the raw phrase's `setup`, the external table is created over the raw-vault prefix and merged into the raw table, or the load reads the prefix into the raw table. Either way every motif of the phrase builds. |
| IngestionPhrases.PlaceholderRawToTrusted | debussy_concert/data_ingestion/composition/debussy.py:68-74 | The raw-to-trusted phrase is `Raw_to_Trusted_Phrase` with one query motif set up to run `select 1`, and it builds. |
| DataIngestion.LandingKeywordRejected | debussy_concert/data_ingestion/movement/data_ingestion.py:15-22 | A call passing `name`, `start_phrase` and then a landing-storage phrase keyword is rejected with `TypeError` for that keyword. |
| DataIngestion.PhraseList | debussy_concert/data_ingestion/movement/data_ingestion.py:32-37 | The phrases are start, ingestion, the create-or-update phrase only when given, raw, and end, in that order. |
| DataIngestion.AsMovement | debussy_concert/data_ingestion/movement/data_ingestion.py:38 | The movement handed to `MovementBase` has that phrase list, and its name falls back to the class name when empty. |
| DataIngestion.RawVaultBucketUriPrefix | debussy_concert/data_ingestion/movement/data_ingestion.py:40-43 | For slash-free parts, the raw-vault prefix reads, segment by segment, as `gs:`, an empty segment, the raw-vault bucket, the source type, the source name and the target. |
| DataIngestion.RawTableUri | debussy_concert/data_ingestion/movement/data_ingestion.py:45-49 | For dot-free parts, the raw table URI parses back as table `<prefix>_<target>` of the raw dataset in the project. |
| DataIngestion.SetUp | debussy_concert/data_ingestion/movement/data_ingestion.py:51-68 | `setup` stores the parameters. It sets up the ingestion phrase with the raw-vault prefix, the optional table phrase with the raw table, and the raw phrase with both; start and end are unchanged. |
| DataIngestion.SetUpHandsOver | debussy_concert/data_ingestion/movement/data_ingestion.py:51-68 | After `setup`, the raw phrase reads exactly the storage the ingestion phrase writes to. |
| DataIngestion.SetUpBuildable | debussy_concert/data_ingestion/movement/data_ingestion.py:51-68 | After `setup`, a movement whose start and end build and whose export is a storage export builds in full. |
| IngestionComposition.LoadMotifFor | debussy_concert/data_ingestion/composition/base.py:57-77 | The load motif is a PARQUET truncate-and-create load with hive partitioning AUTO over the prefix, time-partitioned by the target's granularity and field. An unknown granularity raises `ValueError`. |
| IngestionComposition.LandingPrefix | debussy_concert/data_ingestion/composition/base.py:42-43 | For slash-free parts, the landing prefix reads, segment by segment, as `gs:`, an empty segment, the landing bucket, the source type, the source name and the target. |
| IngestionComposition.LandingToRawPhrase | debussy_concert/data_ingestion/composition/base.py:38-55 | The landing-to-raw phrase loads from the target's landing prefix and storage partition, partitioned as the target says, over the extract connection. |
| IngestionComposition.MovementNameInjective | debussy_concert/data_ingestion/composition/base.py:27 | Targets get equal movement names exactly when their names are equal. |
| IngestionComposition.BuildMovementAsWritten | debussy_concert/data_ingestion/composition/base.py:18-36 | The builder as written never returns a movement: an unknown granularity raises `ValueError`, and a valid one makes the constructor reject the landing-storage keyword with `TypeError`. |
| IngestionComposition.KeywordsBind | debussy_concert/data_ingestion/movement/data_ingestion.py:15-22 | The constructor's own keyword names bind: every one is declared and every required one is supplied. |
| IngestionComposition.BuildMovement | debussy_concert/data_ingestion/composition/base.py:18-36 | The corrected builder fails only on an unknown granularity. Its movement is `DataIngestionMovement_<target>`, set up for the target, with the ingestion phrase writing to the raw-vault prefix and the load reading it into the raw table. |
| IngestionComposition.BuiltMovementShape | debussy_concert/data_ingestion/composition/base.py:18-36 | The corrected movement has start, ingestion, landing-to-raw and end phrases, in order, and builds in full when its export is a storage export. |
| Debussy.LandingAndRawDifferInDataset | debussy_concert/data_ingestion/composition/debussy.py:28-36 | A target's landing external table and raw table are the same table exactly when the two datasets are the same. |
| Debussy.LandingBucketUriPrefix | debussy_concert/data_ingestion/composition/debussy.py:24-26 | For slash-free parts, the landing prefix reads, segment by segment, as `gs:`, an empty segment, the landing bucket, the engine, the database and the target. |
| Debussy.LandingExternalTableUri | debussy_concert/data_ingestion/composition/debussy.py:28-31 | For dot-free parts, the landing external table parses back as table `<prefix>_<target>` of the landing dataset in the project. |
| Debussy.RawTableUri | debussy_concert/data_ingestion/composition/debussy.py:33-36 | For dot-free parts, the raw table parses back as table `<prefix>_<target>` of the raw dataset in the project. |
| Debussy.CreateExternalMotif | debussy_concert/data_ingestion/composition/debussy.py:100-109 | The external table is set up over the target's landing prefix and created as the landing external table. |
| Debussy.MergeMotif | debussy_concert/data_ingestion/composition/debussy.py:88-98 | The merge motif merges the landing external table into the raw table. |
| Debussy.LandingToRawPhrase | debussy_concert/data_ingestion/composition/debussy.py:76-86 | `Landing_to_Raw_Phrase` creates the landing external table, then merges that very table into the raw table, and both motifs build. |
| Debussy.RdbmsMovementBuilder | debussy_concert/data_ingestion/composition/debussy.py:49-66 | As written, the movement's constructor rejects the landing-storage keyword, so no movement is returned. |
| Debussy.MySqlMovementBuilder | debussy_concert/data_ingestion/composition/debussy.py:38-47 | As written, the export motif's constructor rejects the `config` keyword before anything else is made. |
| FeuxDArtifice.RdbmsBuilderFn | debussy_concert/data_ingestion/composition/feux_dartifice.py:47-55 | A builder is found exactly for `mysql`; any other engine raises `NotImplementedError` naming it. |
| FeuxDArtifice.IngestionPhraseFor | debussy_concert/data_ingestion/composition/feux_dartifice.py:33-40 | The ingestion phrase holds the full-table export of the target, not yet set up. |
| FeuxDArtifice.LandingToRawPhrase | debussy_concert/data_ingestion/composition/feux_dartifice.py:85-107 | `Landing_to_Raw_Phrase` holds a default create-external motif and then a merge motif for the target, neither set up. |
| FeuxDArtifice.RdbmsIngestionMovementBuilder | debussy_concert/data_ingestion/composition/feux_dartifice.py:57-75 | As written, the movement's constructor rejects the landing-storage keyword, so neither the name nor `setup` is reached. |
| FeuxDArtifice.MySqlTargetsBuildable | debussy_concert/data_ingestion/composition/feux_dartifice.py:28-31 | The registered builder gets a movement for every target only when there are no targets. |
| FeuxDArtifice.AutoPlay | debussy_concert/data_ingestion/composition/feux_dartifice.py:42-45 | `auto_play` fails for an engine other than `mysql`. With `mysql`, it yields a DAG exactly when the parameters name one and there are no targets. |
| AirflowFeux.RdbmsBuilderFn | airflow_concert/composition/feux_dartifice.py:47-55 | A builder is found exactly for `mysql`, and it is the MySQL builder; any other engine raises `NotImplementedError` naming it. |
| AirflowFeux.PostgresUnreachable | airflow_concert/composition/feux_dartifice.py:47-55 | The postgres builder is never picked, whatever the configured engine. |
| AirflowFeux.LandingToRawPhrase | airflow_concert/composition/feux_dartifice.py:83-91 | `Landing_to_Raw_Phrase` holds the table's create-external motif and then its merge motif. |
| AirflowFeux.RdbmsIngestionMovementBuilder | airflow_concert/composition/feux_dartifice.py:57-73 | The movement is `Movement_<table>`, holds a `StartPhrase`, the given ingestion phrase, the landing-to-raw phrase, the `select 1` raw-to-trusted phrase and an `EndPhrase`, and is set up with the composition's configuration and the table. |
| AirflowFeux.MySqlFullLoadMovementBuilder | airflow_concert/composition/feux_dartifice.py:26-32 | The movement is `Movement_<table>`, set up with the composition's configuration and that table, and its ingestion phrase exports that same table. |
| AirflowFeux.PostgresFullLoadMovementBuilder | airflow_concert/composition/feux_dartifice.py:34-40 | The same: `Movement_<table>`, set up with the configuration and the table, exporting that table with the MySQL export motif. |
| AirflowFeux.BuildersAgree | airflow_concert/composition/feux_dartifice.py:26-40 | The MySQL and postgres builders make the same movement for the same table. |
| StorageIngestion.SourceHook | examples/storage_ingestion/storage_ingestion_dag.py:67-80 | `gcs` reads through a Cloud Storage hook and `s3` through an S3 hook, both on the target's extract connection. Any other storage type raises `KeyError`. |
| StorageIngestion.SourceMotif | examples/storage_ingestion/storage_ingestion_dag.py:58-65 | The copy motif reads the target's file through the given hook into the lake over the data-lake connection, under the target's storage partition. |
| StorageIngestion.MotifFromSource | examples/storage_ingestion/storage_ingestion_dag.py:75-80 | A motif is made exactly for `gcs` and `s3` targets, from the hook the table picks. |
| StorageIngestion.SourcesDifferOnlyInHook | examples/storage_ingestion/storage_ingestion_dag.py:67-80 | A `gcs` target and an `s3` target that agree on everything else get motifs that differ only in the source hook. |
| StorageIngestion.BuildMovementAsWritten | examples/storage_ingestion/storage_ingestion_dag.py:75-92 | As written, no target gets a movement: an unknown storage type raises `KeyError`, and a known one fails the builder call with `TypeError` for `ingestion_to_raw_vault_phrase`. |
| StorageIngestion.BuildMovement | examples/storage_ingestion/storage_ingestion_dag.py:85-92 | The corrected builder fails with `KeyError` for an unknown storage type, and otherwise hands the copy phrase to the ingestion builder. |
| StorageIngestion.BuiltMovementCopiesIntoRawVault | examples/storage_ingestion/storage_ingestion_dag.py:38-54 | The corrected movement copies the target's file into `<raw-vault prefix>/<partition>/`, and `setup` makes the raw-vault prefix the load's source. The load's hive source prefix stays the landing prefix the composition gave it. The movement builds in full. |
| StorageIngestion.TargetsBuildable | examples/storage_ingestion/storage_ingestion_dag.py:75-92 | Every target gets a movement that builds exactly when every target reads from `gcs` or `s3` and has a valid granularity. |
| StorageIngestion.Play | examples/storage_ingestion/storage_ingestion_dag.py:159-161 | Playing the corrected builder yields one DAG with one movement per target, in order, exactly when the parameters name the DAG and every target is ingestible; each movement group holds its phrases, and each phrase group its motifs, chained in order. |
| Kwargs.Bind | debussy_concert/data_ingestion/movement/data_ingestion.py:15-22 | Binding keywords succeeds exactly when every keyword is declared and every required parameter is supplied. An undeclared keyword raises `TypeError` naming the first one; otherwise `TypeError` names the first missing parameter. |

## Left out

- Airflow itself (`DAG`, `TaskGroup`, the operators, `>>`) is replaced by the `Workflow` graph; operators are records of their arguments, and nothing runs.
- The `inject` dependency injection and `workflow_service` are made explicit: the group and chaining helpers they provide are the `Workflow` functions.
- Jinja macros (`{{ ds }}`, `{{ ts_nodash }}`) are literal strings; rendering them is Airflow's job at run time.
- `str.format` brace escapes (`{{`, `}}`) and format specifications are not modelled; the templates the core formats contain neither.
- Error messages follow CPython 3.10+ wording; only the exception class and the offending name are meant to match.
- `datetime(**parts)` in `create_from_dict` is abstract: the parts are kept, and an invalid date is not detected.
- `getattr` on attributes other than the stored arguments and the two methods (dunder names, inherited object methods) is not modelled in `DagParameters.GetItem`.
- YAML configuration loading (`create_from_yaml`, `load_from_file`) is left out; configurations are given as records.
- The Dataproc `cluster_config` and the creation and deletion operators are opaque tasks; `get_db_conn_data` reads Secret Manager (I/O) and is left out.
- `StartPhrase`, the ingestion-phrase classes, `MergeBigQueryTableMotif`, `LoadGcsToBigQueryHivePartitionMotif`, `DataWarehouseRawToTrustedPhrase`, the older tree's `DataIngestionMovement`, export, start and end classes, the older tree's `BigQueryQueryJobMotif` (`airflow_concert.motif.bigquery_query_job`, for which the newer `QueryJobMotif` stands in, so the placeholder raw-to-trusted phrase's `BigQueryQueryJobMotif(sql_query='select 1')` is `QueryJobMotif.New()` set up with `select 1`), and the ingestion tree's own create-external and merge motif classes are not part of this model. Each is modelled by the shape its callers use, and its build by what the caller needs: success once the arguments its build reads are set up, and a root id where the code fixes one.
- `debussy_concert.core.motif.bigquery_query_job`, which `ExportBigQueryQueryToGcsMotif` extends, is not part of this model; `BigQueryQueryJobMotif` of `debussy_concert/motif/bigquery_query_job.py` stands in for it. Likewise `debussy_concert.core.phrase.phrase_base` is modelled by the older `PhraseBase`.
- ExportTable.NewQueryMotif: the constructor's `gcp_conn_id` (default `google_cloud_default`) and `**op_kw_args` are not recorded, because they are only forwarded to the base class's constructor, which is not part of this model. The stand-in `BigQueryQueryJobMotif` takes `config` first and no `gcp_conn_id`, so the forwarding call would fail against it; the model assumes the missing base class binds `name` to the name and accepts the connection id.
- ExportTable.ExportQueryBuilds: assumes that the query-job base class leaves `destination_table` as `None` when `setup` does not assign it. `ExportBigQueryQueryToGcsMotif.setup` (export_table.py:26-34) assigns only the storage destination and the SQL. `BigQueryQueryJobMotif` of `debussy_concert/motif/bigquery_query_job.py` assigns `destination_table` only in its own `setup` (lines 18-22), so with it `build` would raise `AttributeError` for `destination_table` (line 29). The base class the export motif actually extends is not part of this model.
- ExportTable.SetUpQueryMotif: records `destination_table` as `None` under the same assumption.
- IngestionPhrases.SetUpExportBuildable: for a query export, rests on the same assumption about `destination_table`.
- Phrases.New: `self.motifs = motifs` shares the caller's list, so a later `add_motif` on the phrase also grows that list. The model's phrases are values, so this sharing is not modelled.
- Motifs.BuildUnseen: the build of a merge or load motif that was never set up is assumed to raise `AttributeError` for its first missing setup argument, because those motif classes are not part of this model.
- `debussy_concert.core.composition.composition_base`, which `DataIngestionBase` (base.py:4) and the ingestion tree's `FeuxDArtifice` (feux_dartifice.py:6) extend, and `debussy_concert.composition.composition_base`, which `Debussy` extends, are not part of this model. The older `airflow_concert` `CompositionBase` stands in for all of them, so `FeuxDArtifice.AutoPlay` and `StorageIngestion.Play` go through `Compositions.Play`.
- The older `airflow_concert` movement base is not part of this model. In its place `composition_base.py:64` is paired with the newer `MovementBase`, whose `build(self, workflow_dag)` (movement_base.py:39) does not declare `dag`, so the keyword call `movement.build(dag=dag)` would raise `TypeError` against it. Likewise `build_multi_dag` calls `movement_builder(table).play(dag=dag)` (composition_base.py:55), and `play(*args, **kwargs)` (movement_base.py:36-37) forwards `dag=` to the same `build`, so that call would raise `TypeError` too. The model assumes the DAG binds to `workflow_dag` at both calls: `Compositions.Build` builds through `Movements.Build`, and `Movements.Play`, `Compositions.BuildOwn` and `Compositions.BuildMulti` build through `Movements.Play`, without applying the keyword binding.
- `debussy_concert.core.motif.mixins.bigquery_job`, from which base.py:11 imports `BigQueryTimePartitioning` and `HivePartitioningOptions`, is not part of this model. `debussy_concert/motif/mixins/bigquery_job.py` stands in for the partitioning, and the hive options are recorded as the load motif's `AUTO` mode and source prefix, since that file defines no `HivePartitioningOptions`.
- `debussy_concert.phrase.utils.end`, whose `EndPhrase(config=self.config)` debussy.py:55 calls, is not part of this model. `Phrases.NewEndPhrase` follows `debussy_concert/core/phrase/utils/end.py:6-11` instead, which has no `config` parameter, so that `config=` keyword is dropped rather than rejected.
- `AirflowFeux`: the older `feux_dartifice.py` imports `MergeBigQueryTableMotif`, which `merge_table.py` does not define, so importing the module fails. Its `auto_play` and `play` are therefore not modelled, and its movements are recorded as the calls that construct them.
- `FeuxDArtifice.create_from_yaml` passes `config=` to an `__init__` that takes no parameters; it is left out together with YAML loading.
- `Debussy.RdbmsMovementBuilder`, `Debussy.MySqlMovementBuilder` and `FeuxDArtifice.RdbmsIngestionMovementBuilder` are modelled only as written. A corrected version would be `IngestionComposition.BuildMovement`'s shape with a different raw phrase, and is not repeated.
- `tables_service.tables()` and the compositions' target lists are given as a sequence parameter.
- The other example DAGs and the command-line entry points are left out.
- `BigQueryJob.ParseTableReference`: Python's `$` also matches before a final newline, but the `[^.]*` groups consume that newline greedily, so the model's dot count agrees with the pattern; this is argued here, not proved against a regular-expression engine.

## Findings

| source | as written | input that shows it | evidently intended | confidence | as-written member | corrected member |
|---|---|---|---|---|---|---|
| debussy_concert/data_ingestion/composition/base.py:28-34 | `DataIngestionMovement(...)` is called with `ingestion_source_to_landing_storage_phrase=` and `landing_storage_to_data_warehouse_raw_phrase=`, which the constructor (data_ingestion.py:15-22) does not declare | any target whose partition granularity is `DAY`: the call raises `TypeError` for `ingestion_source_to_landing_storage_phrase` | pass the phrases as `ingestion_source_to_raw_vault_storage_phrase=` and `raw_vault_storage_to_data_warehouse_raw_phrase=` | high (not executed) | IngestionComposition.BuildMovementAsWritten | IngestionComposition.BuiltMovementShape |
| examples/storage_ingestion/storage_ingestion_dag.py:88-91 | `ingestion_movement_builder` is called with `ingestion_to_raw_vault_phrase=`, but its parameter is `ingestion_to_landing_phrase` (base.py:18-21) | any target with storage type `gcs`: the call raises `TypeError` for `ingestion_to_raw_vault_phrase` | pass the phrase under the declared keyword `ingestion_to_landing_phrase=` | high (not executed) | StorageIngestion.BuildMovementAsWritten | StorageIngestion.BuiltMovementCopiesIntoRawVault |

=== FILE: airflow_feux.dfy ===
/** `FeuxDArtifice` of the older tree: one movement per catalog table, made
    of a start phrase, the export of the table to the landing bucket, the
    landing-to-raw phrase, a placeholder raw-to-trusted phrase and an end
    phrase. That tree's `DataIngestionMovement`, start and end phrases and
    export motif are not part of this model, so a movement is recorded as
    the call that constructs it and the `setup` call that follows. */
module AirflowFeux {
  import opened Results
  import Config
  import ExternalTableLegacy
  import Motifs
  import Phrases
  import opened IngestionPhrases

  /** The builders of the composition: only `MySqlFullLoad` is in `rdbms_builder_fn`'s table. */
  datatype Builder = MySqlFullLoad | PostgresFullLoad

  /** `rdbms_builder_fn`. */
  function RdbmsBuilderFn(config: Config.Composition): (r: Result<Builder>)
    ensures r.Ok? <==> config.rdbmsName == "mysql"
    ensures r.Ok? ==> r.value == MySqlFullLoad
    ensures r.Err? ==> r.error == NotImplementedError("Invalid rdbms: " + config.rdbmsName + " not implemented")
  {
    if config.rdbmsName == "mysql" then Ok(MySqlFullLoad)
    else Err(NotImplementedError("Invalid rdbms: " + config.rdbmsName + " not implemented"))
  }

  /** The postgres builder is never picked, whatever the configured engine. */
  lemma PostgresUnreachable(config: Config.Composition)
    ensures RdbmsBuilderFn(config) != Ok(PostgresFullLoad)
  {
  }

  /** A movement as constructed: its name, its phrases by role, and the
      arguments of the `setup(config, table)` call made before it is returned. */
  datatype MovementCall = MovementCall(
    name: string,
    start: Phrases.Phrase,
    ingestion: IngestionPhrase,
    landingToRaw: Phrases.Phrase,
    rawToTrusted: Phrases.Phrase,
    end: Phrases.Phrase,
    setupConfig: Config.Composition,
    setupTable: Config.Table)

  /** `gcs_landing_to_bigquery_raw_phrase`: `Landing_to_Raw_Phrase` with the
      table's create-external motif, then its merge motif. */
  function LandingToRawPhrase(table: Config.Table): (p: Phrases.Phrase)
    ensures p.name == "Landing_to_Raw_Phrase" && |p.motifs| == 2
    ensures p.motifs[0] == Motifs.CreateExternalLegacy(ExternalTableLegacy.New(table))
    ensures p.motifs[1] == Motifs.Opaque("MergeBigQueryTableMotif")
  {
    Phrases.New("LandingStorageExternalTableToDataWarehouseRawPhrase",
                Some([Motifs.CreateExternalLegacy(ExternalTableLegacy.New(table)), Motifs.Opaque("MergeBigQueryTableMotif")]),
                Some("Landing_to_Raw_Phrase"))
  }

  /** `rdbms_ingestion_movement_builder`: `Movement_<table>`, set up with the
      composition's configuration and the table. The start and end phrases
      have the same shape as the ingestion tree's: one start motif, one end motif. */
  function RdbmsIngestionMovementBuilder(config: Config.Composition, ingestion: IngestionPhrase,
                                         table: Config.Table): (m: MovementCall)
    ensures m.name == "Movement_" + table.name && m.ingestion == ingestion
    ensures m.setupConfig == config && m.setupTable == table
    ensures m.landingToRaw == LandingToRawPhrase(table)
    ensures m.rawToTrusted == PlaceholderRawToTrusted()
    ensures m.start.name == "StartPhrase" && m.end.name == Phrases.EndPhraseClassName
  {
    MovementCall("Movement_" + table.name, StartPhrase(), ingestion, LandingToRawPhrase(table),
                 PlaceholderRawToTrusted(), Phrases.NewEndPhrase(), config, table)
  }

  /** The export of a table to the landing bucket: an
      `IngestionSourceToLandingStoragePhrase` around the table's export motif. */
  function ExportPhrase(config: Config.Composition, table: Config.Table): (p: IngestionPhrase)
    ensures p.exporter == Motifs.ExportLegacy(config, table)
  {
    IngestionPhrase("IngestionSourceToLandingStoragePhrase", None, Motifs.ExportLegacy(config, table))
  }

  /** `mysql_full_load_movement_builder`: the movement of one table, whose
      ingestion phrase exports that same table with the composition's configuration. */
  function MySqlFullLoadMovementBuilder(config: Config.Composition, table: Config.Table): (m: MovementCall)
    ensures m.name == "Movement_" + table.name && m.setupTable == table && m.setupConfig == config
    ensures m.ingestion.exporter == Motifs.ExportLegacy(config, table)
  {
    RdbmsIngestionMovementBuilder(config, ExportPhrase(config, table), table)
  }

  /** `postgres_full_load_movement_builder`: the same movement, exporting
      with the MySQL export motif as well. */
  function PostgresFullLoadMovementBuilder(config: Config.Composition, table: Config.Table): (m: MovementCall)
    ensures m.name == "Movement_" + table.name && m.setupTable == table && m.setupConfig == config
    ensures m.ingestion.exporter == Motifs.ExportLegacy(config, table)
  {
    RdbmsIngestionMovementBuilder(config, ExportPhrase(config, table), table)
  }

  /** The two builders make the same movement for the same table. */
  lemma BuildersAgree(config: Config.Composition, table: Config.Table)
    ensures MySqlFullLoadMovementBuilder(config, table) == PostgresFullLoadMovementBuilder(config, table)
  {
  }
}

=== FILE: bigquery_job.dfy ===
/** The BigQuery job-configuration builders of the newer tree: the
    `project.dataset.table` reference parser, the time-partitioning validator
    and the query and extract job configurations. */
module BigQueryJob {
  import opened Results
  import Strings

  /** A parsed `project.dataset.table` reference. */
  datatype TableReference = TableReference(tableUri: string, projectId: string, datasetId: string, tableId: string)
  {
    /** `to_dict`: the REST `TableReference` object. */
    function ToDict(): (d: map<string, string>)
      ensures d.Keys == {"projectId", "datasetId", "tableId"}
      ensures d["projectId"] == projectId && d["datasetId"] == datasetId && d["tableId"] == tableId
    {
      map["projectId" := projectId, "datasetId" := datasetId, "tableId" := tableId]
    }
  }

  /** The reference text of three parts. */
  function Dotted(project: string, dataset: string, table: string): string
  {
    project + "." + dataset + "." + table
  }

  /** `TableReference(table_uri)`: the anchored pattern of three dot-free
      groups separated by dots. A string that does not match leaves the match
      object `None`, and reading its groups raises `AttributeError`. */
  function ParseTableReference(uri: string): (r: Result<TableReference>)
    ensures r.Ok? <==> Strings.Count(uri, '.') == 2
    ensures r.Err? ==> r.error.AttributeError?
    ensures r.Ok? ==> && r.value.tableUri == uri
                      && Dotted(r.value.projectId, r.value.datasetId, r.value.tableId) == uri
                      && '.' !in r.value.projectId && '.' !in r.value.datasetId && '.' !in r.value.tableId
  {
    var parts := Strings.Split(uri, '.');
    Strings.SplitShape(uri, '.');
    if |parts| == 3 then
      Strings.JoinSplit(uri, '.');
      assert parts == [parts[0], parts[1], parts[2]];
      Strings.JoinThree(".", parts[0], parts[1], parts[2]);
      Ok(TableReference(uri, parts[0], parts[1], parts[2]))
    else
      Err(AttributeError(MissingAttribute("NoneType", "group")))
  }

  /** Round trip from parts: three dot-free parts joined by dots parse back to
      exactly those parts. */
  lemma ParseDotted(project: string, dataset: string, table: string)
    requires '.' !in project && '.' !in dataset && '.' !in table
    ensures ParseTableReference(Dotted(project, dataset, table))
         == Ok(TableReference(Dotted(project, dataset, table), project, dataset, table))
  {
    var parts := [project, dataset, table];
    assert Strings.AllFree(parts, '.');
    Strings.JoinThree(".", project, dataset, table);
    Strings.SplitJoin(parts, '.');
    Strings.SplitShape(Dotted(project, dataset, table), '.');
  }

  /** The partition granularities the validator admits. */
  const TimePartitioningTypes: set<string> := {"DAY", "HOUR", "MONTH", "YEAR"}

  /** A validated time partitioning. */
  datatype TimePartitioning = TimePartitioning(kind: string, expirationMs: Option<string>, field: Option<string>)
  {
    /** `to_dict`: echoes the three attributes under their REST names. */
    function ToDict(): (d: map<string, Option<string>>)
      ensures d.Keys == {"type", "expirationMs", "field"}
      ensures d["type"] == Some(kind) && d["expirationMs"] == expirationMs && d["field"] == field
    {
      map["type" := Some(kind), "expirationMs" := expirationMs, "field" := field]
    }
  }

  /** `BigQueryTimePartitioning(type, expiration_ms, field)`. */
  function NewTimePartitioning(kind: string, expirationMs: Option<string> := None, field: Option<string> := None)
    : (r: Result<TimePartitioning>)
    ensures r.Ok? <==> kind in TimePartitioningTypes
    ensures r.Ok? ==> r.value == TimePartitioning(kind, expirationMs, field)
    ensures r.Err? ==> r.error == ValueError("Invalid type: " + kind)
  {
    if kind !in TimePartitioningTypes then Err(ValueError("Invalid type: " + kind))
    else Ok(TimePartitioning(kind, expirationMs, field))
  }

  /** The `query` job configuration. */
  datatype QueryConfiguration = QueryConfiguration(
    query: string,
    useLegacySql: bool,
    destinationTable: Option<map<string, string>>,
    createDisposition: Option<string>,
    writeDisposition: Option<string>,
    timePartitioning: Option<map<string, Option<string>>>)

  /** The `extract` job configuration. */
  datatype ExtractConfiguration = ExtractConfiguration(
    sourceTable: map<string, string>,
    destinationUris: seq<string>,
    printHeader: bool,
    fieldDelimiter: string,
    destinationFormat: string)

  datatype JobConfiguration = Query(query: QueryConfiguration) | Extract(extract: ExtractConfiguration)

  const DefaultCreateDisposition: Option<string> := Some("CREATE_IF_NEEDED")

  /** `query_configuration`. The destination is parsed only when it is truthy
      (so the empty string yields no destination table); a malformed one makes
      the configuration fail as the parser does. */
  function QueryJobConfiguration(
    sqlQuery: string,
    destinationTable: Option<string> := None,
    createDisposition: Option<string> := DefaultCreateDisposition,
    writeDisposition: Option<string> := None,
    timePartitioning: Option<TimePartitioning> := None): (r: Result<JobConfiguration>)
    ensures r.Ok? <==> !Truthy(destinationTable) || ParseTableReference(destinationTable.value).Ok?
    ensures r.Ok? ==> r.value.Query?
    ensures r.Ok? ==>
      var q := r.value.query;
      && q.query == sqlQuery
      && !q.useLegacySql
      && (q.destinationTable.None? <==> !Truthy(destinationTable))
      && (q.destinationTable.Some? ==>
            q.destinationTable.value == ParseTableReference(destinationTable.value).value.ToDict())
      && (q.timePartitioning.None? <==> timePartitioning.None?)
      && (q.timePartitioning.Some? ==> q.timePartitioning.value == timePartitioning.value.ToDict())
      && q.createDisposition == createDisposition
      && q.writeDisposition == writeDisposition
  {
    var timePartitioningRef := if timePartitioning.Some? then Some(timePartitioning.value.ToDict()) else None;
    var destinationRef :-
      if Truthy(destinationTable) then
        var ref :- ParseTableReference(destinationTable.value);
        Ok(Some(ref.ToDict()))
      else Ok(None);
    Ok(Query(QueryConfiguration(sqlQuery, false, destinationRef, createDisposition, writeDisposition, timePartitioningRef)))
  }

  /** The destination formats an extract job admits. */
  const ExtractFormats: set<string> := {"CSV", "NEWLINE_DELIMITED_JSON", "PARQUET", "AVRO"}

  /** `destination_uris`: either one URI or a list of them. */
  datatype DestinationUris = One(uri: string) | Many(uris: seq<string>)

  /** The field delimiter an extract job uses when none is given. */
  const DefaultFieldDelimiter := ","

  /** `extract_configuration`: validates the format first, then parses the source table. */
  function ExtractJobConfiguration(
    sourceTableUri: string,
    destinationUris: DestinationUris,
    fieldDelimiter: string := DefaultFieldDelimiter,
    destinationFormat: string := "CSV"): (r: Result<JobConfiguration>)
    ensures destinationFormat !in ExtractFormats ==>
              r == Err(ValueError("Invalid destination_format: " + destinationFormat))
    ensures r.Ok? <==> destinationFormat in ExtractFormats && ParseTableReference(sourceTableUri).Ok?
    ensures r.Ok? ==> r.value.Extract?
    ensures r.Ok? && r.value.Extract? ==>
      var e := r.value.extract;
      && e.sourceTable == ParseTableReference(sourceTableUri).value.ToDict()
      && e.destinationUris == (match destinationUris case One(u) => [u] case Many(us) => us)
      && e.printHeader
      && e.fieldDelimiter == fieldDelimiter
      && e.destinationFormat == destinationFormat
  {
    if destinationFormat !in ExtractFormats then Err(ValueError("Invalid destination_format: " + destinationFormat))
    else
      var source :- ParseTableReference(sourceTableUri);
      var uris := match destinationUris case One(u) => [u] case Many(us) => us;
      Ok(Extract(ExtractConfiguration(source.ToDict(), uris, true, fieldDelimiter, destinationFormat)))
  }

  /** Round trip through the configuration: a query job writing to a table
      named by three dot-free parts records exactly those parts. */
  lemma QueryDestinationRoundTrip(sqlQuery: string, project: string, dataset: string, table: string)
    requires '.' !in project && '.' !in dataset && '.' !in table
    ensures QueryJobConfiguration(sqlQuery, Some(Dotted(project, dataset, table))).Ok?
    ensures QueryJobConfiguration(sqlQuery, Some(Dotted(project, dataset, table))).value.query.destinationTable
         == Some(map["projectId" := project, "datasetId" := dataset, "tableId" := table])
  {
    ParseDotted(project, dataset, table);
    assert Truthy(Some(Dotted(project, dataset, table)));
  }
}

=== FILE: compositions.dfy ===
/** `CompositionBase`: builds one movement per target, either all into one
    DAG (`build`) or each into a DAG of its own (`build_multi_dag`). The
    movement builder is the callable the pipeline supplies. */
module Compositions {
  import opened Results
  import Config
  import Movements
  import Phrases
  import opened Workflow

  /** `DAG(**dag_parameters)`: the DAG class is outside the model; it needs a
      `dag_id`, and the id must be a string. */
  function NewDagFrom(params: map<string, Config.Value>): (r: Result<Graph>)
    ensures r.Ok? <==> "dag_id" in params && params["dag_id"].Str?
    ensures r.Ok? ==> r.value == NewDag(params["dag_id"].s, params)
  {
    if "dag_id" !in params then Err(TypeError("__init__() missing 1 required positional argument: 'dag_id'"))
    else if !params["dag_id"].Str? then Err(TypeError("The key has to be a string"))
    else Ok(NewDag(params["dag_id"].s, params))
  }

  /** The id of the DAG `build_multi_dag` makes for a target: the base id, a
      dot, and the target's name. Reading a missing `dag_id` fails as an
      attribute lookup, and a non-string one cannot be concatenated. */
  function MultiDagId(params: map<string, Config.Value>, name: string): (r: Result<string>)
    ensures r.Ok? <==> "dag_id" in params && params["dag_id"].Str?
    ensures r.Ok? ==> r.value == params["dag_id"].s + "." + name
    ensures "dag_id" !in params ==> r == Err(AttributeError(MissingAttribute("ConfigDagParameters", "dag_id")))
  {
    if "dag_id" !in params then Err(AttributeError(MissingAttribute("ConfigDagParameters", "dag_id")))
    else if !params["dag_id"].Str? then Err(TypeError("unsupported operand type(s) for +"))
    else Ok(params["dag_id"].s + "." + name)
  }

  /** Distinct target names give distinct DAG ids. */
  lemma MultiDagIdsDistinct(base: string, name1: string, name2: string)
    requires name1 != name2
    ensures base + "." + name1 != base + "." + name2
  {
    var p := base + ".";
    assert (p + name1)[|p|..] == name1 && (p + name2)[|p|..] == name2;
  }

  /** Where movement `k` of `roots` ends: where the next begins, or at the end. */
  function End(roots: seq<nat>, k: nat, n: nat): nat
    requires k < |roots|
  {
    if k + 1 < |roots| then roots[k + 1] else n
  }

  /** The nodes after the DAG root are split into consecutive movement
      subtrees starting at `roots`, and every edge stays inside one movement,
      below its group: no edge joins two movements, and none touches the root. */
  ghost predicate Separate(g: Graph, roots: seq<nat>)
  {
    && (|roots| == 0 ==> |g.nodes| == 1)
    && (|roots| > 0 ==> roots[0] == 1 && roots[|roots| - 1] < |g.nodes|)
    && (forall k :: 0 <= k < |roots| ==> 0 < roots[k] < |g.nodes|)
    && (forall k :: 0 <= k < |roots| - 1 ==> roots[k] < roots[k + 1])
    && (forall i :: 0 <= i < |g.edges| ==> 0 < g.edges[i].from)
    && (forall i, k :: 0 <= i < |g.edges| && 0 <= k < |roots| && roots[k] <= g.edges[i].from < End(roots, k, |g.nodes|)
          ==> roots[k] < g.edges[i].to < End(roots, k, |g.nodes|))
  }

  lemma SeparateStep(g: Graph, roots: seq<nat>, g2: Graph, h: nat)
    requires Valid(g) && |g.nodes| >= 1 && Separate(g, roots)
    requires Subtree(g, g2, h, 0)
    ensures Separate(g2, roots + [h])
  {
    var rs := roots + [h];
    forall k | 0 <= k < |rs| - 1 ensures rs[k] < rs[k + 1] {
      if k == |roots| - 1 { assert rs[k + 1] == h; }
    }
    forall k | 0 <= k < |roots| ensures End(rs, k, |g2.nodes|) == End(roots, k, |g.nodes|) {
    }
    forall i | 0 <= i < |g2.edges| ensures 0 < g2.edges[i].from {
      if i < |g.edges| { assert g2.edges[i] == g.edges[i]; }
    }
    forall i, k | 0 <= i < |g2.edges| && 0 <= k < |rs| && rs[k] <= g2.edges[i].from < End(rs, k, |g2.nodes|)
      ensures rs[k] < g2.edges[i].to < End(rs, k, |g2.nodes|)
    {
      var e := g2.edges[i];
      if i < |g.edges| {
        assert e == g.edges[i];
        assert e.from < |g.nodes| && e.to < |g.nodes|;
        if k == |roots| {
          assert false;
        }
      } else {
        assert h < e.from && h < e.to < |g2.nodes|;
      }
    }
  }

  /** The targets' movements can all be made and built. */
  predicate MovementsBuildable<T>(targets: seq<T>, builder: T -> Result<Movements.Movement>)
  {
    forall k :: 0 <= k < |targets| ==> TargetBuildable(builder(targets[k]))
  }

  lemma BuildableStep<T>(targets: seq<T>, builder: T -> Result<Movements.Movement>, i: nat)
    requires i < |targets| && MovementsBuildable(targets[..i], builder) && TargetBuildable(builder(targets[i]))
    ensures MovementsBuildable(targets[..i + 1], builder)
  {
    assert targets[..i + 1] == targets[..i] + [targets[i]];
  }

  lemma BuildableFails<T>(targets: seq<T>, builder: T -> Result<Movements.Movement>, i: nat)
    requires i < |targets| && !TargetBuildable(builder(targets[i]))
    ensures !MovementsBuildable(targets, builder)
  {
  }

  /** The movement made for one target exists and can be built. */
  predicate TargetBuildable(m: Result<Movements.Movement>)
  {
    m.Ok? && |m.value.phrases| > 0 && Movements.AllBuildable(m.value)
  }

  /** The movements the builder makes for the targets (an empty placeholder
      where it fails). */
  function MovementList<T>(targets: seq<T>, builder: T -> Result<Movements.Movement>): (ms: seq<Movements.Movement>)
    ensures |ms| == |targets|
  {
    seq(|targets|, k requires 0 <= k < |targets| =>
      if builder(targets[k]).Ok? then builder(targets[k]).value else Movements.Movement("", []))
  }

  /** One DAG holding the movement groups built for the targets, in target order. */
  datatype Composed = Composed(graph: Graph, movements: seq<nat>)

  /** `g` is the DAG `root` with one movement group per movement of `ms`, in
      order, directly under the root and separate from each other, each
      holding its movement's phrases and their motifs; the root is the only
      DAG node. */
  ghost predicate OneDag(root: Node, g: Graph, movements: seq<nat>, ms: seq<Movements.Movement>)
  {
    DagShape(root, g, movements, ms) && MovementsHeld(g, movements, ms)
  }

  /** The layout part of `OneDag`: the groups, their names and their separation. */
  ghost predicate DagShape(root: Node, g: Graph, movements: seq<nat>, ms: seq<Movements.Movement>)
  {
    && Valid(g)
    && |g.nodes| >= 1
    && g.nodes[0] == root
    && (forall j :: 0 < j < |g.nodes| ==> !g.nodes[j].Dag?)
    && |movements| == |ms|
    && Separate(g, movements)
    && (forall k :: 0 <= k < |ms| ==> g.nodes[movements[k]] == Group(ms[k].name, 0))
  }

  /** The contents part of `OneDag`: each group holds its movement. */
  ghost predicate MovementsHeld(g: Graph, movements: seq<nat>, ms: seq<Movements.Movement>)
  {
    |movements| == |ms| && forall k :: 0 <= k < |ms| ==> Movements.MovementAt(g, movements[k], ms[k])
  }

  /** Building one more movement into the DAG adds one more separate movement group. */
  lemma OneDagStep(root: Node, g: Graph, movements: seq<nat>, ms: seq<Movements.Movement>,
                   m: Movements.Movement, b: Phrases.Built)
    requires OneDag(root, g, movements, ms)
    requires Phrases.ChainBuilt(g, 0, m.name, Movements.PhraseIds(m), b)
    requires Movements.PhrasesHeld(b.graph, b.children, m.phrases)
    ensures OneDag(root, b.graph, movements + [b.group], ms + [m])
  {
    ShapeStep(root, g, movements, ms, m, b);
    MovementsStep(g, movements, ms, m, b);
  }

  lemma ShapeStep(root: Node, g: Graph, movements: seq<nat>, ms: seq<Movements.Movement>,
                  m: Movements.Movement, b: Phrases.Built)
    requires DagShape(root, g, movements, ms)
    requires Phrases.ChainBuilt(g, 0, m.name, Movements.PhraseIds(m), b)
    ensures DagShape(root, b.graph, movements + [b.group], ms + [m])
  {
    Phrases.ChainBuiltSubtree(g, 0, m.name, Movements.PhraseIds(m), b);
    SeparateStep(g, movements, b.graph, b.group);
    assert b.graph.nodes[..|g.nodes|] == g.nodes;
    forall k | 0 <= k < |ms| ensures b.graph.nodes[movements[k]] == g.nodes[movements[k]] {
      assert movements[k] < |g.nodes|;
    }
    forall j | 0 < j < |b.graph.nodes| ensures !b.graph.nodes[j].Dag? {
      if j < |g.nodes| { assert b.graph.nodes[j] == g.nodes[j]; }
    }
  }

  /** The earlier movements stay in place and the new one is held by its group. */
  lemma MovementsStep(g: Graph, movements: seq<nat>, ms: seq<Movements.Movement>, m: Movements.Movement, b: Phrases.Built)
    requires Valid(g) && Separate(g, movements) && MovementsHeld(g, movements, ms)
    requires Phrases.ChainBuilt(g, 0, m.name, Movements.PhraseIds(m), b)
    requires Movements.PhrasesHeld(b.graph, b.children, m.phrases)
    ensures MovementsHeld(b.graph, movements + [b.group], ms + [m])
  {
    SubtreeOutside(g, b.graph, b.group, 0);
    Movements.BuiltMovementAt(g, 0, m, b);
    forall k | 0 <= k < |ms| + 1 ensures Movements.MovementAt(b.graph, (movements + [b.group])[k], (ms + [m])[k]) {
      if k < |ms| {
        assert (movements + [b.group])[k] == movements[k] && (ms + [m])[k] == ms[k];
        Movements.MovementAtOutside(g, b.graph, 0, movements[k], ms[k]);
      }
    }
  }

  /** One round of `build`: the movement made for target `i`, built into the DAG. */
  method BuildNext<T>(root: Node, c: Composed, targets: seq<T>, builder: T -> Result<Movements.Movement>, i: nat,
                      config: Config.Composition) returns (r: Result<Composed>)
    requires i < |targets| && OneDag(root, c.graph, c.movements, MovementList(targets, builder)[..i])
    ensures r.Ok? <==> TargetBuildable(builder(targets[i]))
    ensures r.Ok? ==> OneDag(root, r.value.graph, r.value.movements, MovementList(targets, builder)[..i + 1])
  {
    var movement :- builder(targets[i]);
    var built :- Movements.Build(c.graph, movement, 0, config);
    NextStep(root, c, targets, builder, i, movement, built);
    return Ok(Composed(built.graph, c.movements + [built.group]));
  }

  lemma NextStep<T>(root: Node, c: Composed, targets: seq<T>, builder: T -> Result<Movements.Movement>, i: nat,
                    m: Movements.Movement, b: Phrases.Built)
    requires i < |targets| && OneDag(root, c.graph, c.movements, MovementList(targets, builder)[..i])
    requires builder(targets[i]) == Ok(m)
    requires Phrases.ChainBuilt(c.graph, 0, m.name, Movements.PhraseIds(m), b)
    requires Movements.PhrasesHeld(b.graph, b.children, m.phrases)
    ensures OneDag(root, b.graph, c.movements + [b.group], MovementList(targets, builder)[..i + 1])
  {
    OneDagStep(root, c.graph, c.movements, MovementList(targets, builder)[..i], m, b);
    assert MovementList(targets, builder)[..i] + [m] == MovementList(targets, builder)[..i + 1];
  }

  /** A fresh DAG holds no movement yet. */
  lemma OneDagBegin(dag: Graph)
    requires |dag.nodes| == 1 && dag.nodes[0].Dag? && dag.edges == []
    ensures OneDag(dag.nodes[0], dag, [], [])
  {
  }

  /** `build(movement_builder)`: one DAG from the DAG parameters; for each
      target in order, the movement the builder makes for it is built into
      that DAG. Nothing links different targets' movements. */
  method Build<T>(params: map<string, Config.Value>, targets: seq<T>,
                  builder: T -> Result<Movements.Movement>, config: Config.Composition)
    returns (r: Result<Composed>)
    ensures r.Ok? <==> NewDagFrom(params).Ok? && MovementsBuildable(targets, builder)
    ensures r.Ok? ==> (NewDagFrom(params).Ok? &&
      OneDag(Dag(params["dag_id"].s, params), r.value.graph, r.value.movements, MovementList(targets, builder)))
  {
    var dag :- NewDagFrom(params);
    var c := Composed(dag, []);
    OneDagBegin(dag);
    assert MovementList(targets, builder)[..0] == [];
    var i := 0;
    while i < |targets|
      invariant 0 <= i <= |targets|
      invariant OneDag(dag.nodes[0], c.graph, c.movements, MovementList(targets, builder)[..i])
      invariant MovementsBuildable(targets[..i], builder)
    {
      var next := BuildNext(dag.nodes[0], c, targets, builder, i, config);
      if next.Err? {
        BuildableFails(targets, builder, i);
        return Err(next.error);
      }
      BuildableStep(targets, builder, i);
      c := next.value;
      i := i + 1;
    }
    assert MovementList(targets, builder)[..i] == MovementList(targets, builder) && targets[..i] == targets;
    return Ok(c);
  }

  /** `play(*args)` is `build(*args)`. */
  method Play<T>(params: map<string, Config.Value>, targets: seq<T>,
                 builder: T -> Result<Movements.Movement>, config: Config.Composition)
    returns (r: Result<Composed>)
    ensures r.Ok? <==> NewDagFrom(params).Ok? && MovementsBuildable(targets, builder)
    ensures r.Ok? ==> (NewDagFrom(params).Ok? &&
      OneDag(Dag(params["dag_id"].s, params), r.value.graph, r.value.movements, MovementList(targets, builder)))
  {
    r := Build(params, targets, builder, config);
  }

  /** `b` is the DAG built for one target by `build_multi_dag`: a fresh DAG
      whose id is the base id suffixed by the target's name, with the other
      parameters copied, holding exactly the target's movement. */
  ghost predicate OwnDag<T>(params: map<string, Config.Value>, target: T, nameOf: T -> string,
                            builder: T -> Result<Movements.Movement>, b: Phrases.Built)
  {
    && "dag_id" in params && params["dag_id"].Str? && builder(target).Ok?
    && var dag := NewDag(params["dag_id"].s + "." + nameOf(target), params - {"dag_id"});
       var movement := builder(target).value;
       && Phrases.ChainBuilt(dag, 0, movement.name, Movements.PhraseIds(movement), b)
       && Movements.PhrasesHeld(b.graph, b.children, movement.phrases)
       && b.graph.nodes[0] == dag.nodes[0]
  }

  /** One round of `build_multi_dag`: the DAG for one target, with its movement built into it. */
  method BuildOwn<T>(params: map<string, Config.Value>, target: T, nameOf: T -> string,
                     builder: T -> Result<Movements.Movement>, config: Config.Composition)
    returns (r: Result<Phrases.Built>)
    ensures r.Ok? <==> "dag_id" in params && params["dag_id"].Str? && TargetBuildable(builder(target))
    ensures r.Ok? ==> OwnDag(params, target, nameOf, builder, r.value)
  {
    var name :- MultiDagId(params, nameOf(target));
    var dag := NewDag(name, params - {"dag_id"});
    var movement :- builder(target);
    var built :- Movements.Play(dag, movement, 0, config);
    assert built.graph.nodes[0] == dag.nodes[0] by {
      assert built.graph.nodes[..|dag.nodes|] == dag.nodes;
    }
    return Ok(built);
  }

  /** The DAG built for a target is named by `MultiDagId` and gets every
      parameter except `dag_id`, unchanged. */
  lemma MultiDagParameters<T>(params: map<string, Config.Value>, target: T, nameOf: T -> string,
                              builder: T -> Result<Movements.Movement>, b: Phrases.Built)
    requires OwnDag(params, target, nameOf, builder, b)
    ensures |b.graph.nodes| > 0 && b.graph.nodes[0].Dag?
    ensures MultiDagId(params, nameOf(target)) == Ok(b.graph.nodes[0].dagId)
    ensures b.graph.nodes[0].params.Keys == params.Keys - {"dag_id"}
    ensures forall k :: k in params && k != "dag_id" ==> b.graph.nodes[0].params[k] == params[k]
  {
  }

  /** `dags[k]` is the DAG built for `targets[k]`, for every target. */
  ghost predicate OwnDags<T>(params: map<string, Config.Value>, targets: seq<T>, nameOf: T -> string,
                             builder: T -> Result<Movements.Movement>, dags: seq<Phrases.Built>)
  {
    |dags| == |targets| && forall k :: 0 <= k < |targets| ==> OwnDag(params, targets[k], nameOf, builder, dags[k])
  }

  /** The DAG built for target `i` extends the DAGs of the targets before it. */
  lemma OwnDagsStep<T>(params: map<string, Config.Value>, targets: seq<T>, i: nat, nameOf: T -> string,
                       builder: T -> Result<Movements.Movement>, dags: seq<Phrases.Built>, b: Phrases.Built)
    requires i < |targets| && OwnDags(params, targets[..i], nameOf, builder, dags)
    requires OwnDag(params, targets[i], nameOf, builder, b)
    ensures OwnDags(params, targets[..i + 1], nameOf, builder, dags + [b])
  {
    forall k | 0 <= k < i + 1
      ensures OwnDag(params, targets[..i + 1][k], nameOf, builder, (dags + [b])[k])
    {
      if k < i {
        assert targets[..i + 1][k] == targets[..i][k] && (dags + [b])[k] == dags[k];
      }
    }
  }

  /** `build_multi_dag(movement_builder)`: for each target in order, a DAG of
      its own holding exactly the movement built for that target. */
  method BuildMulti<T>(params: map<string, Config.Value>, targets: seq<T>, nameOf: T -> string,
                       builder: T -> Result<Movements.Movement>, config: Config.Composition)
    returns (r: Result<seq<Phrases.Built>>)
    ensures r.Ok? <==> (|targets| == 0 || ("dag_id" in params && params["dag_id"].Str?)) && MovementsBuildable(targets, builder)
    ensures r.Ok? ==> |r.value| == |targets|
    ensures r.Ok? ==> forall k :: 0 <= k < |targets| ==> OwnDag(params, targets[k], nameOf, builder, r.value[k])
  {
    var dags: seq<Phrases.Built> := [];
    var i := 0;
    while i < |targets|
      invariant 0 <= i <= |targets|
      invariant i > 0 ==> "dag_id" in params && params["dag_id"].Str?
      invariant MovementsBuildable(targets[..i], builder)
      invariant OwnDags(params, targets[..i], nameOf, builder, dags)
    {
      var built := BuildOwn(params, targets[i], nameOf, builder, config);
      if built.Err? {
        if "dag_id" in params && params["dag_id"].Str? {
          BuildableFails(targets, builder, i);
        }
        return Err(built.error);
      }
      BuildableStep(targets, builder, i);
      OwnDagsStep(params, targets, i, nameOf, builder, dags, built.value);
      dags := dags + [built.value];
      i := i + 1;
    }
    assert targets[..i] == targets;
    return Ok(dags);
  }

  /** `multi_play(*args)` is `build_multi_dag(*args)`. */
  method MultiPlay<T>(params: map<string, Config.Value>, targets: seq<T>, nameOf: T -> string,
                      builder: T -> Result<Movements.Movement>, config: Config.Composition)
    returns (r: Result<seq<Phrases.Built>>)
    ensures r.Ok? <==> (|targets| == 0 || ("dag_id" in params && params["dag_id"].Str?)) && MovementsBuildable(targets, builder)
    ensures r.Ok? ==> |r.value| == |targets|
    ensures r.Ok? ==> forall k :: 0 <= k < |targets| ==> OwnDag(params, targets[k], nameOf, builder, r.value[k])
  {
    r := BuildMulti(params, targets, nameOf, builder, config);
  }
}

=== FILE: config.dfy ===
/** The read-only configuration records the assembler is driven by: the
    environment, the composition-level configuration, the per-target movement
    parameters and the table catalog entries. Each record gathers the fields
    the modelled code reads; how they are loaded from YAML is outside the model. */
module Config {

  /** Cloud environment: project, buckets and datasets. */
  datatype Environment = Environment(
    project: string,
    region: string,
    landingBucket: string,
    rawVaultBucket: string,
    artifactBucket: string,
    landingDataset: string,
    rawDataset: string,
    rawVaultDataset: string,
    dataLakeConnectionId: string)

  /** Composition configuration (the union of the fields the ingestion
      compositions read). */
  datatype Composition = Composition(
    environment: Environment,
    sourceType: string,
    sourceName: string,
    tablePrefix: string,
    database: string,
    rdbmsName: string,
    secretManagerUri: string)

  /** How a target's data is partitioned in storage and in the warehouse. */
  datatype DataPartitioning = DataPartitioning(
    partitionGranularity: string,
    partitionField: string,
    gcsPartitionSchema: string,
    destinationPartition: string)

  /** Per-target movement parameters. */
  datatype MovementParameters = MovementParameters(
    name: string,
    extractionQuery: string,
    extractConnectionId: string,
    dataPartitioning: DataPartitioning,
    sourceStorageType: string,
    sourceFileUri: string)

  datatype Column = Column(name: string)

  /** A catalog entry of the older tree: a table with its key, fields and
      personally identifying columns. */
  datatype Table = Table(name: string, primaryKey: Column, fields: seq<Column>, piiColumns: seq<Column>)

  /** A configuration value as it appears in a DAG-parameter dictionary. */
  datatype Value =
    | Str(s: string)
    | Int(i: int)
    | Dict(entries: map<string, int>)
    | DateTime(parts: map<string, int>)
    | NoneValue
    | Other(description: string)
}

=== FILE: dag_parameters.dfy ===
/** `ConfigDagParameters`: the keyword arguments a DAG is constructed with,
    stored as the object's attributes and exposed again through the mapping
    protocol (`keys()` and `p[k]`), so that `DAG(**p)` receives exactly them. */
module DagParameters {
  import opened Results
  import Config

  const ClassName := "ConfigDagParameters"

  datatype Parameters = Parameters(kwargs: map<string, Config.Value>)

  /** What `p[k]` finds: a stored keyword argument, or a method of the class
      when no keyword argument of that name shadows it. */
  datatype Attribute = Stored(value: Config.Value) | Method(name: string)

  const Methods: set<string> := {"keys", "create_from_dict"}

  /** `datetime(**parts)`; how the parts become a date is outside the model. */
  function ToDateTime(parts: map<string, int>): (v: Config.Value)
    ensures v.DateTime?
  {
    Config.DateTime(parts)
  }

  /** How `type(v)` renders in a message. */
  function TypeName(v: Config.Value): string
  {
    match v
    case Str(_) => "<class 'str'>"
    case Int(_) => "<class 'int'>"
    case Dict(_) => "<class 'dict'>"
    case DateTime(_) => "<class 'datetime.datetime'>"
    case NoneValue => "<class 'NoneType'>"
    case Other(d) => "<class '" + d + "'>"
  }

  /** `create_from_dict(d)`: `start_date` is required and must be a date or
      a dictionary of date parts, which is turned into a date; `end_date`, when
      it is a dictionary, is turned into a date too, and anything else is
      left as it is. Each conversion is written back into `d`, and the
      parameters are built from `d` afterwards, so on success the caller's
      dictionary (the second component) and the stored arguments agree. Both
      failures are raised before anything is written. */
  function CreateFromDict(d: map<string, Config.Value>): (r: Result<(Parameters, map<string, Config.Value>)>)
    ensures r.Ok? <==> "start_date" in d && (d["start_date"].Dict? || d["start_date"].DateTime?)
    ensures "start_date" !in d ==> r == Err(KeyError("start_date"))
    ensures "start_date" in d && !(d["start_date"].Dict? || d["start_date"].DateTime?) ==>
              r == Err(TypeError("Invalid type for start_date: type " + TypeName(d["start_date"])))
    ensures r.Ok? ==>
              var (p, written) := r.value;
              && p.kwargs == written
              && written.Keys == d.Keys
              && written["start_date"].DateTime?
              && (d["start_date"].Dict? ==> written["start_date"] == ToDateTime(d["start_date"].entries))
              && (d["start_date"].DateTime? ==> written["start_date"] == d["start_date"])
              && ("end_date" in d && d["end_date"].Dict? ==> written["end_date"] == ToDateTime(d["end_date"].entries))
              && (forall k :: k in d && k != "start_date" && !(k == "end_date" && d[k].Dict?) ==> written[k] == d[k])
  {
    if "start_date" !in d then Err(KeyError("start_date"))
    else
      var start := d["start_date"];
      if !(start.Dict? || start.DateTime?) then Err(TypeError("Invalid type for start_date: type " + TypeName(start)))
      else
        var d1 := if start.Dict? then d["start_date" := ToDateTime(start.entries)] else d;
        var d2 := if "end_date" in d1 && d1["end_date"].Dict? then d1["end_date" := ToDateTime(d1["end_date"].entries)] else d1;
        Ok((Parameters(d2), d2))
  }

  /** Converting twice changes nothing more: a dictionary `create_from_dict`
      wrote back is accepted again and comes back unchanged. */
  lemma CreateFromDictIdempotent(d: map<string, Config.Value>)
    requires CreateFromDict(d).Ok?
    ensures var written := CreateFromDict(d).value.1;
      CreateFromDict(written).Ok? && CreateFromDict(written).value.1 == written
  {
    var written := CreateFromDict(d).value.1;
    var again := CreateFromDict(written).value.1;
    assert again.Keys == written.Keys;
    forall k | k in written ensures again[k] == written[k] {
      if k == "end_date" && "end_date" in d && d["end_date"].Dict? {
        assert written[k].DateTime?;
      }
    }
  }

  /** `keys()`: the names of the stored arguments. */
  function Keys(p: Parameters): set<string>
  {
    p.kwargs.Keys
  }

  /** `p[k]`, which is `getattr(p, k)`: a stored argument first, then a
      method of the class, otherwise an `AttributeError`. */
  function GetItem(p: Parameters, k: string): (r: Result<Attribute>)
    ensures k in Keys(p) ==> r == Ok(Stored(p.kwargs[k]))
    ensures k !in Keys(p) && k in Methods ==> r == Ok(Method(k))
    ensures r.Err? <==> k !in Keys(p) && k !in Methods
    ensures r.Err? ==> r.error == AttributeError(MissingAttribute(ClassName, k))
  {
    if k in p.kwargs then Ok(Stored(p.kwargs[k]))
    else if k in Methods then Ok(Method(k))
    else Err(AttributeError(MissingAttribute(ClassName, k)))
  }

  /** `{**p}`: the dictionary the mapping protocol yields, key by key. */
  function Spread(p: Parameters): (d: map<string, Config.Value>)
    ensures d.Keys == Keys(p)
    ensures forall k :: k in d ==> GetItem(p, k) == Ok(Stored(d[k]))
  {
    map k | k in Keys(p) :: GetItem(p, k).value.value
  }

  /** The mapping protocol hands back exactly the arguments the parameters
      were made from: `ConfigDagParameters(**d)` spread again is `d`. */
  lemma {:induction false} SpreadRoundTrip(d: map<string, Config.Value>)
    ensures Spread(Parameters(d)) == d
  {
    var s := Spread(Parameters(d));
    assert s.Keys == d.Keys;
    forall k | k in d ensures s[k] == d[k] {
      assert GetItem(Parameters(d), k) == Ok(Stored(d[k]));
    }
  }
}

=== FILE: data_ingestion.dfy ===
/** `DataIngestionMovement`: start, source to raw-vault storage, an optional
    create-or-update-table phrase, raw-vault storage to the raw table, end;
    its `setup` derives the raw-vault prefix and the raw table of a target
    and hands them to the phrases that need them. */
module DataIngestion {
  import opened Results
  import Strings
  import Config
  import Kwargs
  import Phrases
  import Movements
  import opened IngestionPhrases

  const ClassName := "DataIngestionMovement"

  /** The constructor's keyword parameters; all but `create_or_update_table_phrase` are required. */
  const Signature := Kwargs.Signature(
    ClassName + ".__init__",
    ["name", "start_phrase", "ingestion_source_to_raw_vault_storage_phrase",
     "raw_vault_storage_to_data_warehouse_raw_phrase", "end_phrase", "create_or_update_table_phrase"],
    ["name", "start_phrase", "ingestion_source_to_raw_vault_storage_phrase",
     "raw_vault_storage_to_data_warehouse_raw_phrase", "end_phrase"])

  /** A call that passes `name`, `start_phrase` and then a landing-storage
      phrase keyword fails on that third keyword, whatever follows it. */
  lemma {:induction false} LandingKeywordRejected(given: seq<string>)
    requires |given| >= 3 && given[0] == "name" && given[1] == "start_phrase"
    requires given[2] == "ingestion_source_to_landing_storage_phrase"
    ensures Kwargs.Bind(Signature, given)
         == Err(TypeError(UnexpectedKeyword(Signature.callee, "ingestion_source_to_landing_storage_phrase")))
  {
    assert given[0] in Signature.params && given[1] in Signature.params && given[2] !in Signature.params;
    assert given[1..][0] == given[1] && given[1..][1..][0] == given[2];
    assert Kwargs.FirstUnexpected(Signature.params, given[1..][1..]) == Some(given[2]);
    assert Kwargs.FirstUnexpected(Signature.params, given[1..]) == Some(given[2]);
    assert Kwargs.FirstUnexpected(Signature.params, given) == Some(given[2]);
  }

  datatype Movement = Movement(
    name: string,
    start: Phrases.Phrase,
    ingestion: IngestionPhrase,
    createOrUpdate: Option<TablePhrase>,
    raw: RawPhrase,
    end: Phrases.Phrase,
    movementParameters: Option<Config.MovementParameters>)

  function New(name: string, start: Phrases.Phrase, ingestion: IngestionPhrase, raw: RawPhrase,
               end: Phrases.Phrase, createOrUpdate: Option<TablePhrase> := None): (m: Movement)
    ensures m.name == name && m.start == start && m.ingestion == ingestion && m.raw == raw
    ensures m.end == end && m.createOrUpdate == createOrUpdate && m.movementParameters.None?
  {
    Movement(name, start, ingestion, createOrUpdate, raw, end, None)
  }

  /** The phrase list: start, ingestion, the create-or-update phrase when
      there is one, raw, end. */
  function PhraseList(m: Movement): (ps: seq<Phrases.Phrase>)
    ensures |ps| == if m.createOrUpdate.Some? then 5 else 4
    ensures ps[0] == m.start && ps[1] == IngestionAsPhrase(m.ingestion)
    ensures m.createOrUpdate.Some? ==> ps[2] == m.createOrUpdate.value.phrase
    ensures ps[|ps| - 2] == RawAsPhrase(m.raw) && ps[|ps| - 1] == m.end
  {
    [m.start, IngestionAsPhrase(m.ingestion)]
    + (if m.createOrUpdate.Some? then [m.createOrUpdate.value.phrase] else [])
    + [RawAsPhrase(m.raw), m.end]
  }

  /** The movement as `MovementBase` builds it; an empty name falls back to the class name. */
  function AsMovement(m: Movement): (r: Movements.Movement)
    ensures r.name == OrElse(Some(m.name), ClassName) && r.phrases == PhraseList(m)
  {
    Movements.New(ClassName, PhraseList(m), Some(m.name))
  }

  /** `raw_vault_bucket_uri_prefix`: `gs://<raw vault bucket>/<source type>/<source name>/<target>`. */
  function RawVaultBucketUriPrefix(config: Config.Composition, mp: Config.MovementParameters): (r: string)
    ensures var e := config.environment;
      '/' !in e.rawVaultBucket && '/' !in config.sourceType && '/' !in config.sourceName && '/' !in mp.name ==>
        Strings.Split(r, '/') == ["gs:", "", e.rawVaultBucket, config.sourceType, config.sourceName, mp.name]
  {
    var uri := "gs://" + config.environment.rawVaultBucket + "/" + config.sourceType + "/" + config.sourceName + "/" + mp.name;
    if '/' !in config.environment.rawVaultBucket && '/' !in config.sourceType && '/' !in config.sourceName && '/' !in mp.name then
      Strings.SplitGcsPath(config.environment.rawVaultBucket, config.sourceType, config.sourceName, mp.name);
      uri
    else uri
  }

  /** `raw_table_uri`: the target's table in the raw dataset. */
  function RawTableUri(config: Config.Composition, mp: Config.MovementParameters): (r: string)
    ensures var e := config.environment;
      '.' !in e.project && '.' !in e.rawDataset && '.' !in config.tablePrefix && '.' !in mp.name ==>
        NamesTable(r, e.project, e.rawDataset, config.tablePrefix + "_" + mp.name)
  {
    TableUri(config.environment.project, config.environment.rawDataset, config.tablePrefix, mp.name)
  }

  /** `setup(movement_parameters)`: stores the parameters; the ingestion
      phrase writes under the raw-vault prefix; the create-or-update phrase,
      when there is one, is given the raw table; the raw phrase reads the
      same prefix into the raw table. Returns the movement. */
  function SetUp(m: Movement, config: Config.Composition, mp: Config.MovementParameters): (r: Movement)
    ensures r.movementParameters == Some(mp)
    ensures r.name == m.name && r.start == m.start && r.end == m.end
    ensures r.ingestion == SetUpIngestion(m.ingestion, RawVaultBucketUriPrefix(config, mp))
    ensures r.createOrUpdate.Some? <==> m.createOrUpdate.Some?
    ensures r.createOrUpdate.Some? ==> r.createOrUpdate.value == SetUpTable(m.createOrUpdate.value, RawTableUri(config, mp))
    ensures r.raw == SetUpRaw(m.raw, config, mp, RawVaultBucketUriPrefix(config, mp), RawTableUri(config, mp))
  {
    var prefix := RawVaultBucketUriPrefix(config, mp);
    var rawUri := RawTableUri(config, mp);
    m.(movementParameters := Some(mp),
       ingestion := SetUpIngestion(m.ingestion, prefix),
       createOrUpdate := if m.createOrUpdate.Some? then Some(SetUpTable(m.createOrUpdate.value, rawUri)) else None,
       raw := SetUpRaw(m.raw, config, mp, prefix, rawUri))
  }

  /** The storage the ingestion phrase writes to after `setup`. */
  function IngestionDestination(p: IngestionPhrase): Option<string>
  {
    match p.exporter
    case ExportMySql(x) => x.destinationStorageUri
    case ExportQuery(e) => e.destinationStorageUri
    case CopyToLake(c) => c.destinationStorageUri
    case _ => None
  }

  /** The storage the raw phrase reads from after `setup`. */
  function RawSource(p: RawPhrase): Option<string>
  {
    match p
    case ExternalTableRaw(_, _, create, _, _) => if create.setup.Some? then Some(create.setup.value.sourcePrefix) else None
    case LoadRaw(_, _, load) => load.sourcePrefix
  }

  /** After `setup` the raw phrase reads exactly what the ingestion phrase
      wrote: both sides hold the target's raw-vault prefix. */
  lemma {:induction false} SetUpHandsOver(m: Movement, config: Config.Composition, mp: Config.MovementParameters)
    requires m.ingestion.exporter.ExportMySql? || m.ingestion.exporter.ExportQuery? || m.ingestion.exporter.CopyToLake?
    ensures var r := SetUp(m, config, mp);
      && IngestionDestination(r.ingestion) == Some(RawVaultBucketUriPrefix(config, mp))
      && RawSource(r.raw) == IngestionDestination(r.ingestion)
  {
    var r := SetUp(m, config, mp);
    var prefix := RawVaultBucketUriPrefix(config, mp);
    assert r.ingestion.exporter == SetUpExport(m.ingestion.exporter, prefix);
    assert r.raw == SetUpRaw(m.raw, config, mp, prefix, RawTableUri(config, mp));
  }

  /** After `setup`, a movement whose start and end phrases can be built, whose
      export motif is one `setup` completes and whose create-or-update phrase
      (if any) can be built, can be built as a whole. */
  lemma {:induction false} SetUpBuildable(m: Movement, config: Config.Composition, mp: Config.MovementParameters)
    requires |m.start.motifs| > 0 && Phrases.AllBuildable(m.start)
    requires |m.end.motifs| > 0 && Phrases.AllBuildable(m.end)
    requires StorageExport(m.ingestion.exporter)
    requires m.createOrUpdate.Some? ==>
               |m.createOrUpdate.value.phrase.motifs| > 0 && Phrases.AllBuildable(m.createOrUpdate.value.phrase)
    ensures Movements.AllBuildable(AsMovement(SetUp(m, config, mp)))
  {
    var r := SetUp(m, config, mp);
    var ps := PhraseList(r);
    SetUpExportBuildable(m.ingestion.exporter, RawVaultBucketUriPrefix(config, mp));
    assert Phrases.AllBuildable(IngestionAsPhrase(r.ingestion));
    forall i | 0 <= i < |ps| ensures |ps[i].motifs| > 0 && Phrases.AllBuildable(ps[i]) {
      if i == |ps| - 2 {
        assert ps[i] == RawAsPhrase(r.raw);
      } else if i == |ps| - 1 {
        assert ps[i] == m.end;
      } else if i == 0 {
        assert ps[i] == m.start;
      } else if i == 1 {
        assert ps[i] == IngestionAsPhrase(r.ingestion);
      } else {
        assert ps[i] == m.createOrUpdate.value.phrase;
      }
    }
  }
}

=== FILE: debussy.dfy ===
/** `Debussy`: the relational-database ingestion composition that lands a
    full export of each table in the landing bucket, exposes it as an
    external table and merges it into the raw table.

    As written its builders never return a movement: the export motif is
    constructed with a `config` keyword its constructor does not declare, and
    the movement with phrase keywords `DataIngestionMovement` does not
    declare. The pieces they assemble are modelled one by one. */
module Debussy {
  import opened Results
  import Strings
  import Config
  import Kwargs
  import ExportTable
  import ExternalTable
  import Motifs
  import Phrases
  import Movements
  import opened IngestionPhrases
  import DataIngestion

  const LandingRawClassName := "LandingStorageExternalTableToDataWarehouseRawPhrase"
  const LandingRawName := "Landing_to_Raw_Phrase"
  const IngestionPhraseClassName := "IngestionSourceToLandingStoragePhrase"

  /** `landing_bucket_uri_prefix`: `gs://<landing bucket>/<rdbms>/<database>/<target>`. */
  function LandingBucketUriPrefix(config: Config.Composition, rdbms: string, mp: Config.MovementParameters): (r: string)
    ensures '/' !in config.environment.landingBucket && '/' !in rdbms && '/' !in config.database && '/' !in mp.name ==>
              Strings.Split(r, '/') == ["gs:", "", config.environment.landingBucket, rdbms, config.database, mp.name]
  {
    var uri := "gs://" + config.environment.landingBucket + "/" + rdbms + "/" + config.database + "/" + mp.name;
    if '/' !in config.environment.landingBucket && '/' !in rdbms && '/' !in config.database && '/' !in mp.name then
      Strings.SplitGcsPath(config.environment.landingBucket, rdbms, config.database, mp.name);
      uri
    else uri
  }

  /** `landing_external_table_uri`: the target's table in the landing dataset. */
  function LandingExternalTableUri(config: Config.Composition, mp: Config.MovementParameters): (r: string)
    ensures var e := config.environment;
      '.' !in e.project && '.' !in e.landingDataset && '.' !in config.tablePrefix && '.' !in mp.name ==>
        NamesTable(r, e.project, e.landingDataset, config.tablePrefix + "_" + mp.name)
  {
    TableUri(config.environment.project, config.environment.landingDataset, config.tablePrefix, mp.name)
  }

  /** `raw_table_uri`: the target's table in the raw dataset. */
  function RawTableUri(config: Config.Composition, mp: Config.MovementParameters): (r: string)
    ensures var e := config.environment;
      '.' !in e.project && '.' !in e.rawDataset && '.' !in config.tablePrefix && '.' !in mp.name ==>
        NamesTable(r, e.project, e.rawDataset, config.tablePrefix + "_" + mp.name)
  {
    TableUri(config.environment.project, config.environment.rawDataset, config.tablePrefix, mp.name)
  }

  /** The landing external table and the raw table of a target are the same
      table exactly when the two datasets are the same. */
  lemma LandingAndRawDifferInDataset(config: Config.Composition, mp: Config.MovementParameters)
    ensures LandingExternalTableUri(config, mp) == RawTableUri(config, mp)
        <==> config.environment.landingDataset == config.environment.rawDataset
  {
    TableUriDataset(config.environment.project, config.environment.landingDataset, config.environment.rawDataset,
                    config.tablePrefix, mp.name);
  }

  /** `create_external_bigquery_table_motif`: an external table over the
      target's landing prefix, created as the landing external table. */
  function CreateExternalMotif(config: Config.Composition, mp: Config.MovementParameters, rdbms: string): (m: ExternalTable.Motif)
    ensures m.setup == Some(ExternalTable.Setup(LandingBucketUriPrefix(config, rdbms, mp), LandingExternalTableUri(config, mp)))
    ensures m.name == ExternalTable.ClassName && m.gcpConnId == ExternalTable.DefaultGcpConnId
  {
    ExternalTable.SetUp(ExternalTable.New(), LandingBucketUriPrefix(config, rdbms, mp), LandingExternalTableUri(config, mp))
  }

  /** `merge_bigquery_table_motif`: merges the landing external table into the raw table. */
  function MergeMotif(config: Config.Composition, mp: Config.MovementParameters): (m: Motifs.MergeTableMotif)
    ensures m.movementParameters == mp
    ensures m.mainTableUri == Some(RawTableUri(config, mp)) && m.deltaTableUri == Some(LandingExternalTableUri(config, mp))
  {
    Motifs.SetUpMergeTable(Motifs.MergeTableMotif(mp, None, None), RawTableUri(config, mp), LandingExternalTableUri(config, mp))
  }

  /** `gcs_landing_to_bigquery_raw_phrase`: `Landing_to_Raw_Phrase`, creating
      the landing external table and then merging that very table into the
      raw table; both its motifs can be built. */
  function LandingToRawPhrase(config: Config.Composition, mp: Config.MovementParameters, rdbms: string): (p: RawPhrase)
    ensures p.ExternalTableRaw? && p.className == LandingRawClassName && p.name == Some(LandingRawName)
    ensures RawAsPhrase(p).name == LandingRawName
    ensures RawAsPhrase(p).motifs == [Motifs.CreateExternal(p.create), Motifs.MergeTable(p.merge)]
    ensures p.create.setup.Some? && p.merge.deltaTableUri == Some(p.create.setup.value.destinationTableUri)
    ensures p.merge.mainTableUri == Some(RawTableUri(config, mp))
    ensures Phrases.AllBuildable(RawAsPhrase(p))
  {
    ExternalTableRaw(LandingRawClassName, Some(LandingRawName), CreateExternalMotif(config, mp, rdbms), MergeMotif(config, mp), None)
  }

  /** The movement's name for a target. */
  function MovementName(mp: Config.MovementParameters): string
  {
    "Movement_" + mp.name
  }

  /** The keywords `rdbms_ingestion_movement_builder` passes to the movement's constructor. */
  const MovementKeywords := ["name", "start_phrase", "ingestion_source_to_landing_storage_phrase",
                             "landing_storage_to_data_warehouse_raw_phrase",
                             "data_warehouse_raw_to_trusted_phrase", "end_phrase"]

  /** `rdbms_ingestion_movement_builder`: the start phrase, the landing-to-raw
      phrase, the placeholder raw-to-trusted phrase and the end phrase are
      made, then the movement's constructor rejects the landing-storage keyword. */
  function RdbmsMovementBuilder(config: Config.Composition, ingestion: IngestionPhrase,
                                mp: Config.MovementParameters, rdbms: string): (r: Result<Movements.Movement>)
    ensures r == Err(TypeError(UnexpectedKeyword(DataIngestion.Signature.callee, "ingestion_source_to_landing_storage_phrase")))
  {
    var start := StartPhrase();
    var raw := LandingToRawPhrase(config, mp, rdbms);
    var trusted := PlaceholderRawToTrusted();
    var end := Phrases.NewEndPhrase();
    DataIngestion.LandingKeywordRejected(MovementKeywords);
    match Kwargs.Bind(DataIngestion.Signature, MovementKeywords)
    case Err(e) => Err(e)
    case Ok(_) =>
      Ok(Movements.New(DataIngestion.ClassName,
                       [start, IngestionAsPhrase(ingestion), RawAsPhrase(raw), trusted, end], Some(MovementName(mp))))
  }

  /** `mysql_movement_builder`: the export motif's constructor rejects the
      `config` keyword before anything else is made. */
  function MySqlMovementBuilder(config: Config.Composition, mp: Config.MovementParameters): (r: Result<Movements.Movement>)
    ensures r == Err(TypeError(UnexpectedKeyword(ExportTable.MySqlSignature.callee, "config")))
  {
    assert "config" !in ExportTable.MySqlSignature.params;
    match Kwargs.Bind(ExportTable.MySqlSignature, ["config", "movement_parameters"])
    case Err(e) => Err(e)
    case Ok(_) =>
      var exporter := ExportTable.SetUpMySqlMotif(ExportTable.NewMySqlMotif(mp), LandingBucketUriPrefix(config, "mysql", mp));
      RdbmsMovementBuilder(config, IngestionPhrase(IngestionPhraseClassName, None, Motifs.ExportMySql(exporter)), mp, "mysql")
  }
}

=== FILE: export_table.dfy ===
/** The two export motifs of the ingestion tree: a BigQuery `EXPORT DATA`
    query to Cloud Storage, and a full MySQL table export run as a Dataproc
    job between cluster creation and deletion. */
module ExportTable {
  import opened Results
  import Strings
  import opened Templates
  import Config
  import Operators
  import QueryJobMotif
  import Kwargs
  import opened Workflow

  /** The literal text of the `EXPORT DATA` statement template around its two fields. */
  const ExportTexts: seq<string> := [
    "\n    EXPORT DATA OPTIONS(overwrite=false,format='PARQUET',uri='",
    "')\n    AS ",
    "\n    "
  ]

  /** The `EXPORT DATA` statement template: the URI, then the query. */
  const ExportTemplate: Template := Interleave(ExportTexts, ["uri", "extract_query"])

  /** Where the export writes: every Parquet file directly inside the
      partition directory under the destination. */
  function ExportUri(destinationStorageUri: string, gcsPartition: string): (r: string)
    ensures |destinationStorageUri| <= |r| && r[..|destinationStorageUri|] == destinationStorageUri
    ensures '/' !in gcsPartition ==> Strings.Split(r[|destinationStorageUri|..], '/') == ["", gcsPartition, "*.parquet"]
  {
    var uri := destinationStorageUri + "/" + gcsPartition + "/*.parquet";
    assert uri[|destinationStorageUri|..] == "" + ['/'] + gcsPartition + ['/'] + "*.parquet";
    if '/' !in gcsPartition then
      assert '/' !in "*.parquet";
      Strings.SplitThree("", gcsPartition, "*.parquet", '/');
      uri
    else uri
  }

  /** The export statement for a URI and a query: the template with both
      fields filled in, keeping the options text unchanged. */
  function ExportSql(uri: string, extractQuery: string): (r: Result<string>)
    ensures r == Ok(ExportTexts[0] + uri + ExportTexts[1] + extractQuery + ExportTexts[2])
  {
    var env := map["uri" := uri, "extract_query" := extractQuery];
    FormatInterleave(ExportTexts, ["uri", "extract_query"], env);
    var vs := Lookup(["uri", "extract_query"], env);
    assert vs == [uri, extractQuery];
    WeaveTwo(ExportTexts, vs);
    Format(ExportTemplate, env)
  }

  /** `ExportBigQueryQueryToGcsMotif`. The query-job part is the motif it
      extends; `setup` gives it the export statement and no destination table. */
  datatype QueryMotif = QueryMotif(
    job: QueryJobMotif.Motif,
    extractQuery: string,
    gcsPartition: string,
    destinationStorageUri: Option<string>)

  const QueryMotifClassName := "ExportBigQueryQueryToGcsMotif"

  function NewQueryMotif(extractQuery: string, gcsPartition: string, name: Option<string> := None): (m: QueryMotif)
    ensures m.job.name == OrElse(name, QueryMotifClassName) && m.job.setup.None?
    ensures m.extractQuery == extractQuery && m.gcsPartition == gcsPartition
    ensures m.destinationStorageUri.None?
  {
    var job := QueryJobMotif.New();
    QueryMotif(job.(name := OrElse(name, QueryMotifClassName)), extractQuery, gcsPartition, None)
  }

  /** `setup(destination_storage_uri)`: stores the destination, and sets the
      SQL to the export statement writing every Parquet file of the partition
      under that destination; returns the motif. `setup` assigns no
      destination table; the query-job base class is taken to leave it `None`. */
  function SetUpQueryMotif(m: QueryMotif, destinationStorageUri: string): (r: QueryMotif)
    ensures r.destinationStorageUri == Some(destinationStorageUri)
    ensures r.job.setup.Some? && r.job.setup.value.destinationTable.None?
    ensures r.job.setup.value.sqlQuery
         == ExportTexts[0] + ExportUri(destinationStorageUri, m.gcsPartition)
            + ExportTexts[1] + m.extractQuery + ExportTexts[2]
    ensures r.extractQuery == m.extractQuery && r.gcsPartition == m.gcsPartition
    ensures r.job.name == m.job.name
  {
    var uri := ExportUri(destinationStorageUri, m.gcsPartition);
    var sql := ExportSql(uri, m.extractQuery).value;
    m.(destinationStorageUri := Some(destinationStorageUri), job := QueryJobMotif.SetUp(m.job, sql))
  }

  /** After `setup` the export motif builds one query task running the export statement. */
  lemma ExportQueryBuilds(g: Graph, m: QueryMotif, destinationStorageUri: string, parent: nat)
    ensures var r := QueryJobMotif.Build(g, SetUpQueryMotif(m, destinationStorageUri).job, parent);
      && r.Ok?
      && r.value.0.nodes[r.value.1].op.configuration.query.query
         == SetUpQueryMotif(m, destinationStorageUri).job.setup.value.sqlQuery
  {
    var s := SetUpQueryMotif(m, destinationStorageUri);
    QueryJobMotif.SetupThenBuild(g, m.job, parent, s.job.setup.value.sqlQuery);
    assert s.job == QueryJobMotif.SetUp(m.job, s.job.setup.value.sqlQuery);
  }

  /** `ExportFullMySqlTableToGcsMotif`. */
  datatype MySqlMotif = MySqlMotif(
    name: string,
    movementParameters: Config.MovementParameters,
    destinationStorageUri: Option<string>)

  const MySqlClassName := "ExportFullMySqlTableToGcsMotif"

  /** The constructor's keyword signature: `movement_parameters` is required. */
  const MySqlSignature := Kwargs.Signature(MySqlClassName + ".__init__", ["movement_parameters", "name"], ["movement_parameters"])

  function NewMySqlMotif(movementParameters: Config.MovementParameters, name: Option<string> := None): (m: MySqlMotif)
    ensures m.name == OrElse(name, MySqlClassName)
    ensures m.movementParameters == movementParameters && m.destinationStorageUri.None?
  {
    MySqlMotif(OrElse(name, MySqlClassName), movementParameters, None)
  }

  /** `setup(destination_storage_uri)`: stores it and returns the motif. */
  function SetUpMySqlMotif(m: MySqlMotif, destinationStorageUri: string): (r: MySqlMotif)
    ensures r.destinationStorageUri == Some(destinationStorageUri)
    ensures r.name == m.name && r.movementParameters == m.movementParameters
  {
    m.(destinationStorageUri := Some(destinationStorageUri))
  }

  const ClusterName := "pixdict-motif-cluster"
  const JdbcDriver := "com.mysql.cj.jdbc.Driver"
  const JdbcUrlPrefix := "jdbc:mysql://{host}:{port}/"

  /** The JDBC URL: the host and port placeholders stay literal, for the job
      to fill in; the database is the source name. */
  function JdbcUrl(sourceName: string): (r: string)
    ensures |r| == |JdbcUrlPrefix| + |sourceName|
    ensures r[..|JdbcUrlPrefix|] == JdbcUrlPrefix && r[|JdbcUrlPrefix|..] == sourceName
  {
    JdbcUrlPrefix + sourceName
  }

  const LoadDateSegment := "/loadDate={{ ds }}"
  const LoadTimestampSegment := "/loadTimestamp={{ ts_nodash }}/"

  /** Where the JDBC job writes: the run's load-date and load-timestamp
      partition under the destination (the macros are left for the engine). */
  function RawVaultPath(destinationStorageUri: string): (r: string)
    ensures |r| == |destinationStorageUri| + |LoadDateSegment| + |LoadTimestampSegment|
    ensures r[..|destinationStorageUri|] == destinationStorageUri
    ensures r[|destinationStorageUri|..] == LoadDateSegment + LoadTimestampSegment
  {
    destinationStorageUri + LoadDateSegment + LoadTimestampSegment
  }

  /** The arguments of the PySpark JDBC job, in order. */
  function JdbcArgs(config: Config.Composition, extractQuery: string, destinationStorageUri: string): (args: seq<string>)
    ensures |args| == 7
    ensures args[0] == JdbcDriver && args[1] == JdbcUrl(config.sourceName)
    ensures args[2] == config.secretManagerUri + "/versions/latest"
    ensures args[3] == config.sourceName && args[4] == extractQuery
    ensures args[5] == "{{ ts_nodash }}" && args[6] == RawVaultPath(destinationStorageUri)
  {
    [JdbcDriver, JdbcUrl(config.sourceName), config.secretManagerUri + "/versions/latest",
     config.sourceName, extractQuery, "{{ ts_nodash }}", RawVaultPath(destinationStorageUri)]
  }

  /** The Dataproc job `jdbc_to_raw_vault` submits. */
  function JdbcOperator(config: Config.Composition, extractQuery: string, destinationStorageUri: string): Operators.Operator
  {
    Operators.DataprocSubmit(
      "gs://" + config.environment.artifactBucket + "/pyspark-scripts" + "/jdbc-to-gcs/jdbc_to_gcs.py",
      JdbcArgs(config, extractQuery, destinationStorageUri),
      ClusterName, config.environment.region, config.environment.project)
  }

  /** `build(dag, parent_task_group)`: a group named after the motif holding
      start, cluster creation, the JDBC job and cluster deletion, chained in
      that order; the group is returned. The JDBC job reads the destination
      `setup` stores, so building before `setup` fails. */
  function BuildMySqlMotif(g: Graph, m: MySqlMotif, parent: nat, config: Config.Composition): (r: Result<(Graph, nat)>)
    ensures r.Ok? <==> m.destinationStorageUri.Some?
    ensures r.Err? ==> r.error == AttributeError(MissingAttribute(MySqlClassName, "destination_storage_uri"))
    ensures r.Ok? ==>
      var (g2, h) := r.value;
      && Subtree(g, g2, h, parent)
      && |g2.nodes| == h + 5
      && g2.nodes[h] == Group(m.name, parent)
      && g2.nodes[h + 1] == Task(None, h, Operators.Start(m.movementParameters.name))
      && g2.nodes[h + 2] == Task(None, h, Operators.Unseen("create_dataproc_cluster"))
      && g2.nodes[h + 3] == Task(Some("jdbc_to_raw_vault"), h,
           JdbcOperator(config, m.movementParameters.extractionQuery, m.destinationStorageUri.value))
      && g2.nodes[h + 4] == Task(None, h, Operators.Unseen("delete_dataproc_cluster"))
      && g2.edges == g.edges + ChainEdges([h + 1, h + 2, h + 3, h + 4])
  {
    if m.destinationStorageUri.None? then
      Err(AttributeError(MissingAttribute(MySqlClassName, "destination_storage_uri")))
    else
      var (g1, group) := AddGroup(g, m.name, parent);
      var (g2, start) := AddTask(g1, None, group, Operators.Start(m.movementParameters.name));
      var (g3, create) := AddTask(g2, None, group, Operators.Unseen("create_dataproc_cluster"));
      var (g4, jdbc) := AddTask(g3, Some("jdbc_to_raw_vault"), group,
                                JdbcOperator(config, m.movementParameters.extractionQuery, m.destinationStorageUri.value));
      var (g5, delete) := AddTask(g4, None, group, Operators.Unseen("delete_dataproc_cluster"));
      var g6 := ChainTasks(g5, [start, create, jdbc, delete]);
      GroupSubtree(g, m.name, parent);
      GrowTask(g, g1, group, parent, None, group, Operators.Start(m.movementParameters.name));
      GrowTask(g, g2, group, parent, None, group, Operators.Unseen("create_dataproc_cluster"));
      GrowTask(g, g3, group, parent, Some("jdbc_to_raw_vault"), group,
               JdbcOperator(config, m.movementParameters.extractionQuery, m.destinationStorageUri.value));
      GrowTask(g, g4, group, parent, None, group, Operators.Unseen("delete_dataproc_cluster"));
      GrowEdges(g, g5, group, parent, ChainEdges([start, create, jdbc, delete]));
      Ok((g6, group))
  }

  lemma ChainOfFour(a: nat, b: nat, c: nat, d: nat)
    ensures ChainEdges([a, b, c, d]) == [Edge(a, b), Edge(b, c), Edge(c, d)]
  {
  }

  /** The motif's four tasks run strictly one after another: start, then
      cluster creation, then the JDBC job, then cluster deletion; the job
      writes under the run's load-date and load-timestamp partition. */
  lemma MySqlChainOrder(g: Graph, m: MySqlMotif, parent: nat, config: Config.Composition)
    requires m.destinationStorageUri.Some?
    ensures BuildMySqlMotif(g, m, parent, config).Ok?
    ensures var (g2, h) := BuildMySqlMotif(g, m, parent, config).value;
      && g2.edges[|g.edges|..] == [Edge(h + 1, h + 2), Edge(h + 2, h + 3), Edge(h + 3, h + 4)]
      && g2.nodes[h + 3].op.jobArgs[6] == RawVaultPath(m.destinationStorageUri.value)
  {
    var r := BuildMySqlMotif(g, m, parent, config);
    var g2 := r.value.0;
    var h := r.value.1;
    ChainOfFour(h + 1, h + 2, h + 3, h + 4);
    assert g2.edges[|g.edges|..] == ChainEdges([h + 1, h + 2, h + 3, h + 4]);
  }
}

=== FILE: external_table.dfy ===
/** `CreateExternalBigQueryTableMotif` of the pipeline tree: a motif that
    creates an external BigQuery table over the Parquet files under a storage
    prefix. `setup` supplies the prefix and the table and returns the motif. */
module ExternalTable {
  import opened Results
  import Operators
  import opened Workflow

  const ClassName := "CreateExternalBigQueryTableMotif"
  const DefaultGcpConnId := "google_cloud_default"

  /** `table_resource` for a prefix, rendered the way an f-string renders it. */
  function TableResourceFor(prefix: Option<string>): (t: Operators.TableResource)
    ensures t.kind == "EXTERNAL" && t.hiveMode == "AUTO" && t.sourceFormat == "PARQUET"
    ensures t.sourceUriPrefix == prefix
    ensures |t.sourceUris| == 1
  {
    Operators.TableResource("EXTERNAL", "AUTO", prefix, "PARQUET", [PyStr(prefix) + "/*.parquet"])
  }

  /** The single source URI selects every Parquet file directly under the prefix. */
  lemma SourceUrisUnderPrefix(prefix: string)
    ensures var u := TableResourceFor(Some(prefix)).sourceUris[0];
      |u| == |prefix| + 10 && u[..|prefix|] == prefix && u[|prefix|..] == "/*.parquet"
  {
  }

  datatype Setup = Setup(sourcePrefix: string, destinationTableUri: string)

  /** `setup` is `None` until `setup` runs, the only place the prefix and table are assigned. */
  datatype Motif = Motif(name: string, gcpConnId: string, setup: Option<Setup>)

  function New(gcpConnId: string := DefaultGcpConnId, name: Option<string> := None): (m: Motif)
    ensures m.name == OrElse(name, ClassName) && m.gcpConnId == gcpConnId && m.setup.None?
  {
    Motif(OrElse(name, ClassName), gcpConnId, None)
  }

  /** `setup(source_bucket_uri_prefix, destination_project_dataset_table)`: stores both and returns the motif. */
  function SetUp(m: Motif, sourcePrefix: string, destinationTableUri: string): (r: Motif)
    ensures r.setup == Some(Setup(sourcePrefix, destinationTableUri))
    ensures r.name == m.name && r.gcpConnId == m.gcpConnId
  {
    m.(setup := Some(Setup(sourcePrefix, destinationTableUri)))
  }

  /** `build(dag, phrase_group)`: one task, named after the motif, creating the
      table over the prefix with the stored connection as the BigQuery connection. */
  function Build(g: Graph, m: Motif, parent: nat): (r: Result<(Graph, nat)>)
    ensures r.Ok? <==> m.setup.Some?
    ensures r.Err? ==> r.error == AttributeError(MissingAttribute(ClassName, "source_storage_uri_prefix"))
    ensures r.Ok? ==>
      && Subtree(g, r.value.0, r.value.1, parent)
      && |r.value.0.nodes| == |g.nodes| + 1 && r.value.0.edges == g.edges
      && r.value.0.nodes[r.value.1] == Task(Some(m.name), parent,
           Operators.CreateExternalTable(
             Some(m.setup.value.sourcePrefix), Some(m.setup.value.destinationTableUri),
             TableResourceFor(Some(m.setup.value.sourcePrefix)), Some(m.gcpConnId)))
  {
    if m.setup.None? then Err(AttributeError(MissingAttribute(ClassName, "source_storage_uri_prefix")))
    else
      var s := m.setup.value;
      var op := Operators.CreateExternalTable(
        Some(s.sourcePrefix), Some(s.destinationTableUri), TableResourceFor(Some(s.sourcePrefix)), Some(m.gcpConnId));
      TaskSubtree(g, Some(m.name), parent, op);
      Ok(AddTask(g, Some(m.name), parent, op))
  }

  /** What `setup` supplies is what the built task uses: the prefix is both
      the bucket and the hive partitioning prefix, and the table is the destination. */
  lemma SetupThenBuild(g: Graph, m: Motif, parent: nat, sourcePrefix: string, destinationTableUri: string)
    ensures var r := Build(g, SetUp(m, sourcePrefix, destinationTableUri), parent);
      && r.Ok?
      && var op := r.value.0.nodes[r.value.1].op;
      && op.bucket == Some(sourcePrefix)
      && op.destinationProjectDatasetTable == Some(destinationTableUri)
      && op.tableResource.sourceUriPrefix == Some(sourcePrefix)
      && op.bigqueryConnId == Some(m.gcpConnId)
      && r.value.0.nodes[r.value.1].taskId == Some(m.name)
  {
  }
}

/** `CreateExternalBigQueryTableMotif` of the older tree: the prefix and the
    table may be given at construction (both default to `None`), `setup`
    overwrites both and returns nothing, and `build` always succeeds. */
module ExternalTableLegacy {
  import opened Results
  import Config
  import Operators
  import ExternalTable
  import opened Workflow

  const ClassName := "CreateExternalBigQueryTableMotif"

  datatype Motif = Motif(
    name: string,
    table: Config.Table,
    sourcePrefix: Option<string>,
    destinationTableUri: Option<string>)

  function New(table: Config.Table, sourcePrefix: Option<string> := None,
               destinationTableUri: Option<string> := None, name: Option<string> := None): (m: Motif)
    ensures m.name == OrElse(name, ClassName) && m.table == table
    ensures m.sourcePrefix == sourcePrefix && m.destinationTableUri == destinationTableUri
  {
    Motif(OrElse(name, ClassName), table, sourcePrefix, destinationTableUri)
  }

  /** `setup(source_bucket_uri_prefix, destination_project_dataset_table)`: overwrites both. */
  function SetUp(m: Motif, sourcePrefix: string, destinationTableUri: string): (r: Motif)
    ensures r.sourcePrefix == Some(sourcePrefix) && r.destinationTableUri == Some(destinationTableUri)
    ensures r.name == m.name && r.table == m.table
  {
    m.(sourcePrefix := Some(sourcePrefix), destinationTableUri := Some(destinationTableUri))
  }

  /** Only the last `setup` matters. */
  lemma SetUpOverwrites(m: Motif, p1: string, d1: string, p2: string, d2: string)
    ensures SetUp(SetUp(m, p1, d1), p2, d2) == SetUp(m, p2, d2)
  {
  }

  /** `build(dag, phrase_group)`: one task named after the motif, with the
      stored prefix as bucket and the stored table as destination, whatever
      they are (the constructor's `None` included). */
  function Build(g: Graph, m: Motif, parent: nat): (r: (Graph, nat))
    ensures Subtree(g, r.0, r.1, parent)
    ensures |r.0.nodes| == |g.nodes| + 1 && r.0.edges == g.edges
    ensures r.0.nodes[r.1] == Task(Some(m.name), parent,
      Operators.CreateExternalTable(m.sourcePrefix, m.destinationTableUri,
        ExternalTable.TableResourceFor(m.sourcePrefix), None))
  {
    var op := Operators.CreateExternalTable(
      m.sourcePrefix, m.destinationTableUri, ExternalTable.TableResourceFor(m.sourcePrefix), None);
    TaskSubtree(g, Some(m.name), parent, op);
    AddTask(g, Some(m.name), parent, op)
  }

  /** Built without a prefix, the table reads from the literal path made of `None` followed by the Parquet wildcard. */
  lemma BuildWithoutPrefix(g: Graph, table: Config.Table, parent: nat)
    ensures Build(g, New(table), parent).0.nodes[|g.nodes|].op.tableResource.sourceUris == ["None/*.parquet"]
  {
    assert PyStr(None) + "/*.parquet" == "None/*.parquet";
  }
}

=== FILE: feux_dartifice.dfy ===
/** `FeuxDArtifice` of the ingestion tree: picks the movement builder for
    the configured database engine and plays it over the targets.

    As written the only builder never returns a movement: it calls
    `DataIngestionMovement` with phrase keywords the constructor does not
    declare, so `auto_play` yields a DAG only when there are no targets. */
module FeuxDArtifice {
  import opened Results
  import Config
  import Kwargs
  import ExportTable
  import ExternalTable
  import Motifs
  import Phrases
  import Movements
  import opened IngestionPhrases
  import DataIngestion
  import Compositions

  /** The builders registered in `rdbms_builder_fn`'s table. */
  datatype Builder = MySqlFullLoad

  /** `rdbms_builder_fn`: `mysql` is the only engine in the table. */
  function RdbmsBuilderFn(config: Config.Composition): (r: Result<Builder>)
    ensures r.Ok? <==> config.rdbmsName == "mysql"
    ensures r.Err? ==> r.error == NotImplementedError("Invalid rdbms: " + config.rdbmsName + " not implemented")
  {
    if config.rdbmsName == "mysql" then Ok(MySqlFullLoad)
    else Err(NotImplementedError("Invalid rdbms: " + config.rdbmsName + " not implemented"))
  }

  /** `mysql_ingestion_to_landing_phrase`: the full-table export, not yet set up. */
  function IngestionPhraseFor(mp: Config.MovementParameters): (p: IngestionPhrase)
    ensures p.className == "IngestionSourceToLandingStoragePhrase" && p.name.None?
    ensures p.exporter == Motifs.ExportMySql(ExportTable.NewMySqlMotif(mp))
  {
    IngestionPhrase("IngestionSourceToLandingStoragePhrase", None, Motifs.ExportMySql(ExportTable.NewMySqlMotif(mp)))
  }

  /** `gcs_landing_to_bigquery_raw_phrase`: `Landing_to_Raw_Phrase`, a default
      create-external motif then a merge motif for the target, neither set up. */
  function LandingToRawPhrase(mp: Config.MovementParameters): (p: RawPhrase)
    ensures p.ExternalTableRaw? && p.name == Some("Landing_to_Raw_Phrase")
    ensures RawAsPhrase(p).name == "Landing_to_Raw_Phrase"
    ensures RawAsPhrase(p).motifs == [Motifs.CreateExternal(ExternalTable.New()), Motifs.MergeTable(Motifs.MergeTableMotif(mp, None, None))]
  {
    ExternalTableRaw("LandingStorageExternalTableToDataWarehouseRawPhrase", Some("Landing_to_Raw_Phrase"),
                     ExternalTable.New(), Motifs.MergeTableMotif(mp, None, None), None)
  }

  /** The movement's name for a target. */
  function MovementName(mp: Config.MovementParameters): string
  {
    "DataIngestionMovement_" + mp.name
  }

  /** The keywords `rdbms_ingestion_movement_builder` passes to the movement's constructor. */
  const MovementKeywords := ["name", "start_phrase", "ingestion_source_to_landing_storage_phrase",
                             "landing_storage_to_data_warehouse_raw_phrase",
                             "data_warehouse_raw_to_trusted_phrase", "end_phrase"]

  /** `rdbms_ingestion_movement_builder`: the phrases are made, then the
      movement's constructor rejects the landing-storage keyword, so neither
      the name nor `setup` is reached. */
  function RdbmsIngestionMovementBuilder(config: Config.Composition, ingestion: IngestionPhrase,
                                         mp: Config.MovementParameters): (r: Result<Movements.Movement>)
    ensures r == Err(TypeError(UnexpectedKeyword(DataIngestion.Signature.callee, "ingestion_source_to_landing_storage_phrase")))
  {
    var start := StartPhrase();
    var raw := LandingToRawPhrase(mp);
    var trusted := PlaceholderRawToTrusted();
    var end := Phrases.NewEndPhrase();
    DataIngestion.LandingKeywordRejected(MovementKeywords);
    match Kwargs.Bind(DataIngestion.Signature, MovementKeywords)
    case Err(e) => Err(e)
    case Ok(_) =>
      Ok(Movements.New(DataIngestion.ClassName,
                       [start, IngestionAsPhrase(ingestion), RawAsPhrase(raw), trusted, end], Some(MovementName(mp))))
  }

  /** The movement builder a registered builder stands for. */
  function Apply(b: Builder, config: Config.Composition): Config.MovementParameters -> Result<Movements.Movement>
  {
    match b
    case MySqlFullLoad => mp => RdbmsIngestionMovementBuilder(config, IngestionPhraseFor(mp), mp)
  }

  /** No list of targets but the empty one gets a movement for every target. */
  lemma MySqlTargetsBuildable(config: Config.Composition, targets: seq<Config.MovementParameters>)
    ensures Compositions.MovementsBuildable(targets, Apply(MySqlFullLoad, config)) <==> |targets| == 0
  {
    if |targets| > 0 {
      assert Apply(MySqlFullLoad, config)(targets[0]).Err?;
    }
  }

  /** `auto_play`: `play` with the builder `rdbms_builder_fn` picks. An
      engine other than `mysql` fails; with `mysql`, the DAG is built exactly
      when its parameters name it and there are no targets. */
  method AutoPlay(config: Config.Composition, params: map<string, Config.Value>, targets: seq<Config.MovementParameters>)
    returns (r: Result<Compositions.Composed>)
    ensures r.Ok? <==> config.rdbmsName == "mysql" && Compositions.NewDagFrom(params).Ok? && |targets| == 0
    ensures config.rdbmsName != "mysql" ==> r == Err(NotImplementedError("Invalid rdbms: " + config.rdbmsName + " not implemented"))
  {
    var builder :- RdbmsBuilderFn(config);
    MySqlTargetsBuildable(config, targets);
    r := Compositions.Play(params, targets, Apply(builder, config), config);
  }
}

=== FILE: ingestion_composition.dfy ===
/** `DataIngestionBase`: the ingestion movement every data-ingestion
    composition builds for a target, given the phrase that moves the
    target's data out of its source. The raw phrase loads the landing files
    into the raw table with a hive-partitioned load job. */
module IngestionComposition {
  import opened Results
  import Strings
  import BigQueryJob
  import Config
  import Kwargs
  import Phrases
  import Movements
  import Motifs
  import opened IngestionPhrases
  import DataIngestion

  const LoadMotifName := "load_bigquery_from_gcs_hive_partition_motif"
  const LandingRawClassName := "LandingStorageLoadToDataWarehouseRawPhrase"

  /** The landing prefix of a target: `gs://<landing bucket>/<source type>/<source name>/<target>`. */
  function LandingPrefix(config: Config.Composition, mp: Config.MovementParameters): (r: string)
    ensures var e := config.environment;
      '/' !in e.landingBucket && '/' !in config.sourceType && '/' !in config.sourceName && '/' !in mp.name ==>
        Strings.Split(r, '/') == ["gs:", "", e.landingBucket, config.sourceType, config.sourceName, mp.name]
  {
    var uri := "gs://" + config.environment.landingBucket + "/" + config.sourceType + "/" + config.sourceName + "/" + mp.name;
    if '/' !in config.environment.landingBucket && '/' !in config.sourceType && '/' !in config.sourceName && '/' !in mp.name then
      Strings.SplitGcsPath(config.environment.landingBucket, config.sourceType, config.sourceName, mp.name);
      uri
    else uri
  }

  /** `load_bigquery_from_gcs_hive_partition_motif`: a PARQUET load that
      truncates the table and creates it when needed, with no schema update
      options, hive partitioning AUTO over the given prefix and time
      partitioning by the target's granularity and field. An unknown
      granularity fails in the partitioning's validator. */
  function LoadMotifFor(gcpConnId: string, sourceUriPrefix: string, gcsPartition: string,
                        granularity: string, field: string, destinationPartition: string): (r: Result<Motifs.LoadMotif>)
    ensures r.Ok? <==> granularity in BigQueryJob.TimePartitioningTypes
    ensures r.Err? ==> r.error == ValueError("Invalid type: " + granularity)
    ensures r.Ok? ==>
              && r.value.name == LoadMotifName
              && r.value.sourceFormat == "PARQUET"
              && r.value.writeDisposition == "WRITE_TRUNCATE"
              && r.value.createDisposition == "CREATE_IF_NEEDED"
              && r.value.schemaUpdateOptions.None?
              && r.value.hiveMode == "AUTO" && r.value.hiveSourceUriPrefix == sourceUriPrefix
              && r.value.timePartitioning == BigQueryJob.TimePartitioning(granularity, None, Some(field))
              && r.value.gcsPartition == gcsPartition && r.value.destinationPartition == destinationPartition
              && r.value.gcpConnId == gcpConnId
              && r.value.sourcePrefix.None? && r.value.destinationTableUri.None?
  {
    var tp :- BigQueryJob.NewTimePartitioning(granularity, field := Some(field));
    Ok(Motifs.LoadMotif(LoadMotifName, gcsPartition, destinationPartition, "PARQUET", "WRITE_TRUNCATE",
                        "CREATE_IF_NEEDED", "AUTO", sourceUriPrefix, tp, None, gcpConnId, None, None))
  }

  /** `gcs_landing_to_bigquery_raw_phrase`: a load phrase over the target's
      landing prefix and storage partition, partitioned as the target says. */
  function LandingToRawPhrase(config: Config.Composition, mp: Config.MovementParameters): (r: Result<RawPhrase>)
    ensures r.Ok? <==> mp.dataPartitioning.partitionGranularity in BigQueryJob.TimePartitioningTypes
    ensures r.Err? ==> r.error == ValueError("Invalid type: " + mp.dataPartitioning.partitionGranularity)
    ensures r.Ok? ==>
              && r.value.LoadRaw? && r.value.className == LandingRawClassName && r.value.name.None?
              && r.value.load.hiveSourceUriPrefix == LandingPrefix(config, mp)
              && r.value.load.gcsPartition == mp.dataPartitioning.gcsPartitionSchema
              && r.value.load.timePartitioning.field == Some(mp.dataPartitioning.partitionField)
              && r.value.load.gcpConnId == mp.extractConnectionId
  {
    var dp := mp.dataPartitioning;
    var load :- LoadMotifFor(mp.extractConnectionId, LandingPrefix(config, mp), dp.gcsPartitionSchema,
                             dp.partitionGranularity, dp.partitionField, dp.destinationPartition);
    Ok(LoadRaw(LandingRawClassName, None, load))
  }

  /** The movement's name for a target. */
  function MovementName(mp: Config.MovementParameters): string
  {
    "DataIngestionMovement_" + mp.name
  }

  /** Targets with distinct names get distinct movement names. */
  lemma {:induction false} MovementNameInjective(a: Config.MovementParameters, b: Config.MovementParameters)
    ensures MovementName(a) == MovementName(b) <==> a.name == b.name
  {
    var k := |"DataIngestionMovement_"|;
    if MovementName(a) == MovementName(b) {
      assert a.name == MovementName(a)[k..];
      assert b.name == MovementName(b)[k..];
    }
  }

  /** The keywords `ingestion_movement_builder` passes to the movement's constructor. */
  const AsWrittenKeywords := ["name", "start_phrase", "ingestion_source_to_landing_storage_phrase",
                              "landing_storage_to_data_warehouse_raw_phrase", "end_phrase"]

  /** `ingestion_movement_builder` as written: the phrases are made, then the
      movement's constructor is called with two keywords it does not declare.
      No target gets a movement: an unknown partition granularity raises
      `ValueError` while the phrases are made, and once the partitioning is
      valid the constructor rejects the landing-storage keyword. */
  function BuildMovementAsWritten(config: Config.Composition, mp: Config.MovementParameters,
                                  ingestion: IngestionPhrase): (r: Result<DataIngestion.Movement>)
    ensures r.Err?
    ensures mp.dataPartitioning.partitionGranularity !in BigQueryJob.TimePartitioningTypes ==>
              r == Err(ValueError("Invalid type: " + mp.dataPartitioning.partitionGranularity))
    ensures mp.dataPartitioning.partitionGranularity in BigQueryJob.TimePartitioningTypes ==>
              r == Err(TypeError(UnexpectedKeyword(DataIngestion.Signature.callee, "ingestion_source_to_landing_storage_phrase")))
  {
    DataIngestion.LandingKeywordRejected(AsWrittenKeywords);
    var start := StartPhrase();
    var raw :- LandingToRawPhrase(config, mp);
    var end := Phrases.NewEndPhrase();
    match Kwargs.Bind(DataIngestion.Signature, AsWrittenKeywords)
    case Err(e) => Err(e)
    case Ok(_) => Ok(DataIngestion.SetUp(DataIngestion.New(MovementName(mp), start, ingestion, raw, end), config, mp))
  }

  /** The keywords the corrected builder passes: the constructor's own names. */
  const Keywords := ["name", "start_phrase", "ingestion_source_to_raw_vault_storage_phrase",
                     "raw_vault_storage_to_data_warehouse_raw_phrase", "end_phrase"]

  /** The corrected keywords bind: every one is declared and every required parameter is supplied. */
  lemma KeywordsBind()
    ensures Kwargs.Bind(DataIngestion.Signature, Keywords).Ok?
  {
    assert forall i :: 0 <= i < |DataIngestion.Signature.required| ==> DataIngestion.Signature.required[i] in Keywords;
  }

  /** `ingestion_movement_builder` with the constructor's declared keywords (see `KeywordsBind`):
      the start phrase, the given ingestion phrase, the landing-to-raw load
      phrase and an end phrase, under `DataIngestionMovement_<target>`, set
      up for the target before it is returned. */
  function BuildMovement(config: Config.Composition, mp: Config.MovementParameters,
                         ingestion: IngestionPhrase): (r: Result<DataIngestion.Movement>)
    ensures r.Ok? <==> mp.dataPartitioning.partitionGranularity in BigQueryJob.TimePartitioningTypes
    ensures r.Err? ==> r.error == ValueError("Invalid type: " + mp.dataPartitioning.partitionGranularity)
    ensures r.Ok? ==>
              && r.value.name == MovementName(mp)
              && r.value.movementParameters == Some(mp)
              && r.value.start == StartPhrase()
              && r.value.ingestion == SetUpIngestion(ingestion, DataIngestion.RawVaultBucketUriPrefix(config, mp))
              && r.value.createOrUpdate.None?
              && r.value.raw.LoadRaw?
              && r.value.raw.load.sourcePrefix == Some(DataIngestion.RawVaultBucketUriPrefix(config, mp))
              && r.value.raw.load.destinationTableUri == Some(DataIngestion.RawTableUri(config, mp))
              && r.value.raw.load.hiveSourceUriPrefix == LandingPrefix(config, mp)
              && r.value.end == Phrases.NewEndPhrase()
  {
    var start := StartPhrase();
    var raw :- LandingToRawPhrase(config, mp);
    var end := Phrases.NewEndPhrase();
    Ok(DataIngestion.SetUp(DataIngestion.New(MovementName(mp), start, ingestion, raw, end), config, mp))
  }

  /** The corrected builder's movement has the four phrases in order and,
      when its export motif is one `setup` completes, can be built. */
  lemma BuiltMovementShape(config: Config.Composition, mp: Config.MovementParameters, ingestion: IngestionPhrase)
    requires BuildMovement(config, mp, ingestion).Ok?
    requires StorageExport(ingestion.exporter)
    ensures var m := DataIngestion.AsMovement(BuildMovement(config, mp, ingestion).value);
      && m.name == MovementName(mp)
      && |m.phrases| == 4
      && m.phrases[0].name == "StartPhrase"
      && m.phrases[1].motifs == [SetUpExport(ingestion.exporter, DataIngestion.RawVaultBucketUriPrefix(config, mp))]
      && m.phrases[2].name == LandingRawClassName
      && m.phrases[3].name == Phrases.EndPhraseClassName
      && Movements.AllBuildable(m)
  {
    var built := BuildMovement(config, mp, ingestion).value;
    var raw := LandingToRawPhrase(config, mp).value;
    assert built == DataIngestion.SetUp(DataIngestion.New(MovementName(mp), StartPhrase(), ingestion, raw, Phrases.NewEndPhrase()), config, mp);
    Phrases.EndPhraseBuildable(None);
    DataIngestion.SetUpBuildable(DataIngestion.New(MovementName(mp), StartPhrase(), ingestion, raw, Phrases.NewEndPhrase()), config, mp);
  }
}

=== FILE: ingestion_phrases.dfy ===
/** The phrases an ingestion movement is made of, each with the `setup`
    that forwards the movement's storage locations to its motifs.

    A phrase object holds references to its motifs, so a motif set up
    after the phrase was constructed is seen set up by the phrase. Here a
    phrase keeps its motifs as fields and `AsPhrase` lists them at the time
    the phrase is built. */
module IngestionPhrases {
  import opened Results
  import Config
  import BigQueryJob
  import QueryJobMotif
  import ExportTable
  import ExternalTable
  import SourceToGcs
  import Motifs
  import Phrases

  /** The phrase that moves the source's data into storage (the source to
      landing or to raw-vault phrase): its class is not part of this model;
      callers give it one export motif and `setup(destination_storage_uri)`
      hands the location on to that motif. */
  datatype IngestionPhrase = IngestionPhrase(className: string, name: Option<string>, exporter: Motifs.Motif)

  /** The export motif's `setup(destination_storage_uri)`; motifs without such a setup are left as they are. */
  function SetUpExport(m: Motifs.Motif, destinationStorageUri: string): (r: Motifs.Motif)
    ensures m.ExportMySql? ==> r == Motifs.ExportMySql(ExportTable.SetUpMySqlMotif(m.mysql, destinationStorageUri))
    ensures m.ExportQuery? ==> r == Motifs.ExportQuery(ExportTable.SetUpQueryMotif(m.exportQuery, destinationStorageUri))
    ensures m.CopyToLake? ==> r == Motifs.CopyToLake(SourceToGcs.SetUp(m.copy, destinationStorageUri))
    ensures !(m.ExportMySql? || m.ExportQuery? || m.CopyToLake?) ==> r == m
    ensures Motifs.RootId(r) == Motifs.RootId(m)
  {
    match m
    case ExportMySql(x) => Motifs.ExportMySql(ExportTable.SetUpMySqlMotif(x, destinationStorageUri))
    case ExportQuery(e) => Motifs.ExportQuery(ExportTable.SetUpQueryMotif(e, destinationStorageUri))
    case CopyToLake(c) => Motifs.CopyToLake(SourceToGcs.SetUp(c, destinationStorageUri))
    case _ => m
  }

  /** An export motif the phrase's `setup` makes buildable. */
  predicate StorageExport(m: Motifs.Motif)
  {
    m.ExportMySql? || m.ExportQuery? || m.CopyToLake? || m.Opaque?
  }

  /** Setting up a storage export motif makes it buildable. */
  lemma SetUpExportBuildable(m: Motifs.Motif, destinationStorageUri: string)
    requires StorageExport(m)
    ensures Motifs.Buildable(SetUpExport(m, destinationStorageUri))
  {
    if m.ExportQuery? {
      var e := ExportTable.SetUpQueryMotif(m.exportQuery, destinationStorageUri);
      assert e.job.setup.Some? && e.job.setup.value.destinationTable.None?;
    }
  }

  function SetUpIngestion(p: IngestionPhrase, destinationStorageUri: string): (r: IngestionPhrase)
    ensures r.className == p.className && r.name == p.name
    ensures r.exporter == SetUpExport(p.exporter, destinationStorageUri)
  {
    p.(exporter := SetUpExport(p.exporter, destinationStorageUri))
  }

  function IngestionAsPhrase(p: IngestionPhrase): (r: Phrases.Phrase)
    ensures r.name == OrElse(p.name, p.className) && r.motifs == [p.exporter]
  {
    Phrases.New(p.className, Some([p.exporter]), p.name)
  }

  /** The phrase that brings stored data into the warehouse's raw layer. */
  datatype RawPhrase =
      /** `RawVaultStorageExternalTableToDataWarehouseRawPhrase` (and the
          landing variant of the same shape): an external table over the
          stored files, then a merge of it into the raw table. */
    | ExternalTableRaw(className: string, name: Option<string>, create: ExternalTable.Motif,
                       merge: Motifs.MergeTableMotif, movementParameters: Option<Config.MovementParameters>)
      /** `RawVaultStorageLoadToDataWarehouseRawPhrase` (and the landing
          variant of the same shape): one load job from the stored files. */
    | LoadRaw(className: string, name: Option<string>, load: Motifs.LoadMotif)

  const ExternalTableRawClassName := "RawVaultStorageExternalTableToDataWarehouseRawPhrase"
  const LoadRawClassName := "RawVaultStorageLoadToDataWarehouseRawPhrase"

  function NewExternalTableRaw(create: ExternalTable.Motif, merge: Motifs.MergeTableMotif, name: Option<string> := None): (p: RawPhrase)
    ensures p == ExternalTableRaw(ExternalTableRawClassName, name, create, merge, None)
  {
    ExternalTableRaw(ExternalTableRawClassName, name, create, merge, None)
  }

  function NewLoadRaw(load: Motifs.LoadMotif, name: Option<string> := None): (p: RawPhrase)
    ensures p == LoadRaw(LoadRawClassName, name, load)
  {
    LoadRaw(LoadRawClassName, name, load)
  }

  /** The motifs of a raw phrase, in build order. */
  function RawMotifs(p: RawPhrase): (ms: seq<Motifs.Motif>)
    ensures p.ExternalTableRaw? ==> ms == [Motifs.CreateExternal(p.create), Motifs.MergeTable(p.merge)]
    ensures p.LoadRaw? ==> ms == [Motifs.LoadTable(p.load)]
  {
    match p
    case ExternalTableRaw(_, _, create, merge, _) => [Motifs.CreateExternal(create), Motifs.MergeTable(merge)]
    case LoadRaw(_, _, load) => [Motifs.LoadTable(load)]
  }

  function RawAsPhrase(p: RawPhrase): (r: Phrases.Phrase)
    ensures r.name == OrElse(p.name, p.className) && r.motifs == RawMotifs(p)
  {
    Phrases.New(p.className, Some(RawMotifs(p)), p.name)
  }

  /** `uri` reads back, as a `TableReference`, as table `table` of dataset
      `dataset` in project `project`. */
  predicate NamesTable(uri: string, project: string, dataset: string, table: string)
  {
    BigQueryJob.ParseTableReference(uri) == Ok(BigQueryJob.TableReference(uri, project, dataset, table))
  }

  /** `<project>.<dataset>.<table_prefix>_<name>`: the warehouse table a
      target lands in. When no part holds a dot, it reads back as table
      `<table_prefix>_<name>` of that dataset and project. */
  function TableUri(project: string, dataset: string, tablePrefix: string, name: string): (r: string)
    ensures '.' !in project && '.' !in dataset && '.' !in tablePrefix && '.' !in name ==>
              NamesTable(r, project, dataset, tablePrefix + "_" + name)
  {
    var uri := project + "." + dataset + "." + tablePrefix + "_" + name;
    if '.' !in project && '.' !in dataset && '.' !in tablePrefix && '.' !in name then
      assert uri == BigQueryJob.Dotted(project, dataset, tablePrefix + "_" + name);
      BigQueryJob.ParseDotted(project, dataset, tablePrefix + "_" + name);
      uri
    else uri
  }

  /** Two table URIs of the same target agree exactly when their datasets do. */
  lemma {:induction false} TableUriDataset(project: string, d1: string, d2: string, tablePrefix: string, name: string)
    ensures TableUri(project, d1, tablePrefix, name) == TableUri(project, d2, tablePrefix, name) <==> d1 == d2
  {
    var head := project + ".";
    var tail := "." + tablePrefix + "_" + name;
    assert TableUri(project, d1, tablePrefix, name) == head + d1 + tail;
    assert TableUri(project, d2, tablePrefix, name) == head + d2 + tail;
    if head + d1 + tail == head + d2 + tail {
      assert |d1| == |d2|;
      assert d1 == (head + d1 + tail)[|head|..|head| + |d1|];
      assert d2 == (head + d2 + tail)[|head|..|head| + |d2|];
    }
  }

  /** `raw_vault_external_table_uri`: the external table in the raw-vault
      dataset; reading it before `setup` stored the movement parameters fails. */
  function RawVaultExternalTableUri(config: Config.Composition, p: RawPhrase): (r: Result<string>)
    requires p.ExternalTableRaw?
    ensures r.Ok? <==> p.movementParameters.Some?
    ensures r.Ok? ==> r.value == TableUri(config.environment.project, config.environment.rawVaultDataset,
                                          config.tablePrefix, p.movementParameters.value.name)
    ensures r.Err? ==> r.error == AttributeError(MissingAttribute(p.className, "movement_parameters"))
  {
    match p.movementParameters
    case None => Err(AttributeError(MissingAttribute(p.className, "movement_parameters")))
    case Some(mp) => Ok(TableUri(config.environment.project, config.environment.rawVaultDataset, config.tablePrefix, mp.name))
  }

  /** `setup(movement_parameters, source_storage_uri_prefix, datawarehouse_raw_uri)`.
      The external-table phrase stores the parameters, points the
      create-external motif at the prefix and the raw-vault external table,
      and merges that table into the raw table; the load phrase hands the
      prefix and the raw table to its load motif. */
  function SetUpRaw(p: RawPhrase, config: Config.Composition, mp: Config.MovementParameters,
                    sourcePrefix: string, rawUri: string): (r: RawPhrase)
    ensures r.className == p.className && r.name == p.name && r.ExternalTableRaw? == p.ExternalTableRaw?
    // the external table created over the prefix is the one merged into the raw table
    ensures p.ExternalTableRaw? ==>
              && r.movementParameters == Some(mp)
              && r.create.setup == Some(ExternalTable.Setup(sourcePrefix, RawVaultExternalTableUri(config, r).value))
              && r.create.name == p.create.name && r.create.gcpConnId == p.create.gcpConnId
              && r.merge.mainTableUri == Some(rawUri)
              && r.merge.deltaTableUri == Some(r.create.setup.value.destinationTableUri)
              && r.merge.movementParameters == p.merge.movementParameters
    // the load phrase loads the prefix into the raw table, and nothing else about its motif changes
    ensures p.LoadRaw? ==>
              && r.load.sourcePrefix == Some(sourcePrefix) && r.load.destinationTableUri == Some(rawUri)
              && r.load == p.load.(sourcePrefix := r.load.sourcePrefix, destinationTableUri := r.load.destinationTableUri)
    // afterwards every motif of the phrase can be built
    ensures Phrases.AllBuildable(RawAsPhrase(r)) && |RawAsPhrase(r).motifs| > 0
  {
    match p
    case ExternalTableRaw(c, n, create, merge, _) =>
      var q := p.(movementParameters := Some(mp));
      var external := RawVaultExternalTableUri(config, q).value;
      ExternalTableRaw(c, n, ExternalTable.SetUp(create, sourcePrefix, external),
                       Motifs.SetUpMergeTable(merge, rawUri, external), Some(mp))
    case LoadRaw(c, n, load) => LoadRaw(c, n, Motifs.SetUpLoad(load, sourcePrefix, rawUri))
  }

  /** `StartPhrase`: its class is not part of this model; it is taken to hold one `StartMotif`. */
  function StartPhrase(): (p: Phrases.Phrase)
    ensures p.name == "StartPhrase" && p.motifs == [Motifs.Opaque("StartMotif")]
  {
    Phrases.New("StartPhrase", Some([Motifs.Opaque("StartMotif")]))
  }

  /** `DataWarehouseRawToTrustedPhrase(name, raw_to_trusted_motif)`: its class
      is not part of this model; it is taken to hold its one motif. */
  function RawToTrustedPhrase(motif: Motifs.Motif, name: Option<string>): (p: Phrases.Phrase)
    ensures p.name == OrElse(name, "DataWarehouseRawToTrustedPhrase") && p.motifs == [motif]
  {
    Phrases.New("DataWarehouseRawToTrustedPhrase", Some([motif]), name)
  }

  /** The raw-to-trusted phrase both ingestion compositions use: a query job
      motif set up with the placeholder SQL `select 1`, under the name
      `Raw_to_Trusted_Phrase`. */
  function PlaceholderRawToTrusted(): (p: Phrases.Phrase)
    ensures p.name == "Raw_to_Trusted_Phrase" && |p.motifs| == 1
    ensures p.motifs[0].Query? && p.motifs[0].query.setup == Some(QueryJobMotif.Setup("select 1", None))
    ensures Phrases.AllBuildable(p)
  {
    var q := QueryJobMotif.SetUp(QueryJobMotif.New(), "select 1");
    assert QueryJobMotif.Buildable(q);
    RawToTrustedPhrase(Motifs.Query(q), Some("Raw_to_Trusted_Phrase"))
  }

  /** The optional phrase that creates or updates the raw table: its class is
      not part of this model; `setup(table_uri)` records the table. */
  datatype TablePhrase = TablePhrase(phrase: Phrases.Phrase, tableUri: Option<string>)

  function SetUpTable(p: TablePhrase, tableUri: string): (r: TablePhrase)
    ensures r.phrase == p.phrase && r.tableUri == Some(tableUri)
  {
    p.(tableUri := Some(tableUri))
  }
}

=== FILE: kwargs.dfy ===
/** Python's binding of keyword arguments to a callable's declared
    parameters: a keyword the callable does not declare raises `TypeError`
    before anything else happens, and so does a parameter without a default
    that no keyword supplies. */
module Kwargs {
  import opened Results

  /** A callable's declared keyword parameters; `required` are those without a default. */
  datatype Signature = Signature(callee: string, params: seq<string>, required: seq<string>)

  /** The first keyword of `given` (in call order) that `params` does not declare. */
  function FirstUnexpected(params: seq<string>, given: seq<string>): (r: Option<string>)
    ensures r.None? <==> forall i :: 0 <= i < |given| ==> given[i] in params
    ensures r.Some? ==> r.value in given && r.value !in params
    ensures r.Some? ==> exists j :: 0 <= j < |given| && given[j] == r.value && forall i :: 0 <= i < j ==> given[i] in params
  {
    if |given| == 0 then None
    else if given[0] !in params then Some(given[0])
    else FirstUnexpected(params, given[1..])
  }

  /** The first required parameter (in declaration order) that no keyword supplies. */
  function FirstMissing(required: seq<string>, given: seq<string>): (r: Option<string>)
    ensures r.None? <==> forall i :: 0 <= i < |required| ==> required[i] in given
    ensures r.Some? ==> r.value in required && r.value !in given
    ensures r.Some? ==> exists j :: 0 <= j < |required| && required[j] == r.value && forall i :: 0 <= i < j ==> required[i] in given
  {
    if |required| == 0 then None
    else if required[0] !in given then Some(required[0])
    else FirstMissing(required[1..], given)
  }

  /** Binds the keywords of a call; succeeds exactly when every keyword is
      declared and every required parameter is supplied. */
  function Bind(sig: Signature, given: seq<string>): (r: Result<()>)
    ensures r.Ok? <==>
              && (forall i :: 0 <= i < |given| ==> given[i] in sig.params)
              && (forall i :: 0 <= i < |sig.required| ==> sig.required[i] in given)
    ensures r.Err? ==> r.error.TypeError?
    ensures (exists i :: 0 <= i < |given| && given[i] !in sig.params) ==>
              r == Err(TypeError(UnexpectedKeyword(sig.callee, FirstUnexpected(sig.params, given).value)))
    ensures (forall i :: 0 <= i < |given| ==> given[i] in sig.params)
            && (exists i :: 0 <= i < |sig.required| && sig.required[i] !in given) ==>
              r == Err(TypeError(MissingArgument(sig.callee, FirstMissing(sig.required, given).value)))
  {
    match FirstUnexpected(sig.params, given)
    case Some(k) => Err(TypeError(UnexpectedKeyword(sig.callee, k)))
    case None =>
      match FirstMissing(sig.required, given)
      case Some(p) => Err(TypeError(MissingArgument(sig.callee, p)))
      case None => Ok(())
  }
}

=== FILE: merge_motif.dfy ===
/** `MergeReplaceBigQueryMotif` of the older tree: a group named after the
    motif holding one Python task that renders the `MERGE` statement for a
    catalog table, from the main table and the delta table it was given. */
module MergeReplaceMotif {
  import opened Results
  import Strings
  import Config
  import Operators
  import MergeQuery
  import opened Templates
  import opened Workflow

  const ClassName := "MergeReplaceBigQueryMotif"
  const TaskId := "build_merge_query"
  const Callable := "build_bigquery_merge_query"

  datatype Motif = Motif(name: string, table: Config.Table, mainTableUri: string, deltaTableUri: string)

  function New(table: Config.Table, mainTableUri: string, deltaTableUri: string, name: Option<string> := None): (m: Motif)
    ensures m.name == OrElse(name, ClassName) && m.table == table
    ensures m.mainTableUri == mainTableUri && m.deltaTableUri == deltaTableUri
  {
    Motif(OrElse(name, ClassName), table, mainTableUri, deltaTableUri)
  }

  /** The names of columns, in order. */
  function ColumnNames(columns: seq<Config.Column>): (names: seq<string>)
    ensures |names| == |columns|
    ensures forall i :: 0 <= i < |columns| ==> names[i] == columns[i].name
  {
    seq(|columns|, i requires 0 <= i < |columns| => columns[i].name)
  }

  /** The keyword arguments `build_merge_query` hands the Python task: the
      stored tables, the PII column names joined by commas, no PII table, the
      load-date and load-timestamp partitions of the run, the table's key and
      fields, and no partition field or range. */
  function MergeArgsOf(m: Motif): (a: MergeQuery.MergeArgs)
    ensures a.sqlTemplate == MergeQuery.Merge
    ensures a.mainTable == m.mainTableUri && a.deltaTable == m.deltaTableUri
    ensures a.piiColumns == Strings.Join(",", ColumnNames(m.table.piiColumns)) && a.piiTable == ""
    ensures a.deltaDatePartition == "loadDate" && a.deltaDateValue == "{{ ds }}"
    ensures a.deltaTimePartition == "loadTimestamp" && a.deltaTimeValue == "{{ ts_nodash }}"
    ensures a.primaryKey == m.table.primaryKey.name && a.fields == ColumnNames(m.table.fields)
    ensures a.partitionField.None? && a.minPartitionValue.None? && a.maxPartitionValue.None?
  {
    MergeQuery.MergeArgs(
      sqlTemplate := MergeQuery.Merge,
      mainTable := m.mainTableUri,
      deltaTable := m.deltaTableUri,
      piiColumns := Strings.Join(",", ColumnNames(m.table.piiColumns)),
      piiTable := "",
      deltaDatePartition := "loadDate",
      deltaDateValue := "{{ ds }}",
      deltaTimePartition := "loadTimestamp",
      deltaTimeValue := "{{ ts_nodash }}",
      primaryKey := m.table.primaryKey.name,
      minPartitionValue := None,
      maxPartitionValue := None,
      fields := ColumnNames(m.table.fields),
      partitionField := None)
  }

  /** `build(dag, task_group)`: a group named after the motif inside the given
      group, holding the single `build_merge_query` task; the group is returned. */
  function Build(g: Graph, m: Motif, parent: nat): (r: (Graph, nat))
    ensures Subtree(g, r.0, r.1, parent)
    ensures |r.0.nodes| == r.1 + 2 && r.0.edges == g.edges
    ensures r.0.nodes[r.1] == Group(m.name, parent)
    ensures r.0.nodes[r.1 + 1] == Task(Some(TaskId), r.1, Operators.PythonCall(Callable, MergeArgsOf(m)))
  {
    var (g1, group) := AddGroup(g, m.name, parent);
    var op := Operators.PythonCall(Callable, MergeArgsOf(m));
    GroupSubtree(g, m.name, parent);
    GrowTask(g, g1, group, parent, Some(TaskId), group, op);
    (AddTask(g1, Some(TaskId), group, op).0, group)
  }

  /** The statement the motif's task renders always succeeds, and since the
      motif passes no partition field its match predicate is primary-key
      equality alone. */
  lemma MotifMatchIsKeyOnly(m: Motif)
    ensures var a := MergeArgsOf(m);
      && MergeQuery.BuildMergeQuery(a) == Ok(Weave(MergeQuery.MergeTexts, MergeQuery.MergeValues(a)))
      && MergeQuery.MergeValues(a)[6] == "\n" + MergeQuery.KeyLine(m.table.primaryKey.name) + "\n        "
  {
    MergeQuery.MergeStatement(MergeArgsOf(m));
    assert MergeQuery.MergeValues(MergeArgsOf(m))[6] == MergeQuery.MergeClause(m.table.primaryKey.name, None, None, None);
  }

  /** The PII column names survive the trip through the comma-joined argument:
      the builder's split gives back exactly the table's PII columns, so each
      one is excluded and re-selected under the `PII` alias. */
  lemma PiiColumnsRoundTrip(m: Motif)
    requires |m.table.piiColumns| >= 1
    requires forall i :: 0 <= i < |m.table.piiColumns| ==> ',' !in m.table.piiColumns[i].name
    ensures Strings.Split(MergeArgsOf(m).piiColumns, ',') == ColumnNames(m.table.piiColumns)
  {
    var names := ColumnNames(m.table.piiColumns);
    assert Strings.AllFree(names, ',');
    assert "," == [','];
    Strings.SplitJoin(names, ',');
  }
}

=== FILE: merge_query.dfy ===
/** The BigQuery `MERGE` upsert builder of the older tree
    (`build_bigquery_merge_query` and its `MERGE` template). */
module MergeQuery {
  import opened Results
  import Strings
  import opened Templates

  /** The keyword arguments of `build_bigquery_merge_query`. */
  datatype MergeArgs = MergeArgs(
    sqlTemplate: Template,
    mainTable: string,
    deltaTable: string,
    piiColumns: string,
    piiTable: string,
    deltaDatePartition: string,
    deltaDateValue: string,
    deltaTimePartition: string,
    deltaTimeValue: string,
    primaryKey: string,
    minPartitionValue: Option<string>,
    maxPartitionValue: Option<string>,
    fields: seq<string>,
    partitionField: Option<string>)

  /** The literal text of the `MERGE` template around its fields. */
  const MergeTexts: seq<string> := [
    "\n    MERGE \n        `",
    "` AS main\n    USING\n        (\n        SELECT\n            * ",
    ",\n            ",
    "\n        FROM\n            `",
    "` ",
    "\n        WHERE\n            ",
    "\n        ) AS delta\n    ON\n        ",
    "\n    WHEN MATCHED THEN UPDATE SET\n        ",
    "\n    WHEN NOT MATCHED THEN INSERT(\n        ",
    "\n    ) VALUES (\n        ",
    "\n    )\n"]

  /** The ten fields of the `MERGE` template, in template order. */
  const MergeFieldNames: seq<string> := [
    "main_table", "except_columns", "extra_columns", "delta_table", "join_clause",
    "where_clause", "merge_clause", "update_clause", "insert_list", "insert_values_list"]

  /** The `MERGE` template. */
  const Merge: Template := Interleave(MergeTexts, MergeFieldNames)

  /** The ten keywords the builder passes to the template. */
  const MergeKeywords: set<string> := {
    "main_table", "except_columns", "extra_columns", "join_clause", "delta_table",
    "where_clause", "merge_clause", "update_clause", "insert_list", "insert_values_list"}

  /** The three clauses that redact and re-join personally identifying columns. */
  datatype PiiClauses = PiiClauses(exceptColumns: string, extraColumns: string, joinClause: string)

  /** Each comma-separated column prefixed with the `PII` alias. */
  function PiiPrefixed(columns: seq<string>): (r: seq<string>)
    ensures |r| == |columns|
    ensures forall i :: 0 <= i < |r| ==> r[i] == "PII." + columns[i]
  {
    seq(|columns|, i requires 0 <= i < |columns| => "PII." + columns[i])
  }

  /** With PII columns, the delta excludes them, re-joins them from the PII
      table on the primary key, and selects each of them under the `PII`
      alias: splitting the extra-column list at commas gives back exactly the
      PII columns, each prefixed. Without PII columns all three clauses are empty. */
  function ComputePiiClauses(piiColumns: string, piiTable: string, primaryKey: string): (r: PiiClauses)
    ensures piiColumns == "" ==> r == PiiClauses("", "", "")
    ensures piiColumns != "" ==>
      && r.exceptColumns == "EXCEPT (" + piiColumns + ")"
      && r.joinClause == "INNER JOIN " + piiTable + " PII USING (" + primaryKey + ")"
      && Strings.Split(r.extraColumns, ',') == PiiPrefixed(Strings.Split(piiColumns, ','))
  {
    if piiColumns != "" then
      PrefixedSplitBack(piiColumns);
      PiiClauses(
        "EXCEPT (" + piiColumns + ")",
        Strings.Join(",", PiiPrefixed(Strings.Split(piiColumns, ','))),
        "INNER JOIN " + piiTable + " PII USING (" + primaryKey + ")")
    else PiiClauses("", "", "")
  }

  /** The filter restricting the delta to the current load's partitions:
      one line testing the date partition, joined by `AND` to one line
      testing the time partition. */
  function WhereClause(datePartition: string, dateValue: string, timePartition: string, timeValue: string): (r: string)
    ensures '\n' !in datePartition + dateValue + timePartition + timeValue ==>
      Strings.Split(r, '\n') == ["", "    " + datePartition + " = '" + dateValue + "' AND",
                                  "    " + timePartition + " = '" + timeValue + "'", "    "]
  {
    var dateLine := "    " + datePartition + " = '" + dateValue + "' AND";
    var timeLine := "    " + timePartition + " = '" + timeValue + "'";
    var clause := "\n    " + datePartition + " = '" + dateValue + "' AND\n    " + timePartition + " = '" + timeValue + "'\n    ";
    assert clause == "" + ['\n'] + dateLine + ['\n'] + timeLine + ['\n'] + "    ";
    if '\n' !in datePartition + dateValue + timePartition + timeValue then
      assert '\n' !in "    " && '\n' !in " = '" && '\n' !in "' AND" && '\n' !in "'";
      Strings.SplitFour("", dateLine, timeLine, "    ", '\n');
      clause
    else clause
  }

  /** Primary-key equality between the main table and the delta. */
  function KeyEquality(primaryKey: string): string
  {
    "main." + primaryKey + " = delta." + primaryKey
  }

  /** The match predicate: key equality, plus a range test on the partition
      field when one is given (and non-empty). Split into lines, it is the
      key-equality line, then, with a partition field, `AND` and a line
      testing that field between the two bounds. */
  function MergeClause(primaryKey: string, partitionField: Option<string>, minValue: Option<string>, maxValue: Option<string>)
    : (r: string)
    ensures var key := "\n" + KeyLine(primaryKey);
      |key| <= |r| && r[..|key|] == key
    ensures !Truthy(partitionField) ==> r == "\n" + KeyLine(primaryKey) + "\n        "
    ensures !Truthy(partitionField) && '\n' !in primaryKey ==>
      Strings.Split(r, '\n') == ["", KeyLine(primaryKey), "        "]
    ensures Truthy(partitionField) && '\n' !in primaryKey && '\n' !in partitionField.value
            && '\n' !in PyStr(minValue) && '\n' !in PyStr(maxValue) ==>
      Strings.Split(r, '\n') == ["", KeyLine(primaryKey) + " AND",
                                  RangeTest(partitionField.value, PyStr(minValue), PyStr(maxValue)), "        "]
  {
    if Truthy(partitionField) then
      var field, lo, hi := partitionField.value, PyStr(minValue), PyStr(maxValue);
      var clause := "\n" + (KeyLine(primaryKey) + " AND") + "\n" + RangeTest(field, lo, hi) + "\n        ";
      assert clause[..1 + |KeyLine(primaryKey)|] == "\n" + KeyLine(primaryKey);
      if '\n' !in primaryKey && '\n' !in field && '\n' !in lo && '\n' !in hi then
        LineFree(primaryKey, field, lo, hi);
        assert "\n        " == ['\n'] + "        ";
        assert clause == "" + ['\n'] + (KeyLine(primaryKey) + " AND") + ['\n'] + RangeTest(field, lo, hi) + ['\n'] + "        ";
        Strings.SplitFour("", KeyLine(primaryKey) + " AND", RangeTest(field, lo, hi), "        ", '\n');
        clause
      else clause
    else
      if '\n' !in primaryKey then
        LineFree(primaryKey, "", "", "");
        assert "\n        " == ['\n'] + "        ";
        assert "\n" + KeyLine(primaryKey) + "\n        " == "" + ['\n'] + KeyLine(primaryKey) + ['\n'] + "        ";
        Strings.SplitThree("", KeyLine(primaryKey), "        ", '\n');
        "\n" + KeyLine(primaryKey) + "\n        "
      else "\n" + KeyLine(primaryKey) + "\n        "
  }

  /** The key-equality line of the match predicate, indented. */
  function KeyLine(primaryKey: string): string
  {
    "        " + KeyEquality(primaryKey)
  }

  /** The range line of the match predicate, indented. */
  function RangeTest(field: string, lo: string, hi: string): string
  {
    "        main." + field + " BETWEEN '" + lo + "' AND '" + hi + "'"
  }

  /** The two lines hold no line break of their own. */
  lemma LineFree(primaryKey: string, field: string, lo: string, hi: string)
    requires '\n' !in primaryKey && '\n' !in field && '\n' !in lo && '\n' !in hi
    ensures '\n' !in KeyLine(primaryKey) && '\n' !in KeyLine(primaryKey) + " AND"
    ensures '\n' !in RangeTest(field, lo, hi)
  {
    assert '\n' !in "        " && '\n' !in "main." && '\n' !in " = delta." && '\n' !in " AND";
    assert '\n' !in "        main." && '\n' !in " BETWEEN '" && '\n' !in "' AND '" && '\n' !in "'";
  }

  function UpdateEntries(fields: seq<string>): seq<string>
  {
    seq(|fields|, i requires 0 <= i < |fields| => "main." + fields[i] + " = delta." + fields[i])
  }

  function InsertEntries(fields: seq<string>): seq<string>
  {
    seq(|fields|, i requires 0 <= i < |fields| => "`" + fields[i] + "`")
  }

  function InsertValueEntries(fields: seq<string>): seq<string>
  {
    seq(|fields|, i requires 0 <= i < |fields| => "delta." + fields[i])
  }

  /** The values the builder computes for the template's ten fields, in
      template order. */
  function MergeValues(a: MergeArgs): (vs: seq<string>)
    ensures |vs| == |MergeFieldNames|
  {
    var pii := ComputePiiClauses(a.piiColumns, a.piiTable, a.primaryKey);
    [ a.mainTable,
      pii.exceptColumns,
      pii.extraColumns,
      a.deltaTable,
      pii.joinClause,
      WhereClause(a.deltaDatePartition, a.deltaDateValue, a.deltaTimePartition, a.deltaTimeValue),
      MergeClause(a.primaryKey, a.partitionField, a.minPartitionValue, a.maxPartitionValue),
      Strings.Join(", ", UpdateEntries(a.fields)),
      Strings.Join(", ", InsertEntries(a.fields)),
      Strings.Join(", ", InsertValueEntries(a.fields))]
  }

  /** The keyword arguments the builder passes to `format`. */
  function MergeEnvironment(a: MergeArgs): (env: map<string, string>)
  {
    KeywordsOf(MergeValues(a))
  }

  /** The ten values under their keywords, in template order. */
  function KeywordsOf(v: seq<string>): map<string, string>
    requires |v| == |MergeFieldNames|
  {
    map[
      "main_table" := v[0],
      "except_columns" := v[1],
      "extra_columns" := v[2],
      "delta_table" := v[3],
      "join_clause" := v[4],
      "where_clause" := v[5],
      "merge_clause" := v[6],
      "update_clause" := v[7],
      "insert_list" := v[8],
      "insert_values_list" := v[9]]
  }

  lemma MergeEnvironmentKeys(a: MergeArgs)
    ensures MergeEnvironment(a).Keys == MergeKeywords
  {
  }

  /** Every field of the template finds the value computed for it. */
  lemma MergeEnvironmentLookup(a: MergeArgs)
    ensures forall i :: 0 <= i < |MergeFieldNames| ==> MergeFieldNames[i] in MergeEnvironment(a)
    ensures Lookup(MergeFieldNames, MergeEnvironment(a)) == MergeValues(a)
  {
    KeywordsLookup(MergeValues(a));
  }

  /** Looking the template's fields up among the keywords gives back the values. */
  lemma KeywordsLookup(v: seq<string>)
    requires |v| == |MergeFieldNames|
    ensures forall i :: 0 <= i < |MergeFieldNames| ==> MergeFieldNames[i] in KeywordsOf(v)
    ensures Lookup(MergeFieldNames, KeywordsOf(v)) == v
  {
    var env := KeywordsOf(v);
    var n := MergeFieldNames;
    assert n[0] in env && env[n[0]] == v[0];
    assert n[1] in env && env[n[1]] == v[1];
    assert n[2] in env && env[n[2]] == v[2];
    assert n[3] in env && env[n[3]] == v[3];
    assert n[4] in env && env[n[4]] == v[4];
    assert n[5] in env && env[n[5]] == v[5];
    assert n[6] in env && env[n[6]] == v[6];
    assert n[7] in env && env[n[7]] == v[7];
    assert n[8] in env && env[n[8]] == v[8];
    assert n[9] in env && env[n[9]] == v[9];
  }

  /** `build_bigquery_merge_query`: the template formatted with the ten
      computed values. It fails only if the template names a field outside
      those ten. */
  function BuildMergeQuery(a: MergeArgs): (r: Result<string>)
    ensures r.Ok? <==> Fields(a.sqlTemplate) <= MergeKeywords
    ensures r.Err? ==> r.error.KeyError? && r.error.key !in MergeKeywords
  {
    MergeEnvironmentKeys(a);
    Format(a.sqlTemplate, MergeEnvironment(a))
  }

  /** With the `MERGE` template the builder never fails, and the statement is
      the template's literal text with the ten computed values put in their
      places, in template order. */
  lemma MergeStatement(a: MergeArgs)
    requires a.sqlTemplate == Merge
    ensures BuildMergeQuery(a) == Ok(Weave(MergeTexts, MergeValues(a)))
  {
    MergeEnvironmentLookup(a);
    FormatInterleave(MergeTexts, MergeFieldNames, MergeEnvironment(a));
  }

  /** The comma-joined list of prefixed PII columns reads back, at its
      commas, as exactly the prefixed columns. */
  lemma PrefixedSplitBack(piiColumns: string)
    ensures var prefixed := PiiPrefixed(Strings.Split(piiColumns, ','));
      Strings.Split(Strings.Join(",", prefixed), ',') == prefixed
  {
    var columns := Strings.Split(piiColumns, ',');
    Strings.SplitShape(piiColumns, ',');
    var prefixed := PiiPrefixed(columns);
    assert Strings.AllFree(prefixed, ',') by {
      forall i | 0 <= i < |prefixed| ensures ',' !in prefixed[i] {
        assert ',' !in columns[i];
        assert ',' !in "PII.";
        assert prefixed[i] == "PII." + columns[i];
      }
    }
    Strings.SplitJoin(prefixed, ',');
  }

  /** `", ".join(xs)` read back at its commas: the first entry as is, every
      later one behind the single space the separator leaves. */
  function Spaced(xs: seq<string>): (r: seq<string>)
    ensures |r| == |xs|
  {
    seq(|xs|, i requires 0 <= i < |xs| => if i == 0 then xs[0] else " " + xs[i])
  }

  lemma {:induction false} JoinCommaSpace(xs: seq<string>)
    requires |xs| >= 1
    ensures Strings.Join(", ", xs) == Strings.Join(",", Spaced(xs))
    decreases |xs|
  {
    if |xs| > 1 {
      var rest := xs[1..];
      JoinCommaSpace(rest);
      var sr := Spaced(rest);
      var s := Spaced(xs);
      assert s[1..] == seq(|rest|, i requires 0 <= i < |rest| => " " + rest[i]);
      assert s[1..] == [" " + sr[0]] + sr[1..];
      Strings.JoinHead(",", " ", sr[0], sr[1..]);
      assert [sr[0]] + sr[1..] == sr;
    }
  }

  /** A `", "`-joined list of comma-free entries splits back, at its commas,
      into exactly one piece per entry, in order. */
  lemma CommaListEntries(xs: seq<string>)
    requires |xs| >= 1
    requires Strings.AllFree(xs, ',')
    ensures Strings.Split(Strings.Join(", ", xs), ',') == Spaced(xs)
  {
    JoinCommaSpace(xs);
    var s := Spaced(xs);
    assert Strings.AllFree(s, ',') by {
      forall i | 0 <= i < |s| ensures ',' !in s[i] {
        assert ',' !in xs[i];
        assert ',' !in " ";
      }
    }
    Strings.SplitJoin(s, ',');
  }

  /** The update, insert-column and insert-value lists each hold one entry per
      field, in field order: read back at the commas, entry `i` names field `i`
      (for field names without commas). */
  lemma FieldListsOnePerField(fields: seq<string>)
    requires |fields| >= 1
    requires Strings.AllFree(fields, ',')
    ensures Strings.Split(Strings.Join(", ", UpdateEntries(fields)), ',') == Spaced(UpdateEntries(fields))
    ensures Strings.Split(Strings.Join(", ", InsertEntries(fields)), ',') == Spaced(InsertEntries(fields))
    ensures Strings.Split(Strings.Join(", ", InsertValueEntries(fields)), ',') == Spaced(InsertValueEntries(fields))
  {
    var u := UpdateEntries(fields);
    var n := InsertEntries(fields);
    var v := InsertValueEntries(fields);
    forall i | 0 <= i < |fields|
      ensures ',' !in u[i] && ',' !in n[i] && ',' !in v[i]
    {
      assert ',' !in fields[i];
      assert ',' !in "main." && ',' !in " = delta." && ',' !in "`" && ',' !in "delta.";
    }
    CommaListEntries(u);
    CommaListEntries(n);
    CommaListEntries(v);
  }

  /** The range predicate extends the key-only one: the same lines, except
      that the key-equality line gains ` AND` and is followed by one line
      testing the partition field between exactly the two given bounds. The
      key-only predicate does not depend on the bounds at all. */
  lemma RangeExtendsKeyOnly(primaryKey: string, field: string, lo: Option<string>, hi: Option<string>)
    requires field != ""
    requires '\n' !in primaryKey && '\n' !in field && '\n' !in PyStr(lo) && '\n' !in PyStr(hi)
    ensures var keyOnly := Strings.Split(MergeClause(primaryKey, None, lo, hi), '\n');
      var range := Strings.Split(MergeClause(primaryKey, Some(field), lo, hi), '\n');
      && |range| == |keyOnly| + 1
      && range[0] == keyOnly[0]
      && range[1] == keyOnly[1] + " AND"
      && range[2] == "        main." + field + " BETWEEN '" + PyStr(lo) + "' AND '" + PyStr(hi) + "'"
      && range[3] == keyOnly[2]
    ensures MergeClause(primaryKey, None, lo, hi) == MergeClause(primaryKey, None, None, None)
  {
  }
}

=== FILE: motifs.dfy ===
/** Every motif the modelled pipelines put into a phrase, as one sum type,
    with the two motifs whose classes are outside the model recorded by the
    arguments their callers give them. */
module Motifs {
  import opened Results
  import BigQueryJob
  import Config
  import Operators
  import QueryJobMotif
  import ExportTable
  import ExternalTable
  import ExternalTableLegacy
  import MergeReplaceMotif
  import SourceToGcs
  import opened Workflow

  /** `MergeBigQueryTableMotif` of the ingestion tree: its class is not part
      of this model; `setup(main_table_uri, delta_table_uri)` records both
      tables and returns the motif. */
  datatype MergeTableMotif = MergeTableMotif(
    movementParameters: Config.MovementParameters,
    mainTableUri: Option<string>,
    deltaTableUri: Option<string>)

  function SetUpMergeTable(m: MergeTableMotif, mainTableUri: string, deltaTableUri: string): MergeTableMotif
  {
    m.(mainTableUri := Some(mainTableUri), deltaTableUri := Some(deltaTableUri))
  }

  /** `LoadGcsToBigQueryHivePartitionMotif`: its class is not part of this
      model; the record holds what the composition constructs it with, and
      `setup(source_storage_uri_prefix, destination_table_uri)` records both. */
  datatype LoadMotif = LoadMotif(
    name: string,
    gcsPartition: string,
    destinationPartition: string,
    sourceFormat: string,
    writeDisposition: string,
    createDisposition: string,
    hiveMode: string,
    hiveSourceUriPrefix: string,
    timePartitioning: BigQueryJob.TimePartitioning,
    schemaUpdateOptions: Option<string>,
    gcpConnId: string,
    sourcePrefix: Option<string>,
    destinationTableUri: Option<string>)

  function SetUpLoad(m: LoadMotif, sourcePrefix: string, destinationTableUri: string): LoadMotif
  {
    m.(sourcePrefix := Some(sourcePrefix), destinationTableUri := Some(destinationTableUri))
  }

  datatype Motif =
    | Query(query: QueryJobMotif.Motif)
    | ExportQuery(exportQuery: ExportTable.QueryMotif)
    | ExportMySql(mysql: ExportTable.MySqlMotif)
    | CreateExternal(external: ExternalTable.Motif)
    | CreateExternalLegacy(legacy: ExternalTableLegacy.Motif)
    | MergeReplace(mergeReplace: MergeReplaceMotif.Motif)
    | MergeTable(mergeTable: MergeTableMotif)
    | LoadTable(load: LoadMotif)
    | CopyToLake(copy: SourceToGcs.Motif)
      /** `ExportFullMySqlTableToGcsMotif(config, table)` of the older tree:
          its class is not part of this model; the record holds its arguments. */
    | ExportLegacy(exportConfig: Config.Composition, exportTable: Config.Table)
      /** A motif whose class is outside the model (`StartMotif`, `EndMotif`, ...). */
    | Opaque(className: string)

  /** The id of the node a motif's build returns, when the modelled code fixes it. */
  function RootId(m: Motif): Option<string>
  {
    match m
    case Query(q) => Some(q.name)
    case ExportQuery(e) => Some(e.job.name)
    case ExportMySql(x) => Some(x.name)
    case CreateExternal(c) => Some(c.name)
    case CreateExternalLegacy(c) => Some(c.name)
    case MergeReplace(r) => Some(r.name)
    case MergeTable(_) => None
    case LoadTable(_) => None
    case CopyToLake(_) => Some(SourceToGcs.TaskId)
    case ExportLegacy(_, _) => None
    case Opaque(_) => None
  }

  /** The motif's build succeeds: everything it reads was set up. A motif
      whose class is outside the model and that takes no setup always builds. */
  predicate Buildable(m: Motif)
  {
    match m
    case Query(q) => QueryJobMotif.Buildable(q)
    case ExportQuery(e) => QueryJobMotif.Buildable(e.job)
    case ExportMySql(x) => x.destinationStorageUri.Some?
    case CreateExternal(c) => c.setup.Some?
    case CreateExternalLegacy(_) => true
    case MergeReplace(_) => true
    case MergeTable(t) => t.mainTableUri.Some? && t.deltaTableUri.Some?
    case LoadTable(l) => l.sourcePrefix.Some? && l.destinationTableUri.Some?
    case CopyToLake(c) => c.gcsSchemaUri.Some?
    case ExportLegacy(_, _) => true
    case Opaque(_) => true
  }

  /** The first setup argument a motif outside the model reads but was never
      given (meaningful only when it is not buildable). */
  function UnsetAttribute(m: Motif): string
    requires m.MergeTable? || m.LoadTable?
  {
    if m.MergeTable? then (if m.mergeTable.mainTableUri.None? then "main_table_uri" else "delta_table_uri")
    else (if m.load.sourcePrefix.None? then "source_storage_uri_prefix" else "destination_table_uri")
  }

  /** The class a motif outside the model is built as. */
  function UnseenClass(m: Motif): string
  {
    match m
    case MergeTable(_) => "MergeBigQueryTableMotif"
    case LoadTable(_) => "LoadGcsToBigQueryHivePartitionMotif"
    case ExportLegacy(_, _) => "ExportFullMySqlTableToGcsMotif"
    case Opaque(c) => c
    case _ => ""
  }

  /** The contract every motif's build meets: the build succeeds exactly
      when the motif is buildable, and what it builds is one subtree inside
      `parent` whose root carries the motif's id. */
  ghost predicate Built(g: Graph, m: Motif, parent: nat, r: Result<(Graph, nat)>)
  {
    && (r.Ok? <==> Buildable(m))
    && (r.Ok? ==> Subtree(g, r.value.0, r.value.1, parent) && IdOf(r.value.0.nodes[r.value.1]) == RootId(m))
  }

  function BuildQuery(g: Graph, m: Motif, parent: nat): (r: Result<(Graph, nat)>)
    requires m.Query? || m.ExportQuery?
    ensures Built(g, m, parent, r)
  {
    QueryJobMotif.Build(g, if m.Query? then m.query else m.exportQuery.job, parent)
  }

  function BuildExportMySql(g: Graph, m: Motif, parent: nat, config: Config.Composition): (r: Result<(Graph, nat)>)
    requires m.ExportMySql?
    ensures Built(g, m, parent, r)
  {
    ExportTable.BuildMySqlMotif(g, m.mysql, parent, config)
  }

  function BuildExternal(g: Graph, m: Motif, parent: nat): (r: Result<(Graph, nat)>)
    requires m.CreateExternal? || m.CreateExternalLegacy?
    ensures Built(g, m, parent, r)
  {
    if m.CreateExternal? then ExternalTable.Build(g, m.external, parent)
    else Ok(ExternalTableLegacy.Build(g, m.legacy, parent))
  }

  function BuildMergeReplace(g: Graph, m: Motif, parent: nat): (r: Result<(Graph, nat)>)
    requires m.MergeReplace?
    ensures Built(g, m, parent, r)
  {
    assert Buildable(m) && RootId(m) == Some(m.mergeReplace.name);
    var b := MergeReplaceMotif.Build(g, m.mergeReplace, parent);
    assert IdOf(b.0.nodes[b.1]) == Some(m.mergeReplace.name);
    Ok(b)
  }

  function BuildCopy(g: Graph, m: Motif, parent: nat): (r: Result<(Graph, nat)>)
    requires m.CopyToLake?
    ensures Built(g, m, parent, r)
  {
    SourceToGcs.Build(g, m.copy, parent)
  }

  /** A motif whose class is outside the model builds as one task of that
      class; one never set up fails reading the first argument it lacks. */
  function BuildUnseen(g: Graph, m: Motif, parent: nat): (r: Result<(Graph, nat)>)
    requires m.MergeTable? || m.LoadTable? || m.ExportLegacy? || m.Opaque?
    ensures Built(g, m, parent, r)
    ensures !Buildable(m) ==> r == Err(AttributeError(MissingAttribute(UnseenClass(m), UnsetAttribute(m))))
  {
    if !Buildable(m) then Err(AttributeError(MissingAttribute(UnseenClass(m), UnsetAttribute(m))))
    else
      TaskSubtree(g, None, parent, Operators.Unseen(UnseenClass(m)));
      Ok(AddTask(g, None, parent, Operators.Unseen(UnseenClass(m))))
  }

  /** `motif.build(dag, group)`. */
  function Build(g: Graph, m: Motif, parent: nat, config: Config.Composition): (r: Result<(Graph, nat)>)
    ensures Built(g, m, parent, r)
  {
    match m
    case Query(_) => BuildQuery(g, m, parent)
    case ExportQuery(_) => BuildQuery(g, m, parent)
    case ExportMySql(_) => BuildExportMySql(g, m, parent, config)
    case CreateExternal(_) => BuildExternal(g, m, parent)
    case CreateExternalLegacy(_) => BuildExternal(g, m, parent)
    case MergeReplace(_) => BuildMergeReplace(g, m, parent)
    case CopyToLake(_) => BuildCopy(g, m, parent)
    case _ => BuildUnseen(g, m, parent)
  }
}

=== FILE: movements.dfy ===
/** `MovementBase`: a named, ordered list of phrases, built as one task
    group under the DAG in which each phrase group runs after the one before it. */
module Movements {
  import opened Results
  import Config
  import Phrases
  import opened Workflow

  datatype Movement = Movement(name: string, phrases: seq<Phrases.Phrase>)

  /** `MovementBase(phrases=..., name=None)` for a movement of class
      `className`: the name falls back to the class name. */
  function New(className: string, phrases: seq<Phrases.Phrase>, name: Option<string> := None): (m: Movement)
    ensures m.name == OrElse(name, className) && m.phrases == phrases
  {
    Movement(OrElse(name, className), phrases)
  }

  /** The ids of the phrase groups, in order. */
  function PhraseIds(m: Movement): (ids: seq<Option<string>>)
    ensures |ids| == |m.phrases|
    ensures forall i :: 0 <= i < |ids| ==> ids[i] == Some(m.phrases[i].name)
  {
    seq(|m.phrases|, i requires 0 <= i < |m.phrases| => Some(m.phrases[i].name))
  }

  /** Every phrase of the movement has motifs, all of which can be built. */
  predicate AllBuildable(m: Movement)
  {
    forall i :: 0 <= i < |m.phrases| ==> |m.phrases[i].motifs| > 0 && Phrases.AllBuildable(m.phrases[i])
  }

  /** The groups `groups` of `g` hold the phrases `ps`, one each, in order. */
  ghost predicate PhrasesHeld(g: Graph, groups: seq<nat>, ps: seq<Phrases.Phrase>)
  {
    |groups| == |ps| && forall i :: 0 <= i < |ps| ==> Phrases.PhraseAt(g, groups[i], ps[i])
  }

  lemma PhrasesHeldOutside(g1: Graph, g2: Graph, q: nat, groups: seq<nat>, ps: seq<Phrases.Phrase>)
    requires Valid(g1) && PhrasesHeld(g1, groups, ps) && Outside(g1, g2, q)
    requires forall i :: 0 <= i < |groups| ==> q < groups[i]
    ensures PhrasesHeld(g2, groups, ps)
  {
    forall i | 0 <= i < |ps| ensures Phrases.PhraseAt(g2, groups[i], ps[i]) {
      Phrases.PhraseAtOutside(g1, g2, q, groups[i], ps[i]);
    }
  }

  /** Group `grp` of `g` holds movement `m`: it carries the movement's name
      and holds one phrase group per phrase, chained in order, each holding
      its phrase. */
  ghost predicate MovementAt(g: Graph, grp: nat, m: Movement)
  {
    exists hs :: ChainAt(g, grp, m.name, PhraseIds(m), hs) && PhrasesHeld(g, hs, m.phrases)
  }

  /** Building elsewhere, inside an older node `q`, leaves the movement in place. */
  lemma MovementAtOutside(g1: Graph, g2: Graph, q: nat, grp: nat, m: Movement)
    requires Valid(g1) && MovementAt(g1, grp, m) && Outside(g1, g2, q) && q < grp
    ensures MovementAt(g2, grp, m)
  {
    var hs :| ChainAt(g1, grp, m.name, PhraseIds(m), hs) && PhrasesHeld(g1, hs, m.phrases);
    ChainAtOutside(g1, g2, q, grp, m.name, PhraseIds(m), hs);
    PhrasesHeldOutside(g1, g2, q, hs, m.phrases);
  }

  /** A movement built under the DAG is held by its group. */
  lemma BuiltMovementAt(g: Graph, dag: nat, m: Movement, b: Phrases.Built)
    requires Valid(g) && Phrases.ChainBuilt(g, dag, m.name, PhraseIds(m), b) && PhrasesHeld(b.graph, b.children, m.phrases)
    ensures MovementAt(b.graph, b.group, m)
  {
    Phrases.ChainBuiltAt(g, dag, m.name, PhraseIds(m), b);
  }

  /** After `i` rounds of `build`: the first `i` phrases all build, and
      their groups are chained in the movement group, each holding its phrase. */
  ghost predicate Progress(g: Graph, dag: nat, m: Movement, i: nat, b: Phrases.Built)
  {
    && i <= |m.phrases|
    && Phrases.ChainBuilt(g, dag, m.name, PhraseIds(m)[..i], b)
    && PhrasesHeld(b.graph, b.children, m.phrases[..i])
    && forall k :: 0 <= k < i ==> |m.phrases[k].motifs| > 0 && Phrases.AllBuildable(m.phrases[k])
  }

  /** Creating the movement group is round zero. */
  lemma ProgressBegin(g: Graph, dag: nat, m: Movement)
    requires Valid(g) && dag < |g.nodes|
    ensures Progress(g, dag, m, 0, Phrases.Built(AddGroup(g, m.name, dag).0, |g.nodes|, []))
  {
    Phrases.ChainBuiltBegin(g, dag, m.name);
  }

  /** After the last round every phrase builds and the whole movement is chained and held. */
  lemma ProgressDone(g: Graph, dag: nat, m: Movement, b: Phrases.Built)
    requires Progress(g, dag, m, |m.phrases|, b)
    ensures AllBuildable(m)
    ensures Phrases.ChainBuilt(g, dag, m.name, PhraseIds(m), b) && PhrasesHeld(b.graph, b.children, m.phrases)
  {
    assert PhraseIds(m)[..|m.phrases|] == PhraseIds(m) && m.phrases[..|m.phrases|] == m.phrases;
  }

  /** One round of `build`: phrase `i` built into the movement group and
      linked from the previous phrase group. */
  method BuildNext(g: Graph, dag: nat, m: Movement, i: nat, b: Phrases.Built, config: Config.Composition)
    returns (r: Result<Phrases.Built>)
    requires Valid(g) && dag < |g.nodes| && i < |m.phrases|
    requires Progress(g, dag, m, i, b)
    ensures r.Ok? <==> |m.phrases[i].motifs| > 0 && Phrases.AllBuildable(m.phrases[i])
    ensures r.Ok? ==> Progress(g, dag, m, i + 1, r.value)
  {
    var p := m.phrases[i];
    var built := Phrases.Build(b.graph, p, b.group, config);
    if built.Err? {
      return Err(built.error);
    }
    var pb := built.value;
    var next := if |b.children| == 0 then pb.graph else Link(pb.graph, b.children[|b.children| - 1], pb.group);
    StepChain(g, dag, m, i, b, pb, next);
    StepHeld(g, dag, m, i, b, pb, next);
    return Ok(Phrases.Built(next, b.group, b.children + [pb.group]));
  }

  /** One round of `build` extends the movement's chain by phrase `i`'s group. */
  lemma StepChain(g: Graph, dag: nat, m: Movement, i: nat, b: Phrases.Built, pb: Phrases.Built, next: Graph)
    requires Valid(g) && dag < |g.nodes| && i < |m.phrases|
    requires Phrases.ChainBuilt(g, dag, m.name, PhraseIds(m)[..i], b)
    requires Phrases.ChainBuilt(b.graph, b.group, m.phrases[i].name, Phrases.MotifIds(m.phrases[i]), pb)
    requires next == if |b.children| == 0 then pb.graph else Link(pb.graph, b.children[|b.children| - 1], pb.group)
    ensures Phrases.ChainBuilt(g, dag, m.name, PhraseIds(m)[..i + 1], Phrases.Built(next, b.group, b.children + [pb.group]))
  {
    var p := m.phrases[i];
    Phrases.ChainBuiltSubtree(b.graph, b.group, p.name, Phrases.MotifIds(p), pb);
    Phrases.ChainBuiltStep(g, dag, m.name, PhraseIds(m)[..i], b, pb.graph, pb.group, Some(p.name));
    assert PhraseIds(m)[..i] + [Some(p.name)] == PhraseIds(m)[..i + 1];
  }

  /** One round of `build` keeps the earlier phrases held and holds phrase `i`. */
  lemma StepHeld(g: Graph, dag: nat, m: Movement, i: nat, b: Phrases.Built, pb: Phrases.Built, next: Graph)
    requires Valid(g) && dag < |g.nodes| && i < |m.phrases|
    requires Phrases.ChainBuilt(g, dag, m.name, PhraseIds(m)[..i], b) && PhrasesHeld(b.graph, b.children, m.phrases[..i])
    requires Phrases.ChainBuilt(b.graph, b.group, m.phrases[i].name, Phrases.MotifIds(m.phrases[i]), pb)
    requires next == if |b.children| == 0 then pb.graph else Link(pb.graph, b.children[|b.children| - 1], pb.group)
    ensures PhrasesHeld(next, b.children + [pb.group], m.phrases[..i + 1])
  {
    HeldStep(g, dag, m.name, PhraseIds(m)[..i], b, m.phrases[..i], m.phrases[i], pb, next);
    assert m.phrases[..i] + [m.phrases[i]] == m.phrases[..i + 1];
  }

  /** The phrase just built and the phrases built before it are all held
      once the new phrase group is linked into the movement. */
  lemma HeldStep(g: Graph, dag: nat, name: string, ids: seq<Option<string>>, b: Phrases.Built,
                 ps: seq<Phrases.Phrase>, p: Phrases.Phrase, pb: Phrases.Built, next: Graph)
    requires Valid(g) && dag < |g.nodes|
    requires Phrases.ChainBuilt(g, dag, name, ids, b) && PhrasesHeld(b.graph, b.children, ps)
    requires Phrases.ChainBuilt(b.graph, b.group, p.name, Phrases.MotifIds(p), pb)
    requires next == if |b.children| == 0 then pb.graph else Link(pb.graph, b.children[|b.children| - 1], pb.group)
    ensures PhrasesHeld(next, b.children + [pb.group], ps + [p])
  {
    SubtreeOutside(b.graph, pb.graph, pb.group, b.group);
    Phrases.BuiltPhraseAt(b.graph, b.group, p, pb);
    if |b.children| > 0 {
      var last := b.children[|b.children| - 1];
      assert pb.graph.nodes[last] == b.graph.nodes[last];
      LinkOutside(pb.graph, last, pb.group, b.group);
      OutsideTrans(b.graph, pb.graph, next, b.group);
      Phrases.PhraseAtOutside(pb.graph, next, b.group, pb.group, p);
    }
    PhrasesHeldOutside(b.graph, next, b.group, b.children, ps);
    forall i | 0 <= i < |ps + [p]| ensures Phrases.PhraseAt(next, (b.children + [pb.group])[i], (ps + [p])[i]) {
      if i < |ps| {
        assert (b.children + [pb.group])[i] == b.children[i] && (ps + [p])[i] == ps[i];
      }
    }
  }

  /** `build(workflow_dag)`: creates the movement group under the DAG, then
      builds the phrases into it in order, linking each phrase group to the
      next; returns the movement group (not the last phrase group). */
  method Build(g: Graph, m: Movement, dag: nat, config: Config.Composition) returns (r: Result<Phrases.Built>)
    requires Valid(g) && dag < |g.nodes|
    ensures r.Ok? <==> |m.phrases| > 0 && AllBuildable(m)
    ensures |m.phrases| == 0 ==> r == Err(IndexError("list index out of range"))
    ensures r.Ok? ==> Phrases.ChainBuilt(g, dag, m.name, PhraseIds(m), r.value)
    ensures r.Ok? ==> PhrasesHeld(r.value.graph, r.value.children, m.phrases)
  {
    if |m.phrases| == 0 {
      return Err(IndexError("list index out of range"));
    }
    // Building phrase 0 links nothing; each later phrase group is linked from the previous one.
    var b := Phrases.Built(AddGroup(g, m.name, dag).0, |g.nodes|, []);
    ProgressBegin(g, dag, m);
    var i := 0;
    while i < |m.phrases|
      invariant Progress(g, dag, m, i, b)
    {
      var next := BuildNext(g, dag, m, i, b, config);
      if next.Err? {
        return Err(next.error);
      }
      b := next.value;
      i := i + 1;
    }
    ProgressDone(g, dag, m, b);
    return Ok(b);
  }

  /** `play(*args)` is `build(*args)`. */
  method Play(g: Graph, m: Movement, dag: nat, config: Config.Composition) returns (r: Result<Phrases.Built>)
    requires Valid(g) && dag < |g.nodes|
    ensures r.Ok? <==> |m.phrases| > 0 && AllBuildable(m)
    ensures |m.phrases| == 0 ==> r == Err(IndexError("list index out of range"))
    ensures r.Ok? ==> Phrases.ChainBuilt(g, dag, m.name, PhraseIds(m), r.value)
    ensures r.Ok? ==> PhrasesHeld(r.value.graph, r.value.children, m.phrases)
  {
    r := Build(g, m, dag, config);
  }
}

=== FILE: operators.dfy ===
/** The operators the motifs hand to the workflow engine, reduced to the
    arguments the assembler passes them. What an operator does when it runs
    is outside the model. */
module Operators {
  import opened Results
  import BigQueryJob
  import MergeQuery

  /** The table resource of an external BigQuery table. */
  datatype TableResource = TableResource(
    kind: string,
    hiveMode: string,
    sourceUriPrefix: Option<string>,
    sourceFormat: string,
    sourceUris: seq<string>)

  /** A storage hook: Google Cloud Storage through a GCP connection, or S3
      through an AWS connection. */
  datatype StorageHook = GcsHook(gcpConnId: string) | S3Hook(awsConnId: string)

  datatype Operator =
    | InsertJob(configuration: BigQueryJob.JobConfiguration, gcpConnId: string)
    | CreateExternalTable(
        bucket: Option<string>,
        destinationProjectDatasetTable: Option<string>,
        tableResource: TableResource,
        bigqueryConnId: Option<string>)
    | PythonCall(callable: string, mergeArgs: MergeQuery.MergeArgs)
    | DataprocSubmit(mainPythonFileUri: string, jobArgs: seq<string>, clusterName: string, region: string, projectId: string)
    | StorageToStorage(originHook: StorageHook, originFileUri: string, destinyHook: StorageHook, destinyFileUri: string)
    | Start(phase: string)
      /** An operator made by a class outside the model, named by that class. */
    | Unseen(className: string)
}

=== FILE: phrases.dfy ===
/** `PhraseBase`: a named, ordered list of motifs, built as one task group
    in which each motif runs after the one before it. Also `EndPhrase`, the
    one-motif phrase that closes a movement. */
module Phrases {
  import opened Results
  import Config
  import Motifs
  import opened Workflow

  datatype Phrase = Phrase(name: string, motifs: seq<Motifs.Motif>)

  /** `PhraseBase(motifs=None, name=None)` for a phrase of class `className`:
      the name falls back to the class name, the motifs to a fresh empty list. */
  function New(className: string, motifs: Option<seq<Motifs.Motif>> := None, name: Option<string> := None): (p: Phrase)
    ensures p.name == OrElse(name, className)
    ensures motifs.Some? ==> p.motifs == motifs.value
    ensures motifs.None? ==> p.motifs == []
  {
    Phrase(OrElse(name, className), if motifs.Some? then motifs.value else [])
  }

  /** `add_motif`: appends at the end, keeping the earlier motifs in order. */
  function AddMotif(p: Phrase, m: Motifs.Motif): (r: Phrase)
    ensures r.name == p.name
    ensures |r.motifs| == |p.motifs| + 1
    ensures r.motifs[..|p.motifs|] == p.motifs && r.motifs[|p.motifs|] == m
  {
    p.(motifs := p.motifs + [m])
  }

  /** What a chaining build returns: the graph, the handle of the group it
      created, and the handles its children returned, in build order. */
  datatype Built = Built(graph: Graph, group: nat, children: seq<nat>)

  /** `b` is a chain built into `g` under `parent`: one new group named
      `name`, holding one child per id in `ids` (in that order, carrying those
      ids), the only nodes directly in the group, each linked to the next and
      with no other edge at the level of the group. */
  ghost predicate ChainBuilt(g: Graph, parent: nat, name: string, ids: seq<Option<string>>, b: Built)
  {
    && b.group == |g.nodes|
    && Subtree(g, b.graph, b.group, parent)
    && Valid(b.graph)
    && b.graph.nodes[b.group] == Group(name, parent)
    && Chained(g, b.graph, b.group, b.children)
    && |b.children| == |ids|
    && (forall i :: 0 <= i < |ids| ==> IdOf(b.graph.nodes[b.children[i]]) == ids[i])
  }

  /** Creating the group starts a chain with no children. */
  lemma ChainBuiltBegin(g: Graph, parent: nat, name: string)
    requires Valid(g) && parent < |g.nodes|
    ensures ChainBuilt(g, parent, name, [], Built(AddGroup(g, name, parent).0, |g.nodes|, []))
  {
    ChainBegin(g, name, parent);
  }

  /** One more child subtree built into the group, linked from the previous
      child, extends the chain by that child's id. */
  lemma ChainBuiltStep(g: Graph, parent: nat, name: string, ids: seq<Option<string>>, b: Built,
                       g2: Graph, h: nat, id: Option<string>)
    requires Valid(g) && parent < |g.nodes|
    requires ChainBuilt(g, parent, name, ids, b)
    requires Subtree(b.graph, g2, h, b.group) && IdOf(g2.nodes[h]) == id
    ensures var next := if |b.children| == 0 then g2 else Link(g2, b.children[|b.children| - 1], h);
      ChainBuilt(g, parent, name, ids + [id], Built(next, b.group, b.children + [h]))
  {
    var next := if |b.children| == 0 then g2 else Link(g2, b.children[|b.children| - 1], h);
    ChainStep(g, b.graph, b.group, parent, b.children, g2, h);
    ChainBuiltNext(g, parent, name, ids, b, g2, h, id, next);
  }

  /** The step's new graph has the nodes of `g2`: the group and the ids of
      the earlier children stay where they were. */
  lemma ChainBuiltNext(g: Graph, parent: nat, name: string, ids: seq<Option<string>>, b: Built,
                       g2: Graph, h: nat, id: Option<string>, next: Graph)
    requires ChainBuilt(g, parent, name, ids, b)
    requires Subtree(b.graph, g2, h, b.group) && IdOf(g2.nodes[h]) == id
    requires next.nodes == g2.nodes
    requires Subtree(g, next, b.group, parent) && Valid(next) && Chained(g, next, b.group, b.children + [h])
    ensures ChainBuilt(g, parent, name, ids + [id], Built(next, b.group, b.children + [h]))
  {
    assert next.nodes[b.group] == b.graph.nodes[b.group];
    IdsExtend(b.graph, next, b.children, ids, h, id);
    ChainBuiltOf(g, parent, name, ids + [id], Built(next, b.group, b.children + [h]));
  }

  /** The facts that make up a built chain, gathered once they are all known. */
  lemma ChainBuiltOf(g: Graph, parent: nat, name: string, ids: seq<Option<string>>, b: Built)
    requires b.group == |g.nodes| && Subtree(g, b.graph, b.group, parent) && Valid(b.graph)
    requires b.graph.nodes[b.group] == Group(name, parent)
    requires Chained(g, b.graph, b.group, b.children) && |b.children| == |ids|
    requires forall i :: 0 <= i < |ids| ==> IdOf(b.graph.nodes[b.children[i]]) == ids[i]
    ensures ChainBuilt(g, parent, name, ids, b)
  {
  }

  /** Growing the graph keeps the ids of the existing children. */
  lemma IdsExtend(g1: Graph, g2: Graph, hs: seq<nat>, ids: seq<Option<string>>, h: nat, id: Option<string>)
    requires |g1.nodes| <= |g2.nodes| && g1.nodes == g2.nodes[..|g1.nodes|]
    requires |hs| == |ids| && forall i :: 0 <= i < |hs| ==> hs[i] < |g1.nodes|
    requires forall i :: 0 <= i < |ids| ==> IdOf(g1.nodes[hs[i]]) == ids[i]
    requires h < |g2.nodes| && IdOf(g2.nodes[h]) == id
    ensures forall i :: 0 <= i < |ids + [id]| ==> IdOf(g2.nodes[(hs + [h])[i]]) == (ids + [id])[i]
  {
    forall i | 0 <= i < |ids + [id]| ensures IdOf(g2.nodes[(hs + [h])[i]]) == (ids + [id])[i] {
      if i < |ids| {
        assert g2.nodes[hs[i]] == g1.nodes[hs[i]];
      }
    }
  }

  /** A chain built under `parent` is one subtree of it, rooted at a group carrying the chain's name. */
  lemma ChainBuiltSubtree(g: Graph, parent: nat, name: string, ids: seq<Option<string>>, b: Built)
    requires ChainBuilt(g, parent, name, ids, b)
    ensures Subtree(g, b.graph, b.group, parent) && IdOf(b.graph.nodes[b.group]) == Some(name)
  {
  }

  /** The root ids of the phrase's motifs, in order. */
  function MotifIds(p: Phrase): (ids: seq<Option<string>>)
    ensures |ids| == |p.motifs|
    ensures forall i :: 0 <= i < |ids| ==> ids[i] == Motifs.RootId(p.motifs[i])
  {
    seq(|p.motifs|, i requires 0 <= i < |p.motifs| => Motifs.RootId(p.motifs[i]))
  }

  /** A chain built under a parent is a chain of the whole graph it built. */
  lemma ChainBuiltAt(g: Graph, parent: nat, name: string, ids: seq<Option<string>>, b: Built)
    requires Valid(g) && ChainBuilt(g, parent, name, ids, b)
    ensures ChainAt(b.graph, b.group, name, ids, b.children)
  {
    ChainedAt(g, b.graph, b.group, parent, name, ids, b.children);
  }

  /** Group `grp` of `g` holds phrase `p`: it carries the phrase's name and
      holds the phrase's motifs' roots, in order, chained one after another. */
  ghost predicate PhraseAt(g: Graph, grp: nat, p: Phrase)
  {
    exists hs :: ChainAt(g, grp, p.name, MotifIds(p), hs)
  }

  /** A built phrase is held by its group. */
  lemma BuiltPhraseAt(g: Graph, parent: nat, p: Phrase, b: Built)
    requires Valid(g) && ChainBuilt(g, parent, p.name, MotifIds(p), b)
    ensures PhraseAt(b.graph, b.group, p)
  {
    ChainBuiltAt(g, parent, p.name, MotifIds(p), b);
  }

  /** Building elsewhere, inside an older node `q`, leaves the phrase in place. */
  lemma PhraseAtOutside(g1: Graph, g2: Graph, q: nat, grp: nat, p: Phrase)
    requires Valid(g1) && PhraseAt(g1, grp, p) && Outside(g1, g2, q) && q < grp
    ensures PhraseAt(g2, grp, p)
  {
    var hs :| ChainAt(g1, grp, p.name, MotifIds(p), hs);
    ChainAtOutside(g1, g2, q, grp, p.name, MotifIds(p), hs);
  }

  /** Every motif of the phrase can be built. */
  predicate AllBuildable(p: Phrase)
  {
    forall i :: 0 <= i < |p.motifs| ==> Motifs.Buildable(p.motifs[i])
  }

  /** After `i` rounds of `build`: the first `i` motifs all build, and
      their subtrees are chained in the phrase group. */
  ghost predicate Progress(g: Graph, parent: nat, p: Phrase, i: nat, b: Built)
  {
    && i <= |p.motifs|
    && ChainBuilt(g, parent, p.name, MotifIds(p)[..i], b)
    && forall k :: 0 <= k < i ==> Motifs.Buildable(p.motifs[k])
  }

  /** After the last round every motif builds and the whole phrase is chained. */
  lemma ProgressDone(g: Graph, parent: nat, p: Phrase, b: Built)
    requires Progress(g, parent, p, |p.motifs|, b)
    ensures AllBuildable(p) && ChainBuilt(g, parent, p.name, MotifIds(p), b)
  {
    assert MotifIds(p)[..|p.motifs|] == MotifIds(p);
  }

  /** One round of `build`: motif `i` built into the group and linked from
      the previous one. */
  method BuildNext(g: Graph, parent: nat, p: Phrase, i: nat, b: Built, config: Config.Composition)
    returns (r: Result<Built>)
    requires Valid(g) && parent < |g.nodes| && i < |p.motifs|
    requires Progress(g, parent, p, i, b)
    ensures r.Ok? <==> Motifs.Buildable(p.motifs[i])
    ensures r.Ok? ==> Progress(g, parent, p, i + 1, r.value)
  {
    var m := p.motifs[i];
    var built := Motifs.Build(b.graph, m, b.group, config);
    if built.Err? {
      return Err(built.error);
    }
    var (g2, h) := built.value;
    MotifStep(g, parent, p, i, b, g2, h);
    var next := if |b.children| == 0 then g2 else Link(g2, b.children[|b.children| - 1], h);
    return Ok(Built(next, b.group, b.children + [h]));
  }

  /** Motif `i`'s subtree, linked from the previous child, extends the
      chain of the first `i` motifs to the first `i + 1`. */
  lemma MotifStep(g: Graph, parent: nat, p: Phrase, i: nat, b: Built, g2: Graph, h: nat)
    requires Valid(g) && parent < |g.nodes| && i < |p.motifs|
    requires ChainBuilt(g, parent, p.name, MotifIds(p)[..i], b)
    requires Subtree(b.graph, g2, h, b.group) && IdOf(g2.nodes[h]) == Motifs.RootId(p.motifs[i])
    ensures var next := if |b.children| == 0 then g2 else Link(g2, b.children[|b.children| - 1], h);
      ChainBuilt(g, parent, p.name, MotifIds(p)[..i + 1], Built(next, b.group, b.children + [h]))
  {
    ChainBuiltStep(g, parent, p.name, MotifIds(p)[..i], b, g2, h, Motifs.RootId(p.motifs[i]));
    assert MotifIds(p)[..i] + [Motifs.RootId(p.motifs[i])] == MotifIds(p)[..i + 1];
  }

  /** `build(workflow_dag, movement_group)`: creates the phrase group, then
      builds the motifs into it in order, linking each built motif to the
      next; returns the phrase group. An empty phrase fails on `motifs[0]`,
      and a motif that fails to build stops the phrase with its error. */
  method Build(g: Graph, p: Phrase, parent: nat, config: Config.Composition) returns (r: Result<Built>)
    requires Valid(g) && parent < |g.nodes|
    ensures r.Ok? <==> |p.motifs| > 0 && AllBuildable(p)
    ensures |p.motifs| == 0 ==> r == Err(IndexError("list index out of range"))
    ensures r.Ok? ==> ChainBuilt(g, parent, p.name, MotifIds(p), r.value)
  {
    if |p.motifs| == 0 {
      return Err(IndexError("list index out of range"));
    }
    // Building motif 0 links nothing; each later motif is linked from the previous one.
    var b := Built(AddGroup(g, p.name, parent).0, |g.nodes|, []);
    ChainBuiltBegin(g, parent, p.name);
    var i := 0;
    assert MotifIds(p)[..0] == [];
    while i < |p.motifs|
      invariant Progress(g, parent, p, i, b)
    {
      var next := BuildNext(g, parent, p, i, b, config);
      if next.Err? {
        return Err(next.error);
      }
      b := next.value;
      i := i + 1;
    }
    ProgressDone(g, parent, p, b);
    return Ok(b);
  }

  /** `play(*args)` is `build(*args)`. */
  method Play(g: Graph, p: Phrase, parent: nat, config: Config.Composition) returns (r: Result<Built>)
    requires Valid(g) && parent < |g.nodes|
    ensures r.Ok? <==> |p.motifs| > 0 && AllBuildable(p)
    ensures |p.motifs| == 0 ==> r == Err(IndexError("list index out of range"))
    ensures r.Ok? ==> ChainBuilt(g, parent, p.name, MotifIds(p), r.value)
  {
    r := Build(g, p, parent, config);
  }

  const EndPhraseClassName := "EndPhrase"

  /** `EndPhrase(end_motif=None, name=None)`: exactly one motif, the given end
      motif or else a fresh `EndMotif`; the name is passed on unchanged. */
  function NewEndPhrase(endMotif: Option<Motifs.Motif> := None, name: Option<string> := None): (p: Phrase)
    ensures |p.motifs| == 1
    ensures endMotif.Some? ==> p.motifs[0] == endMotif.value
    ensures endMotif.None? ==> p.motifs[0] == Motifs.Opaque("EndMotif")
    ensures p.name == OrElse(name, EndPhraseClassName)
  {
    New(EndPhraseClassName, Some([if endMotif.Some? then endMotif.value else Motifs.Opaque("EndMotif")]), name)
  }

  /** The default end phrase always builds. */
  lemma EndPhraseBuildable(name: Option<string>)
    ensures |NewEndPhrase(None, name).motifs| > 0 && AllBuildable(NewEndPhrase(None, name))
  {
  }
}

=== FILE: query_job_motif.dfy ===
/** `BigQueryQueryJobMotif`: a motif that runs one BigQuery query job. It is
    constructed with its dispositions, set up with the SQL and an optional
    destination, and built into one insert-job task named after the motif. */
module QueryJobMotif {
  import opened Results
  import BigQueryJob
  import Operators
  import opened Workflow

  const ClassName := "BigQueryQueryJobMotif"

  /** The connection `insert_job_operator` uses when none is given. */
  const DefaultGcpConnId := "google_cloud_default"

  /** What `setup` stores. */
  datatype Setup = Setup(sqlQuery: string, destinationTable: Option<string>)

  /** `setup` is `None` until `setup` runs: `sql_query` is assigned nowhere else. */
  datatype Motif = Motif(
    name: string,
    writeDisposition: string,
    createDisposition: string,
    timePartitioning: Option<BigQueryJob.TimePartitioning>,
    setup: Option<Setup>)

  function New(
    name: Option<string> := None,
    writeDisposition: string := "WRITE_APPEND",
    createDisposition: string := "CREATE_IF_NEEDED",
    timePartitioning: Option<BigQueryJob.TimePartitioning> := None): (m: Motif)
    ensures m.setup.None?
    ensures m.name == OrElse(name, ClassName)
    ensures m.writeDisposition == writeDisposition && m.createDisposition == createDisposition
    ensures m.timePartitioning == timePartitioning
  {
    Motif(OrElse(name, ClassName), writeDisposition, createDisposition, timePartitioning, None)
  }

  /** `setup(sql_query, destination_table=None)`: records both and returns the motif. */
  function SetUp(m: Motif, sqlQuery: string, destinationTable: Option<string> := None): (r: Motif)
    ensures r.setup == Some(Setup(sqlQuery, destinationTable))
    ensures r.name == m.name && r.writeDisposition == m.writeDisposition
    ensures r.createDisposition == m.createDisposition && r.timePartitioning == m.timePartitioning
  {
    m.(setup := Some(Setup(sqlQuery, destinationTable)))
  }

  /** The motif can be built: it was set up, with a destination that is absent
      or a well-formed table reference. */
  predicate Buildable(m: Motif)
  {
    m.setup.Some? &&
    (!Truthy(m.setup.value.destinationTable) ||
     BigQueryJob.ParseTableReference(m.setup.value.destinationTable.value).Ok?)
  }

  /** The job configuration `build` hands to the operator. */
  function Configuration(m: Motif): (r: Result<BigQueryJob.JobConfiguration>)
    ensures r.Ok? <==> Buildable(m)
    ensures m.setup.None? ==> r == Err(AttributeError(MissingAttribute(ClassName, "sql_query")))
    ensures r.Ok? ==>
      r == BigQueryJob.QueryJobConfiguration(
        m.setup.value.sqlQuery, m.setup.value.destinationTable,
        Some(m.createDisposition), Some(m.writeDisposition), m.timePartitioning)
  {
    if m.setup.None? then Err(AttributeError(MissingAttribute(ClassName, "sql_query")))
    else
      BigQueryJob.QueryJobConfiguration(
        m.setup.value.sqlQuery, m.setup.value.destinationTable,
        Some(m.createDisposition), Some(m.writeDisposition), m.timePartitioning)
  }

  /** `build(dag, phrase_group)`: one insert-job task, whose id is the motif's
      name, inside the given group. */
  function Build(g: Graph, m: Motif, parent: nat): (r: Result<(Graph, nat)>)
    ensures r.Ok? <==> Buildable(m)
    ensures m.setup.None? ==> r.Err? && r.error.AttributeError?
    ensures r.Ok? ==>
      && Subtree(g, r.value.0, r.value.1, parent)
      && |r.value.0.nodes| == |g.nodes| + 1
      && r.value.0.edges == g.edges
      && r.value.0.nodes[r.value.1] == Task(Some(m.name), parent,
           Operators.InsertJob(Configuration(m).value, DefaultGcpConnId))
  {
    var configuration :- Configuration(m);
    TaskSubtree(g, Some(m.name), parent, Operators.InsertJob(configuration, DefaultGcpConnId));
    Ok(AddTask(g, Some(m.name), parent, Operators.InsertJob(configuration, DefaultGcpConnId)))
  }

  /** The task built after `setup(sql)` runs exactly that SQL, with no
      destination, and the dispositions and partitioning given at construction. */
  lemma SetupThenBuild(g: Graph, m: Motif, parent: nat, sqlQuery: string)
    ensures var r := Build(g, SetUp(m, sqlQuery), parent);
      && r.Ok?
      && r.value.0.nodes[r.value.1].op.configuration.Query?
      && var q := r.value.0.nodes[r.value.1].op.configuration.query;
      && q.query == sqlQuery
      && q.destinationTable.None?
      && q.writeDisposition == Some(m.writeDisposition)
      && q.createDisposition == Some(m.createDisposition)
      && (q.timePartitioning.Some? <==> m.timePartitioning.Some?)
      && (q.timePartitioning.Some? ==> q.timePartitioning.value == m.timePartitioning.value.ToDict())
  {
  }
}

=== FILE: results.dfy ===
/** Failure-compatible wrappers standing in for Python's `None` and exceptions.

    Every operation of the pipeline assembler that can raise in the original
    returns a `Result`; the error carries the Python exception class and its
    message so that contracts can say which exception a bad input provokes. */
module Results {

  /** Python's `Optional[T]`: `None` or a present value. */
  datatype Option<+T> = None | Some(value: T)

  /** The exception classes the assembler raises (directly or through the
      interpreter: a failed attribute lookup, a bad keyword argument, ...). */
  datatype Error =
    | ValueError(message: string)
    | TypeError(message: string)
    | KeyError(key: string)
    | AttributeError(message: string)
    | IndexError(message: string)
    | NotImplementedError(message: string)

  datatype Result<+T> = Ok(value: T) | Err(error: Error) {
    predicate IsFailure() {
      Err?
    }

    function PropagateFailure<U>(): Result<U>
      requires Err?
    {
      Err(error)
    }

    function Extract(): T
      requires Ok?
    {
      value
    }
  }

  /** Python truthiness of an `Optional[str]`: `None` and `""` are false. */
  predicate Truthy(o: Option<string>) {
    o.Some? && o.value != ""
  }

  /** `name or default` for an optional name: the name when it is truthy,
      otherwise the default (a class name, in every use here). */
  function OrElse(name: Option<string>, default: string): string {
    if Truthy(name) then name.value else default
  }

  /** How an f-string renders an `Optional[str]`: `None` becomes the text "None". */
  function PyStr(o: Option<string>): string {
    match o
    case None => "None"
    case Some(s) => s
  }

  /** The message CPython gives when a call names a keyword its callee does not declare. */
  function UnexpectedKeyword(callee: string, keyword: string): string {
    callee + "() got an unexpected keyword argument '" + keyword + "'"
  }

  /** The message CPython gives when a required parameter receives no argument. */
  function MissingArgument(callee: string, parameter: string): string {
    callee + "() missing 1 required argument: '" + parameter + "'"
  }

  /** The message CPython gives when an attribute that was never assigned is read. */
  function MissingAttribute(className: string, attribute: string): string {
    "'" + className + "' object has no attribute '" + attribute + "'"
  }
}

=== FILE: storage_ingestion.dfy ===
/** `StorageParquetDataIngestionComposition`: ingests one parquet file per
    target from Cloud Storage or S3 into the raw-vault bucket, then loads it
    through the ingestion movement of `DataIngestionBase`. */
module StorageIngestion {
  import opened Results
  import Config
  import Kwargs
  import Operators
  import SourceToGcs
  import Motifs
  import Movements
  import opened IngestionPhrases
  import IngestionComposition
  import DataIngestion
  import BigQueryJob
  import Compositions

  const IngestionPhraseClassName := "IngestionSourceToRawVaultStoragePhrase"

  /** `get_motif_from_source`'s table: the hook that reads the target's file,
      through the target's extract connection; a storage type other than
      `gcs` and `s3` is not in the table. */
  function SourceHook(mp: Config.MovementParameters): (r: Result<Operators.StorageHook>)
    ensures r.Ok? <==> mp.sourceStorageType in {"gcs", "s3"}
    ensures mp.sourceStorageType == "gcs" ==> r == Ok(Operators.GcsHook(mp.extractConnectionId))
    ensures mp.sourceStorageType == "s3" ==> r == Ok(Operators.S3Hook(mp.extractConnectionId))
    ensures r.Err? ==> r.error == KeyError(mp.sourceStorageType)
  {
    if mp.sourceStorageType == "gcs" then Ok(Operators.GcsHook(mp.extractConnectionId))
    else if mp.sourceStorageType == "s3" then Ok(Operators.S3Hook(mp.extractConnectionId))
    else Err(KeyError(mp.sourceStorageType))
  }

  /** `source_to_raw_vault_gcs_motif`: copies the target's file, through the
      given hook, into the lake over the data-lake connection, under the
      target's storage partition. */
  function SourceMotif(config: Config.Composition, hook: Operators.StorageHook,
                       mp: Config.MovementParameters): (m: SourceToGcs.Motif)
    ensures m.sourceHook == hook && m.lakeHook == Operators.GcsHook(config.environment.dataLakeConnectionId)
    ensures m.sourceFileUri == mp.sourceFileUri && m.gcsPartition == mp.dataPartitioning.gcsPartitionSchema
    ensures m.name == SourceToGcs.ClassName && m.gcsSchemaUri.None?
  {
    SourceToGcs.New(hook, config.environment.dataLakeConnectionId, mp.sourceFileUri, mp.dataPartitioning.gcsPartitionSchema)
  }

  /** `get_motif_from_source`. */
  function MotifFromSource(config: Config.Composition, mp: Config.MovementParameters): (r: Result<SourceToGcs.Motif>)
    ensures r.Ok? <==> mp.sourceStorageType in {"gcs", "s3"}
    ensures r.Err? ==> r.error == KeyError(mp.sourceStorageType)
    ensures r.Ok? ==> r.value == SourceMotif(config, SourceHook(mp).value, mp)
  {
    var hook :- SourceHook(mp);
    Ok(SourceMotif(config, hook, mp))
  }

  /** A `gcs` target and an `s3` target that agree on everything else get
      motifs that agree on everything but the source hook. */
  lemma SourcesDifferOnlyInHook(config: Config.Composition, mp: Config.MovementParameters)
    ensures var g := MotifFromSource(config, mp.(sourceStorageType := "gcs"));
            var s := MotifFromSource(config, mp.(sourceStorageType := "s3"));
      && g.Ok? && s.Ok?
      && g.value.sourceHook == Operators.GcsHook(mp.extractConnectionId)
      && s.value.sourceHook == Operators.S3Hook(mp.extractConnectionId)
      && g.value.(sourceHook := s.value.sourceHook) == s.value
  {
  }

  /** `storage_ingestion_to_raw_vault_phrase`. */
  function IngestionPhraseOf(m: SourceToGcs.Motif): (p: IngestionPhrase)
    ensures p == IngestionPhrase(IngestionPhraseClassName, None, Motifs.CopyToLake(m))
  {
    IngestionPhrase(IngestionPhraseClassName, None, Motifs.CopyToLake(m))
  }

  /** `ingestion_movement_builder`'s keyword parameters. */
  const BuilderSignature := Kwargs.Signature("DataIngestionBase.ingestion_movement_builder",
                                             ["movement_parameters", "ingestion_to_landing_phrase"],
                                             ["movement_parameters", "ingestion_to_landing_phrase"])

  /** `gcs_data_ingestion_movement_builder` as written: the motif and its
      phrase are made, then the inherited builder is called with a keyword it
      does not declare. No target gets a movement: an unknown storage type
      fails the lookup, and a known one fails the call. */
  function BuildMovementAsWritten(config: Config.Composition, mp: Config.MovementParameters)
    : (r: Result<DataIngestion.Movement>)
    ensures mp.sourceStorageType !in {"gcs", "s3"} ==> r == Err(KeyError(mp.sourceStorageType))
    ensures mp.sourceStorageType in {"gcs", "s3"} ==>
              r == Err(TypeError(UnexpectedKeyword(BuilderSignature.callee, "ingestion_to_raw_vault_phrase")))
  {
    assert "ingestion_to_raw_vault_phrase" !in BuilderSignature.params;
    var motif :- MotifFromSource(config, mp);
    var phrase := IngestionPhraseOf(motif);
    match Kwargs.Bind(BuilderSignature, ["movement_parameters", "ingestion_to_raw_vault_phrase"])
    case Err(e) => Err(e)
    case Ok(_) => IngestionComposition.BuildMovement(config, mp, phrase)
  }

  /** `gcs_data_ingestion_movement_builder` passing the phrase under the
      builder's declared keyword, into the corrected ingestion builder. */
  function BuildMovement(config: Config.Composition, mp: Config.MovementParameters)
    : (r: Result<DataIngestion.Movement>)
    ensures mp.sourceStorageType !in {"gcs", "s3"} ==> r == Err(KeyError(mp.sourceStorageType))
    ensures mp.sourceStorageType in {"gcs", "s3"} ==>
              r == IngestionComposition.BuildMovement(config, mp, IngestionPhraseOf(MotifFromSource(config, mp).value))
  {
    var motif :- MotifFromSource(config, mp);
    IngestionComposition.BuildMovement(config, mp, IngestionPhraseOf(motif))
  }

  /** The corrected movement copies the target's file to
      `<raw-vault prefix>/<storage partition>/0.parquet`, and every phrase of
      it can be built. The raw phrase's load motif then holds two different
      prefixes: the raw-vault prefix its `setup` records as the source to
      load from, and the landing prefix it was constructed with as the hive
      partitioning source prefix. */
  lemma BuiltMovementCopiesIntoRawVault(config: Config.Composition, mp: Config.MovementParameters)
    requires BuildMovement(config, mp).Ok?
    ensures var m := BuildMovement(config, mp).value;
            var prefix := DataIngestion.RawVaultBucketUriPrefix(config, mp);
      && m.ingestion.exporter.CopyToLake?
      && m.ingestion.exporter.copy.gcsSchemaUri == Some(prefix + "/" + mp.dataPartitioning.gcsPartitionSchema + "/")
      && m.ingestion.exporter.copy.sourceFileUri == mp.sourceFileUri
      && m.raw.load.sourcePrefix == Some(prefix)
      && m.raw.load.hiveSourceUriPrefix == IngestionComposition.LandingPrefix(config, mp)
      && Movements.AllBuildable(DataIngestion.AsMovement(m))
  {
    var motif := MotifFromSource(config, mp).value;
    IngestionComposition.BuiltMovementShape(config, mp, IngestionPhraseOf(motif));
  }

  /** The movement builder the composition hands to `build`: the corrected
      movement of each target, as `MovementBase` builds it. */
  function MovementBuilder(config: Config.Composition): Config.MovementParameters -> Result<Movements.Movement>
  {
    mp => match BuildMovement(config, mp)
          case Ok(m) => Ok(DataIngestion.AsMovement(m))
          case Err(e) => Err(e)
  }

  /** A target the corrected builder accepts: read from Cloud Storage or S3,
      with a granularity the partitioning validator admits. */
  predicate Ingestible(mp: Config.MovementParameters)
  {
    mp.sourceStorageType in {"gcs", "s3"} && mp.dataPartitioning.partitionGranularity in BigQueryJob.TimePartitioningTypes
  }

  /** Every target gets a movement that builds exactly when every target is ingestible. */
  lemma {:induction false} TargetsBuildable(config: Config.Composition, targets: seq<Config.MovementParameters>)
    ensures Compositions.MovementsBuildable(targets, MovementBuilder(config)) <==>
              forall k :: 0 <= k < |targets| ==> Ingestible(targets[k])
  {
    forall k | 0 <= k < |targets| && Ingestible(targets[k])
      ensures MovementBuilder(config)(targets[k]).Ok?
      ensures |MovementBuilder(config)(targets[k]).value.phrases| > 0
      ensures Movements.AllBuildable(MovementBuilder(config)(targets[k]).value)
    {
      BuiltMovementCopiesIntoRawVault(config, targets[k]);
    }
  }

  /** `build(gcs_data_ingestion_movement_builder)` with the corrected builder:
      one DAG holding one movement per target, in target order, exactly when
      the DAG parameters name the DAG and every target is ingestible. */
  method Play(config: Config.Composition, params: map<string, Config.Value>, targets: seq<Config.MovementParameters>)
    returns (r: Result<Compositions.Composed>)
    ensures r.Ok? <==> Compositions.NewDagFrom(params).Ok? && forall k :: 0 <= k < |targets| ==> Ingestible(targets[k])
    ensures r.Ok? ==> Compositions.OneDag(Compositions.NewDagFrom(params).value.nodes[0], r.value.graph, r.value.movements,
                                          Compositions.MovementList(targets, MovementBuilder(config)))
  {
    TargetsBuildable(config, targets);
    r := Compositions.Play(params, targets, MovementBuilder(config), config);
  }
}

=== FILE: storage_motif.dfy ===
/** `SourceToGcsMotif` of the storage-ingestion example: copies one file from
    a source storage (Cloud Storage or S3) into the data lake bucket, under
    the partition directory that `setup` derives from the destination. */
module SourceToGcs {
  import opened Results
  import Strings
  import Operators
  import opened Workflow

  const ClassName := "SourceToGcsMotif"
  const TaskId := "source_to_raw_vault_gcs"

  /** `destinationStorageUri` and `gcsSchemaUri` are assigned only by `setup`. */
  datatype Motif = Motif(
    name: string,
    sourceHook: Operators.StorageHook,
    lakeHook: Operators.StorageHook,
    sourceFileUri: string,
    gcsPartition: string,
    destinationStorageUri: Option<string>,
    gcsSchemaUri: Option<string>)

  /** The constructor: the lake side always goes through a Cloud Storage hook
      on the lake connection. */
  function New(sourceHook: Operators.StorageHook, lakeGcpConnId: string, sourceFileUri: string,
               gcsPartition: string, name: Option<string> := None): (m: Motif)
    ensures m.name == OrElse(name, ClassName) && m.sourceHook == sourceHook
    ensures m.lakeHook == Operators.GcsHook(lakeGcpConnId)
    ensures m.sourceFileUri == sourceFileUri && m.gcsPartition == gcsPartition
    ensures m.destinationStorageUri.None? && m.gcsSchemaUri.None?
  {
    Motif(OrElse(name, ClassName), sourceHook, Operators.GcsHook(lakeGcpConnId), sourceFileUri, gcsPartition, None, None)
  }

  /** The partition directory under a destination: one more path segment,
      ending in the separator. */
  function SchemaUri(destinationStorageUri: string, gcsPartition: string): (r: string)
    ensures |destinationStorageUri| <= |r| && r[..|destinationStorageUri|] == destinationStorageUri
    ensures '/' !in gcsPartition ==> Strings.Split(r[|destinationStorageUri|..], '/') == ["", gcsPartition, ""]
  {
    var uri := destinationStorageUri + "/" + gcsPartition + "/";
    assert uri[|destinationStorageUri|..] == "" + ['/'] + gcsPartition + ['/'] + "";
    if '/' !in gcsPartition then
      Strings.SplitThree("", gcsPartition, "", '/');
      uri
    else uri
  }

  /** `setup(destination_storage_uri)`: stores the destination and the
      partition directory under it (and returns nothing). */
  function SetUp(m: Motif, destinationStorageUri: string): (r: Motif)
    ensures r.destinationStorageUri == Some(destinationStorageUri)
    ensures r.gcsSchemaUri == Some(SchemaUri(destinationStorageUri, m.gcsPartition))
    ensures r.name == m.name && r.sourceHook == m.sourceHook && r.lakeHook == m.lakeHook
    ensures r.sourceFileUri == m.sourceFileUri && r.gcsPartition == m.gcsPartition
  {
    m.(destinationStorageUri := Some(destinationStorageUri),
       gcsSchemaUri := Some(SchemaUri(destinationStorageUri, m.gcsPartition)))
  }

  /** `build(dag, phrase_group)`: one copy task with the fixed id, from the
      source file to `0.parquet` in the partition directory. */
  function Build(g: Graph, m: Motif, parent: nat): (r: Result<(Graph, nat)>)
    ensures r.Ok? <==> m.gcsSchemaUri.Some?
    ensures r.Err? ==> r.error == AttributeError(MissingAttribute(ClassName, "gcs_schema_uri"))
    ensures r.Ok? ==>
      && Subtree(g, r.value.0, r.value.1, parent)
      && |r.value.0.nodes| == |g.nodes| + 1 && r.value.0.edges == g.edges
      && r.value.0.nodes[r.value.1] == Task(Some(TaskId), parent,
           Operators.StorageToStorage(m.sourceHook, m.sourceFileUri, m.lakeHook, m.gcsSchemaUri.value + "0.parquet"))
  {
    if m.gcsSchemaUri.None? then Err(AttributeError(MissingAttribute(ClassName, "gcs_schema_uri")))
    else
      var op := Operators.StorageToStorage(m.sourceHook, m.sourceFileUri, m.lakeHook, m.gcsSchemaUri.value + "0.parquet");
      TaskSubtree(g, Some(TaskId), parent, op);
      Ok(AddTask(g, Some(TaskId), parent, op))
  }

  /** After `setup(d)` the copy lands at `d/<partition>/0.parquet`. */
  lemma SetupThenBuild(g: Graph, m: Motif, parent: nat, destinationStorageUri: string)
    ensures var r := Build(g, SetUp(m, destinationStorageUri), parent);
      && r.Ok?
      && r.value.0.nodes[r.value.1].op.destinyFileUri
         == destinationStorageUri + "/" + m.gcsPartition + "/" + "0.parquet"
      && r.value.0.nodes[r.value.1].op.originFileUri == m.sourceFileUri
  {
  }
}

=== FILE: strings.dfy ===
/** Python's `str.join` and `str.split` on one separator character, with the
    round-trip facts the SQL and URI builders rely on. */
module Strings {

  /** `sep.join(parts)`. */
  function Join(sep: string, parts: seq<string>): string
  {
    if |parts| == 0 then ""
    else if |parts| == 1 then parts[0]
    else parts[0] + sep + Join(sep, parts[1..])
  }

  /** `s.split(c)` for a one-character separator: never empty, and an empty
      string splits into one empty part. */
  function Split(s: string, c: char): (parts: seq<string>)
    ensures |parts| >= 1
    decreases |s|
  {
    if |s| == 0 then [""]
    else if s[0] == c then [""] + Split(s[1..], c)
    else
      var rest := Split(s[1..], c);
      [[s[0]] + rest[0]] + rest[1..]
  }

  /** Number of occurrences of `c` in `s`. */
  function Count(s: string, c: char): nat
  {
    if |s| == 0 then 0
    else (if s[0] == c then 1 else 0) + Count(s[1..], c)
  }

  /** Every part is free of the character `c`. */
  ghost predicate AllFree(parts: seq<string>, c: char)
  {
    forall i :: 0 <= i < |parts| ==> c !in parts[i]
  }

  lemma {:induction false} CountZero(s: string, c: char)
    ensures Count(s, c) == 0 <==> c !in s
    decreases |s|
  {
    if |s| > 0 {
      CountZero(s[1..], c);
      assert s == [s[0]] + s[1..];
    }
  }

  /** Splitting yields one more part than there are separators, and no part
      contains the separator. */
  lemma {:induction false} SplitShape(s: string, c: char)
    ensures |Split(s, c)| == Count(s, c) + 1
    ensures AllFree(Split(s, c), c)
    decreases |s|
  {
    if |s| > 0 {
      SplitShape(s[1..], c);
      var rest := Split(s[1..], c);
      if s[0] != c {
        var head := [s[0]] + rest[0];
        assert c !in head by {
          assert c !in rest[0];
          forall k | 0 <= k < |head|
            ensures head[k] != c
          {
            if k > 0 { assert head[k] == rest[0][k - 1]; }
          }
        }
        var r := [head] + rest[1..];
        forall i | 0 <= i < |r|
          ensures c !in r[i]
        {
          if i > 0 { assert r[i] == rest[i]; }
        }
      } else {
        var r := [""] + rest;
        forall i | 0 <= i < |r|
          ensures c !in r[i]
        {
          if i > 0 { assert r[i] == rest[i - 1]; }
        }
      }
    }
  }

  /** Joining three parts. */
  lemma JoinThree(sep: string, a: string, b: string, c: string)
    ensures Join(sep, [a, b, c]) == a + sep + b + sep + c
  {
    assert [a, b, c][1..] == [b, c];
    assert [b, c][1..] == [c];
    assert Join(sep, [b, c]) == b + sep + c;
    assert Join(sep, [a, b, c]) == a + sep + (b + sep + c);
  }

  lemma JoinHead(sep: string, a: string, b: string, rest: seq<string>)
    ensures Join(sep, [a + b] + rest) == a + Join(sep, [b] + rest)
  {
    if |rest| > 0 {
      assert ([a + b] + rest)[1..] == rest;
      assert ([b] + rest)[1..] == rest;
    }
  }

  /** Joining the parts of a split gives back the original string. */
  lemma {:induction false} JoinSplit(s: string, c: char)
    ensures Join([c], Split(s, c)) == s
    decreases |s|
  {
    if |s| > 0 {
      JoinSplit(s[1..], c);
      var rest := Split(s[1..], c);
      if s[0] == c {
        assert ([""] + rest)[1..] == rest;
        assert s == [c] + s[1..];
      } else {
        JoinHead([c], [s[0]], rest[0], rest[1..]);
        assert [rest[0]] + rest[1..] == rest;
        assert s == [s[0]] + s[1..];
      }
    }
  }

  lemma {:induction false} SplitFree(p: string, c: char)
    requires c !in p
    ensures Split(p, c) == [p]
    decreases |p|
  {
    if |p| > 0 {
      assert c !in p[1..] by {
        forall k | 0 <= k < |p[1..]| ensures p[1..][k] != c { assert p[1..][k] == p[k + 1]; }
      }
      SplitFree(p[1..], c);
      assert [p[0]] + p[1..] == p;
    }
  }

  lemma {:induction false} SplitPrefix(p: string, c: char, t: string)
    requires c !in p
    ensures Split(p + [c] + t, c) == [p] + Split(t, c)
    decreases |p|
  {
    var s := p + [c] + t;
    if |p| == 0 {
      assert s[0] == c && s[1..] == t;
    } else {
      assert c !in p[1..] by {
        forall k | 0 <= k < |p[1..]| ensures p[1..][k] != c { assert p[1..][k] == p[k + 1]; }
      }
      assert s[1..] == p[1..] + [c] + t;
      SplitPrefix(p[1..], c, t);
      var rest := Split(s[1..], c);
      assert rest == [p[1..]] + Split(t, c);
      assert rest[0] == p[1..] && rest[1..] == Split(t, c);
      assert s[0] == p[0] && s[0] != c;
      assert Split(s, c) == [[p[0]] + p[1..]] + Split(t, c);
      assert [p[0]] + p[1..] == p;
    }
  }

  /** Splitting a join of separator-free parts gives back exactly those parts. */
  lemma {:induction false} SplitJoin(parts: seq<string>, c: char)
    requires |parts| >= 1
    requires AllFree(parts, c)
    ensures Split(Join([c], parts), c) == parts
    decreases |parts|
  {
    assert c !in parts[0];
    if |parts| == 1 {
      SplitFree(parts[0], c);
    } else {
      var rest := parts[1..];
      assert AllFree(rest, c) by {
        forall i | 0 <= i < |rest| ensures c !in rest[i] { assert rest[i] == parts[i + 1]; }
      }
      SplitJoin(rest, c);
      SplitPrefix(parts[0], c, Join([c], rest));
      assert [parts[0]] + rest == parts;
    }
  }

  /** A separator-free head, the separator and a tail split into the head
      followed by the tail's parts. */
  lemma SplitCons(head: string, ch: char, tail: string, rest: seq<string>)
    requires ch !in head && Split(tail, ch) == rest
    ensures Split(head + [ch] + tail, ch) == [head] + rest
  {
    SplitPrefix(head, ch, tail);
  }

  /** Regrouping a joined string to the right, kept apart from any split so
      that the solver never unfolds a split while it re-associates. */
  lemma Regroup3(a: string, b: string, c: string, ch: char)
    ensures a + [ch] + b + [ch] + c == a + [ch] + (b + [ch] + c)
  {
  }

  lemma Regroup4(a: string, b: string, c: string, d: string, ch: char)
    ensures a + [ch] + b + [ch] + c + [ch] + d == a + [ch] + (b + [ch] + (c + [ch] + d))
  {
  }

  /** Splitting three separator-free parts joined by the separator. */
  lemma SplitThree(a: string, b: string, c: string, ch: char)
    requires ch !in a && ch !in b && ch !in c
    ensures Split(a + [ch] + b + [ch] + c, ch) == [a, b, c]
  {
    SplitFree(c, ch);
    SplitCons(b, ch, c, [c]);
    SplitCons(a, ch, b + [ch] + c, [b, c]);
    Regroup3(a, b, c, ch);
  }

  /** Splitting four separator-free parts joined by the separator. */
  lemma SplitFour(a: string, b: string, c: string, d: string, ch: char)
    requires ch !in a && ch !in b && ch !in c && ch !in d
    ensures Split(a + [ch] + b + [ch] + c + [ch] + d, ch) == [a, b, c, d]
  {
    SplitFree(d, ch);
    SplitCons(c, ch, d, [d]);
    SplitCons(b, ch, c + [ch] + d, [c, d]);
    SplitCons(a, ch, b + [ch] + (c + [ch] + d), [b, c, d]);
    Regroup4(a, b, c, d, ch);
  }

  /** A `gs://` URI of four slash-free segments splits into the scheme, the
      empty authority separator and the four segments. */
  lemma SplitGcsPath(bucket: string, a: string, b: string, c: string)
    requires '/' !in bucket && '/' !in a && '/' !in b && '/' !in c
    ensures Split("gs://" + bucket + "/" + a + "/" + b + "/" + c, '/') == ["gs:", "", bucket, a, b, c]
  {
    var tail := bucket + ['/'] + (a + ['/'] + (b + ['/'] + c));
    SplitFree(c, '/');
    SplitCons(b, '/', c, [c]);
    SplitCons(a, '/', b + ['/'] + c, [b, c]);
    SplitCons(bucket, '/', a + ['/'] + (b + ['/'] + c), [a, b, c]);
    SplitCons("", '/', tail, [bucket, a, b, c]);
    assert '/' !in "gs:";
    SplitCons("gs:", '/', "" + ['/'] + tail, ["", bucket, a, b, c]);
    GcsRegroup(bucket, a, b, c);
  }

  /** The `gs://` URI regrouped to the right. */
  lemma GcsRegroup(bucket: string, a: string, b: string, c: string)
    ensures "gs://" + bucket + "/" + a + "/" + b + "/" + c
         == "gs:" + ['/'] + ("" + ['/'] + (bucket + ['/'] + (a + ['/'] + (b + ['/'] + c))))
  {
  }
}

=== FILE: templates.dfy ===
/** Python's `str.format(**kwargs)` over a template whose replacement fields
    are named: each field is replaced by the keyword value of the same name,
    unused keywords are ignored, and a field with no keyword raises
    `KeyError` naming it. The template text is held already split into
    literal pieces and named fields. */
module Templates {
  import opened Results

  datatype Piece = Lit(text: string) | Field(name: string)

  type Template = seq<Piece>

  /** The names of the replacement fields a template contains. */
  function Fields(t: Template): set<string>
  {
    if |t| == 0 then {}
    else (if t[0].Field? then {t[0].name} else {}) + Fields(t[1..])
  }

  /** `t.format(**env)`: fields are filled in from left to right, and the first
      field without a value stops the formatting with `KeyError`. */
  function Format(t: Template, env: map<string, string>): (r: Result<string>)
    ensures r.Ok? <==> Fields(t) <= env.Keys
    ensures r.Err? ==> r.error.KeyError? && r.error.key in Fields(t) && r.error.key !in env
  {
    if |t| == 0 then Ok("")
    else
      match t[0]
      case Lit(s) =>
        var rest :- Format(t[1..], env);
        Ok(s + rest)
      case Field(n) =>
        if n !in env then Err(KeyError(n))
        else
          var rest :- Format(t[1..], env);
          Ok(env[n] + rest)
  }

  /** What one piece renders to under `env` (a field without a value renders to nothing). */
  function PieceText(p: Piece, env: map<string, string>): string
  {
    match p
    case Lit(s) => s
    case Field(n) => if n in env then env[n] else ""
  }

  lemma {:induction false} FieldsAppend(t1: Template, t2: Template)
    ensures Fields(t1 + t2) == Fields(t1) + Fields(t2)
    decreases |t1|
  {
    if |t1| > 0 {
      assert (t1 + t2)[0] == t1[0];
      FieldsAppend(t1[1..], t2);
      assert (t1 + t2)[1..] == t1[1..] + t2;
    } else {
      assert t1 + t2 == t2;
    }
  }

  /** Formatting distributes over concatenation of templates. */
  lemma {:induction false} FormatAppend(t1: Template, t2: Template, env: map<string, string>)
    requires Fields(t1) <= env.Keys && Fields(t2) <= env.Keys
    ensures Fields(t1 + t2) <= env.Keys
    ensures Format(t1 + t2, env).value == Format(t1, env).value + Format(t2, env).value
    decreases |t1|
  {
    FieldsAppend(t1, t2);
    if |t1| > 0 {
      assert (t1 + t2)[0] == t1[0];
      assert (t1 + t2)[1..] == t1[1..] + t2;
      assert Fields(t1[1..]) <= Fields(t1);
      FormatAppend(t1[1..], t2, env);
      assert Fields((t1 + t2)[1..]) <= env.Keys;
    } else {
      assert t1 + t2 == t2;
    }
  }

  /** Formatting a single piece. */
  lemma FormatPiece(p: Piece, env: map<string, string>)
    requires p.Field? ==> p.name in env
    ensures Fields([p]) <= env.Keys
    ensures Format([p], env).value == PieceText(p, env)
  {
    assert [p][1..] == [];
  }

  /** The rendered text around any one field: whatever `before` and `after`
      render to, with the field's value in between. */
  lemma FormatAround(before: Template, name: string, after: Template, env: map<string, string>)
    requires Fields(before) <= env.Keys && Fields(after) <= env.Keys && name in env
    ensures Fields(before + [Field(name)] + after) <= env.Keys
    ensures Format(before + [Field(name)] + after, env).value
         == Format(before, env).value + env[name] + Format(after, env).value
  {
    FormatPiece(Field(name), env);
    FormatAppend(before, [Field(name)], env);
    FieldsAppend(before, [Field(name)]);
    FormatAppend(before + [Field(name)], after, env);
  }

  /** Each field of a template is replaced in place: the rendering is the
      rendering of what precedes the field, the field's value, and the
      rendering of what follows it. */
  lemma FormatAt(t: Template, i: nat, env: map<string, string>)
    requires i < |t| && t[i].Field?
    requires Fields(t) <= env.Keys
    ensures Fields(t[..i]) <= env.Keys && Fields(t[i + 1..]) <= env.Keys && t[i].name in env
    ensures Format(t, env).value == Format(t[..i], env).value + env[t[i].name] + Format(t[i + 1..], env).value
  {
    assert t == t[..i] + [t[i]] + t[i + 1..];
    FieldsAppend(t[..i] + [t[i]], t[i + 1..]);
    FieldsAppend(t[..i], [t[i]]);
    assert [t[i]][1..] == [];
    FormatAround(t[..i], t[i].name, t[i + 1..], env);
  }

  /** A template built from literal texts with one named field between each
      two consecutive texts. */
  function Interleave(lits: seq<string>, names: seq<string>): (t: Template)
    requires |lits| == |names| + 1
    decreases |names|
  {
    if |names| == 0 then [Lit(lits[0])]
    else [Lit(lits[0]), Field(names[0])] + Interleave(lits[1..], names[1..])
  }

  /** The literal texts with the given values woven in between them. */
  function Weave(lits: seq<string>, values: seq<string>): string
    requires |lits| == |values| + 1
    decreases |values|
  {
    if |values| == 0 then lits[0]
    else lits[0] + values[0] + Weave(lits[1..], values[1..])
  }

  /** Weaving two values into three texts. */
  lemma WeaveTwo(lits: seq<string>, values: seq<string>)
    requires |lits| == 3 && |values| == 2
    ensures Weave(lits, values) == lits[0] + values[0] + lits[1] + values[1] + lits[2]
  {
    assert Weave(lits[2..], values[2..]) == lits[2];
    assert lits[1..][1..] == lits[2..] && values[1..][1..] == values[2..];
    assert Weave(lits[1..], values[1..]) == lits[1] + values[1] + lits[2];
  }

  /** The value of each named field, in template order. */
  function Lookup(names: seq<string>, env: map<string, string>): (vs: seq<string>)
    requires forall i :: 0 <= i < |names| ==> names[i] in env
    ensures |vs| == |names|
  {
    seq(|names|, i requires 0 <= i < |names| => env[names[i]])
  }

  /** Formatting an interleaved template replaces every field by its value and
      keeps every literal text, in order. */
  lemma {:induction false} FormatInterleave(lits: seq<string>, names: seq<string>, env: map<string, string>)
    requires |lits| == |names| + 1
    requires forall i :: 0 <= i < |names| ==> names[i] in env
    ensures Format(Interleave(lits, names), env) == Ok(Weave(lits, Lookup(names, env)))
    decreases |names|
  {
    if |names| > 0 {
      var rest := Interleave(lits[1..], names[1..]);
      FormatInterleave(lits[1..], names[1..], env);
      var t := Interleave(lits, names);
      assert t[0] == Lit(lits[0]);
      assert t[1..][0] == Field(names[0]);
      assert t[1..][1..] == rest;
      var vs := Lookup(names, env);
      assert vs[1..] == Lookup(names[1..], env);
      var w := Weave(lits[1..], vs[1..]);
      assert Format(t[1..][1..], env) == Ok(w);
      assert Format(t[1..], env) == Ok(env[names[0]] + w);
      assert Format(t, env) == Ok(lits[0] + (env[names[0]] + w));
      assert vs[0] == env[names[0]];
      assert Weave(lits, vs) == lits[0] + vs[0] + w;
      assert lits[0] + (vs[0] + w) == lits[0] + vs[0] + w;
    } else {
      var t := Interleave(lits, names);
      assert t == [Lit(lits[0])] && t[1..] == [];
      assert Format(t, env) == Ok(lits[0] + "");
      assert lits[0] + "" == lits[0];
      assert Lookup(names, env) == [];
    }
  }
}

=== FILE: workflow.dfy ===
/** The workflow service the assembler builds through, reduced to an
    immutable graph: a node store whose indices are the handles, and a list of
    must-complete-before edges. A DAG is a root node; task groups and tasks
    record the node they were created in. */
module Workflow {
  import opened Results
  import Config
  import Operators

  datatype Node =
    | Dag(dagId: string, params: map<string, Config.Value>)
    | Group(groupId: string, parent: nat)
      /** `taskId` is `None` when the task id is chosen by code outside the model. */
    | Task(taskId: Option<string>, parent: nat, op: Operators.Operator)

  /** `from` must complete before `to` starts. */
  datatype Edge = Edge(from: nat, to: nat)

  datatype Graph = Graph(nodes: seq<Node>, edges: seq<Edge>)

  /** The id a node was created with. */
  function IdOf(n: Node): Option<string>
  {
    match n
    case Dag(id, _) => Some(id)
    case Group(id, _) => Some(id)
    case Task(id, _, _) => id
  }

  /** Every non-root node lies inside an earlier node, and edges join existing nodes. */
  ghost predicate Valid(g: Graph)
  {
    && (forall j :: 0 <= j < |g.nodes| && !g.nodes[j].Dag? ==> g.nodes[j].parent < j)
    && (forall k :: 0 <= k < |g.edges| ==> g.edges[k].from < |g.nodes| && g.edges[k].to < |g.nodes|)
  }

  /** Node `p` exists and can hold other nodes (it is a DAG or a group). */
  predicate IsContainer(g: Graph, p: nat)
  {
    p < |g.nodes| && !g.nodes[p].Task?
  }

  /** Node `j` was created directly inside node `p`. */
  predicate ChildOf(g: Graph, j: nat, p: nat)
  {
    j < |g.nodes| && !g.nodes[j].Dag? && g.nodes[j].parent == p
  }

  /** A fresh graph holding one DAG. */
  function NewDag(dagId: string, params: map<string, Config.Value>): (g: Graph)
    ensures Valid(g) && IsContainer(g, 0)
  {
    Graph([Dag(dagId, params)], [])
  }

  /** Creates a task group inside `parent`; the new group's handle is returned. */
  function AddGroup(g: Graph, groupId: string, parent: nat): (r: (Graph, nat))
    ensures r.1 == |g.nodes| && r.0 == Graph(g.nodes + [Group(groupId, parent)], g.edges)
  {
    (Graph(g.nodes + [Group(groupId, parent)], g.edges), |g.nodes|)
  }

  /** Creates a task inside `parent`; the new task's handle is returned. */
  function AddTask(g: Graph, taskId: Option<string>, parent: nat, op: Operators.Operator): (r: (Graph, nat))
    ensures r.1 == |g.nodes| && r.0 == Graph(g.nodes + [Task(taskId, parent, op)], g.edges)
  {
    (Graph(g.nodes + [Task(taskId, parent, op)], g.edges), |g.nodes|)
  }

  /** `a >> b`. */
  function Link(g: Graph, a: nat, b: nat): (r: Graph)
    ensures r == Graph(g.nodes, g.edges + [Edge(a, b)])
  {
    Graph(g.nodes, g.edges + [Edge(a, b)])
  }

  /** The edges of a chain through `hs`: each handle before the next. */
  function ChainEdges(hs: seq<nat>): (es: seq<Edge>)
    ensures |es| == if |hs| == 0 then 0 else |hs| - 1
    ensures forall i :: 0 <= i < |es| ==> es[i] == Edge(hs[i], hs[i + 1])
  {
    if |hs| <= 1 then [] else seq(|hs| - 1, i requires 0 <= i < |hs| - 1 => Edge(hs[i], hs[i + 1]))
  }

  /** `chain_tasks(*hs)`: links each handle to the next. */
  function ChainTasks(g: Graph, hs: seq<nat>): (r: Graph)
    ensures r == Graph(g.nodes, g.edges + ChainEdges(hs))
  {
    Graph(g.nodes, g.edges + ChainEdges(hs))
  }

  /** `g2` only adds to `g1`. */
  ghost predicate Extends(g1: Graph, g2: Graph)
  {
    |g1.nodes| <= |g2.nodes| && g1.nodes == g2.nodes[..|g1.nodes|]
    && |g1.edges| <= |g2.edges| && g1.edges == g2.edges[..|g1.edges|]
  }

  /** Going from `g1` to `g2` built one subtree: its root is the first new node
      `h`, created inside `parent`; every other new node lies inside an
      earlier new node; and every new edge joins two new nodes below the root. */
  ghost predicate Subtree(g1: Graph, g2: Graph, h: nat, parent: nat)
  {
    && Extends(g1, g2)
    && h == |g1.nodes| < |g2.nodes|
    && ChildOf(g2, h, parent)
    && (forall j :: h < j < |g2.nodes| ==> !g2.nodes[j].Dag? && h <= g2.nodes[j].parent < j)
    && (forall k :: |g1.edges| <= k < |g2.edges| ==>
          h < g2.edges[k].from < |g2.nodes| && h < g2.edges[k].to < |g2.nodes|)
  }

  lemma SubtreeValid(g1: Graph, g2: Graph, h: nat, parent: nat)
    requires Valid(g1) && parent < |g1.nodes| && Subtree(g1, g2, h, parent)
    ensures Valid(g2)
  {
    forall j | 0 <= j < |g2.nodes| && !g2.nodes[j].Dag?
      ensures g2.nodes[j].parent < j
    {
      if j < |g1.nodes| { assert g2.nodes[j] == g1.nodes[j]; }
    }
    forall k | 0 <= k < |g2.edges|
      ensures g2.edges[k].from < |g2.nodes| && g2.edges[k].to < |g2.nodes|
    {
      if k < |g1.edges| { assert g2.edges[k] == g1.edges[k]; }
    }
  }

  /** A single new task is a subtree. */
  lemma TaskSubtree(g: Graph, taskId: Option<string>, parent: nat, op: Operators.Operator)
    ensures Subtree(g, AddTask(g, taskId, parent, op).0, |g.nodes|, parent)
  {
    var g2 := AddTask(g, taskId, parent, op).0;
    assert g2.nodes[..|g.nodes|] == g.nodes;
    assert g2.edges[..|g.edges|] == g.edges;
  }

  /** A single new group is a subtree. */
  lemma GroupSubtree(g: Graph, groupId: string, parent: nat)
    ensures Subtree(g, AddGroup(g, groupId, parent).0, |g.nodes|, parent)
  {
    var g2 := AddGroup(g, groupId, parent).0;
    assert g2.nodes[..|g.nodes|] == g.nodes;
    assert g2.edges[..|g.edges|] == g.edges;
  }

  /** A task created inside a subtree under construction stays in that subtree. */
  lemma GrowTask(g1: Graph, g2: Graph, h: nat, parent: nat, taskId: Option<string>, q: nat, op: Operators.Operator)
    requires Subtree(g1, g2, h, parent) && h <= q < |g2.nodes|
    ensures Subtree(g1, AddTask(g2, taskId, q, op).0, h, parent)
  {
    var g3 := AddTask(g2, taskId, q, op).0;
    assert g3.nodes[..|g2.nodes|] == g2.nodes;
    assert g3.nodes[..|g1.nodes|] == g2.nodes[..|g1.nodes|];
  }

  /** Edges between nodes below the root of a subtree under construction keep it a subtree. */
  lemma GrowEdges(g1: Graph, g2: Graph, h: nat, parent: nat, es: seq<Edge>)
    requires Subtree(g1, g2, h, parent)
    requires forall k :: 0 <= k < |es| ==> h < es[k].from < |g2.nodes| && h < es[k].to < |g2.nodes|
    ensures Subtree(g1, Graph(g2.nodes, g2.edges + es), h, parent)
  {
    var g3 := Graph(g2.nodes, g2.edges + es);
    assert g3.edges[..|g2.edges|] == g2.edges;
    assert g3.edges[..|g1.edges|] == g2.edges[..|g1.edges|];
    forall k | |g1.edges| <= k < |g3.edges|
      ensures h < g3.edges[k].from < |g3.nodes| && h < g3.edges[k].to < |g3.nodes|
    {
      if k >= |g2.edges| { assert g3.edges[k] == es[k - |g2.edges|]; }
    }
  }

  /** A subtree built inside a subtree under construction becomes part of it. */
  lemma GrowSubtree(g1: Graph, g2: Graph, h: nat, parent: nat, g3: Graph, h2: nat, q: nat)
    requires Subtree(g1, g2, h, parent) && h <= q < |g2.nodes|
    requires Subtree(g2, g3, h2, q)
    ensures Subtree(g1, g3, h, parent)
  {
    assert g3.nodes[..|g1.nodes|] == g3.nodes[..|g2.nodes|][..|g1.nodes|];
    assert g3.edges[..|g1.edges|] == g3.edges[..|g2.edges|][..|g1.edges|];
    forall j | h < j < |g3.nodes|
      ensures !g3.nodes[j].Dag? && h <= g3.nodes[j].parent < j
    {
      if j < |g2.nodes| { assert g3.nodes[j] == g2.nodes[j]; }
    }
    forall k | |g1.edges| <= k < |g3.edges|
      ensures h < g3.edges[k].from < |g3.nodes| && h < g3.edges[k].to < |g3.nodes|
    {
      if k < |g2.edges| { assert g3.edges[k] == g2.edges[k]; }
    }
  }

  /** The edges of `es` that leave a node created directly inside `p`: the
      edges a chaining step at the level of `p` adds. */
  function LevelEdges(g: Graph, es: seq<Edge>, p: nat): seq<Edge>
  {
    if |es| == 0 then []
    else (if ChildOf(g, es[0].from, p) then [es[0]] else []) + LevelEdges(g, es[1..], p)
  }

  lemma LevelEdgesAppend(g: Graph, es1: seq<Edge>, es2: seq<Edge>, p: nat)
    ensures LevelEdges(g, es1 + es2, p) == LevelEdges(g, es1, p) + LevelEdges(g, es2, p)
  {
    if |es1| > 0 {
      LevelEdgesAppend(g, es1[1..], es2, p);
      assert (es1 + es2)[1..] == es1[1..] + es2;
    } else {
      assert es1 + es2 == es2;
    }
  }

  lemma LevelEdgesStable(g1: Graph, g2: Graph, es: seq<Edge>, p: nat)
    requires Extends(g1, g2)
    requires forall k :: 0 <= k < |es| ==> es[k].from < |g1.nodes|
    ensures LevelEdges(g2, es, p) == LevelEdges(g1, es, p)
  {
    if |es| > 0 {
      assert g2.nodes[es[0].from] == g1.nodes[es[0].from];
      LevelEdgesStable(g1, g2, es[1..], p);
    }
  }

  lemma LevelEdgesNone(g: Graph, es: seq<Edge>, p: nat)
    requires forall k :: 0 <= k < |es| ==> !ChildOf(g, es[k].from, p)
    ensures LevelEdges(g, es, p) == []
  {
    if |es| > 0 {
      LevelEdgesNone(g, es[1..], p);
    }
  }

  /** What a chaining step has built so far inside group `grp` (created as
      the first node after `g0`): the children `hs` of `grp`, in creation
      order, are the only nodes directly inside `grp`, and the edges added at
      the level of `grp` are exactly the chain through `hs`. */
  ghost predicate Chained(g0: Graph, g: Graph, grp: nat, hs: seq<nat>)
  {
    && grp == |g0.nodes|
    && |g0.edges| <= |g.edges|
    && (forall i :: 0 <= i < |hs| ==> grp < hs[i] && ChildOf(g, hs[i], grp))
    && (forall i, j :: 0 <= i < j < |hs| ==> hs[i] < hs[j])
    && (forall j :: grp < j < |g.nodes| && ChildOf(g, j, grp) ==> j in hs)
    && LevelEdges(g, g.edges[|g0.edges|..], grp) == ChainEdges(hs)
  }

  /** Creating the group starts the chain with no children. */
  lemma ChainBegin(g0: Graph, groupId: string, parent: nat)
    requires Valid(g0) && parent < |g0.nodes|
    ensures var g1 := AddGroup(g0, groupId, parent).0;
      Subtree(g0, g1, |g0.nodes|, parent) && Valid(g1) && Chained(g0, g1, |g0.nodes|, [])
  {
    var g1 := AddGroup(g0, groupId, parent).0;
    GroupSubtree(g0, groupId, parent);
    SubtreeValid(g0, g1, |g0.nodes|, parent);
    assert g1.edges[|g0.edges|..] == [];
  }

  lemma LevelEdgesSameNodes(g1: Graph, g2: Graph, es: seq<Edge>, p: nat)
    requires g1.nodes == g2.nodes
    ensures LevelEdges(g2, es, p) == LevelEdges(g1, es, p)
  {
    if |es| > 0 {
      LevelEdgesSameNodes(g1, g2, es[1..], p);
    }
  }

  /** Building a child subtree inside `grp` adds no edge at the level of `grp`. */
  lemma ChildAddsNoLevelEdge(g0: Graph, g: Graph, grp: nat, g2: Graph, h: nat)
    requires |g0.edges| <= |g.edges| && grp < |g.nodes| && Subtree(g, g2, h, grp)
    requires forall k :: |g0.edges| <= k < |g.edges| ==> g.edges[k].from < |g.nodes|
    ensures LevelEdges(g2, g2.edges[|g0.edges|..], grp) == LevelEdges(g, g.edges[|g0.edges|..], grp)
  {
    var before := g.edges[|g0.edges|..];
    var mid := g2.edges[|g.edges|..];
    assert g2.edges[|g0.edges|..] == before + mid by {
      assert g2.edges[..|g.edges|] == g.edges;
    }
    forall k | 0 <= k < |before| ensures before[k].from < |g.nodes| {
      assert before[k] == g.edges[|g0.edges| + k];
    }
    LevelEdgesStable(g, g2, before, grp);
    forall k | 0 <= k < |mid| ensures !ChildOf(g2, mid[k].from, grp) {
      assert mid[k] == g2.edges[|g.edges| + k];
      assert h <= g2.nodes[mid[k].from].parent;
    }
    LevelEdgesNone(g2, mid, grp);
    LevelEdgesAppend(g2, before, mid, grp);
  }

  /** Linking the last child to the new one adds that link at the level of `grp`. */
  lemma LinkAddsLevelEdge(g0: Graph, g2: Graph, grp: nat, hs: seq<nat>, h: nat)
    requires |hs| > 0 && |g0.edges| <= |g2.edges| && ChildOf(g2, hs[|hs| - 1], grp)
    requires LevelEdges(g2, g2.edges[|g0.edges|..], grp) == ChainEdges(hs)
    ensures var g3 := Link(g2, hs[|hs| - 1], h);
      LevelEdges(g3, g3.edges[|g0.edges|..], grp) == ChainEdges(hs + [h])
  {
    var e := Edge(hs[|hs| - 1], h);
    var g3 := Link(g2, hs[|hs| - 1], h);
    assert g3.edges[|g0.edges|..] == g2.edges[|g0.edges|..] + [e];
    LevelEdgesAppend(g3, g2.edges[|g0.edges|..], [e], grp);
    LevelEdgesSameNodes(g2, g3, g2.edges[|g0.edges|..], grp);
    assert LevelEdges(g3, [e], grp) == [e] by {
      assert ChildOf(g3, e.from, grp);
      assert [e][1..] == [];
    }
    ChainEdgesSnoc(hs, h);
  }

  lemma ChainEdgesSnoc(hs: seq<nat>, h: nat)
    requires |hs| > 0
    ensures ChainEdges(hs + [h]) == ChainEdges(hs) + [Edge(hs[|hs| - 1], h)]
  {
    var a := ChainEdges(hs + [h]);
    var b := ChainEdges(hs) + [Edge(hs[|hs| - 1], h)];
    assert |a| == |b|;
    forall i | 0 <= i < |a| ensures a[i] == b[i] {
      assert (hs + [h])[i] == hs[i];
    }
  }

  /** Building one more child inside `grp` and linking the previous child
      (if any) to it extends the chain by that child. */
  lemma ChainStep(g0: Graph, g: Graph, grp: nat, parent: nat, hs: seq<nat>, g2: Graph, h: nat)
    requires Valid(g0) && parent < |g0.nodes|
    requires Subtree(g0, g, grp, parent) && Chained(g0, g, grp, hs)
    requires Subtree(g, g2, h, grp)
    ensures var g3 := if |hs| == 0 then g2 else Link(g2, hs[|hs| - 1], h);
      && Subtree(g0, g3, grp, parent)
      && Valid(g3)
      && Chained(g0, g3, grp, hs + [h])
  {
    var g3 := if |hs| == 0 then g2 else Link(g2, hs[|hs| - 1], h);
    GrowSubtree(g0, g, grp, parent, g2, h, grp);
    if |hs| > 0 {
      assert ChildOf(g, hs[|hs| - 1], grp);
      GrowEdges(g0, g2, grp, parent, [Edge(hs[|hs| - 1], h)]);
    }
    SubtreeValid(g0, g3, grp, parent);
    var hs2 := hs + [h];
    ChildAddsNoLevelEdge(g0, g, grp, g2, h);
    if |hs| > 0 {
      assert g2.nodes[hs[|hs| - 1]] == g.nodes[hs[|hs| - 1]];
      LinkAddsLevelEdge(g0, g2, grp, hs, h);
    } else {
      assert ChainEdges(hs2) == [];
    }
    ChainMembers(g0, g, grp, hs, g2, h, g3);
  }

  lemma ChainMembers(g0: Graph, g: Graph, grp: nat, hs: seq<nat>, g2: Graph, h: nat, g3: Graph)
    requires Chained(g0, g, grp, hs) && grp < |g.nodes|
    requires Subtree(g, g2, h, grp) && g3.nodes == g2.nodes
    ensures forall i :: 0 <= i < |hs + [h]| ==> grp < (hs + [h])[i] && ChildOf(g3, (hs + [h])[i], grp)
    ensures forall i, j :: 0 <= i < j < |hs + [h]| ==> (hs + [h])[i] < (hs + [h])[j]
    ensures forall j :: grp < j < |g3.nodes| && ChildOf(g3, j, grp) ==> j in hs + [h]
  {
    var hs2 := hs + [h];
    forall i | 0 <= i < |hs2| ensures grp < hs2[i] && ChildOf(g3, hs2[i], grp) {
      if i < |hs| { assert g3.nodes[hs[i]] == g.nodes[hs[i]]; }
    }
    forall j | grp < j < |g3.nodes| && ChildOf(g3, j, grp) ensures j in hs2 {
      if j < |g.nodes| {
        assert g3.nodes[j] == g.nodes[j];
        assert j in hs;
      }
    }
    forall i, j | 0 <= i < j < |hs2| ensures hs2[i] < hs2[j] {
      if j == |hs| { assert hs[i] < |g.nodes|; }
    }
  }

  /** Node `j` of `g` is not created directly inside any node older than
      `lo` except possibly `q`. */
  predicate Beside(g: Graph, j: nat, q: nat, lo: nat)
  {
    j < |g.nodes| && (g.nodes[j].Dag? || g.nodes[j].parent == q || lo <= g.nodes[j].parent)
  }

  /** Going from `g1` to `g2` touched no existing node other than `q`: every
      new node, and the source of every new edge, lies directly inside `q` or
      inside a new node. */
  ghost predicate Outside(g1: Graph, g2: Graph, q: nat)
  {
    && Extends(g1, g2)
    && (forall j :: |g1.nodes| <= j < |g2.nodes| ==> Beside(g2, j, q, |g1.nodes|))
    && (forall k :: |g1.edges| <= k < |g2.edges| ==> Beside(g2, g2.edges[k].from, q, |g1.nodes|))
  }

  lemma SubtreeOutside(g1: Graph, g2: Graph, h: nat, q: nat)
    requires Subtree(g1, g2, h, q)
    ensures Outside(g1, g2, q)
  {
  }

  lemma LinkOutside(g: Graph, a: nat, b: nat, q: nat)
    requires ChildOf(g, a, q)
    ensures Outside(g, Link(g, a, b), q)
  {
    assert Link(g, a, b).edges[..|g.edges|] == g.edges;
  }

  lemma OutsideTrans(g1: Graph, g2: Graph, g3: Graph, q: nat)
    requires Outside(g1, g2, q) && Outside(g2, g3, q)
    ensures Outside(g1, g3, q)
  {
    assert g3.nodes[..|g1.nodes|] == g3.nodes[..|g2.nodes|][..|g1.nodes|];
    assert g3.edges[..|g1.edges|] == g3.edges[..|g2.edges|][..|g1.edges|];
    forall j | |g1.nodes| <= j < |g3.nodes| ensures Beside(g3, j, q, |g1.nodes|) {
      if j < |g2.nodes| {
        assert Beside(g2, j, q, |g1.nodes|);
        assert g3.nodes[j] == g2.nodes[j];
      } else {
        assert Beside(g3, j, q, |g2.nodes|);
      }
    }
    forall k | |g1.edges| <= k < |g3.edges| ensures Beside(g3, g3.edges[k].from, q, |g1.nodes|) {
      if k < |g2.edges| {
        assert g3.edges[k] == g2.edges[k];
        assert Beside(g2, g2.edges[k].from, q, |g1.nodes|);
        assert g3.nodes[g2.edges[k].from] == g2.nodes[g2.edges[k].from];
      }
    }
  }

  /** Group `grp` of `g` is named `name` and holds exactly the nodes `hs`,
      in creation order and carrying the ids `ids`, each linked to the next
      and with no other edge leaving a node directly inside the group. Unlike
      `Chained`, this speaks of the whole graph, so it survives later growth
      elsewhere. */
  ghost predicate ChainAt(g: Graph, grp: nat, name: string, ids: seq<Option<string>>, hs: seq<nat>)
  {
    && grp < |g.nodes| && g.nodes[grp].Group? && g.nodes[grp].groupId == name
    && |hs| == |ids|
    && (forall i :: 0 <= i < |hs| ==> grp < hs[i] && ChildOf(g, hs[i], grp))
    && (forall i, j :: 0 <= i < j < |hs| ==> hs[i] < hs[j])
    && (forall j :: grp < j < |g.nodes| && ChildOf(g, j, grp) ==> j in hs)
    && (forall i :: 0 <= i < |ids| ==> IdOf(g.nodes[hs[i]]) == ids[i])
    && LevelEdges(g, g.edges, grp) == ChainEdges(hs)
  }

  /** A finished chaining step is a chain of the whole graph: no edge from
      before the group's creation can leave a node inside it. */
  lemma ChainedAt(g0: Graph, g: Graph, grp: nat, parent: nat, name: string, ids: seq<Option<string>>, hs: seq<nat>)
    requires Valid(g0) && Valid(g) && Subtree(g0, g, grp, parent) && Chained(g0, g, grp, hs)
    requires g.nodes[grp] == Group(name, parent)
    requires |hs| == |ids| && forall i :: 0 <= i < |ids| ==> IdOf(g.nodes[hs[i]]) == ids[i]
    ensures ChainAt(g, grp, name, ids, hs)
  {
    OlderEdgesOffLevel(g0, g, grp);
  }

  /** No edge older than group `grp` leaves a node directly inside it, so
      the edges at its level are among those added since its creation. */
  lemma OlderEdgesOffLevel(g0: Graph, g: Graph, grp: nat)
    requires Valid(g0) && Extends(g0, g) && grp == |g0.nodes|
    ensures LevelEdges(g, g.edges, grp) == LevelEdges(g, g.edges[|g0.edges|..], grp)
  {
    assert g.edges == g0.edges + g.edges[|g0.edges|..] by {
      assert g.edges[..|g0.edges|] == g0.edges;
    }
    forall k | 0 <= k < |g0.edges| ensures !ChildOf(g, g0.edges[k].from, grp) {
      var f := g0.edges[k].from;
      assert f < grp && g.nodes[f] == g0.nodes[f];
      assert g0.nodes[f].Dag? || g0.nodes[f].parent < f;
    }
    LevelEdgesNone(g, g0.edges, grp);
    LevelEdgesAppend(g, g0.edges, g.edges[|g0.edges|..], grp);
  }

  /** A chain survives growth that touches no node but `q`, another node. */
  lemma ChainAtOutside(g1: Graph, g2: Graph, q: nat, grp: nat, name: string, ids: seq<Option<string>>, hs: seq<nat>)
    requires Valid(g1) && ChainAt(g1, grp, name, ids, hs) && Outside(g1, g2, q) && grp != q
    ensures ChainAt(g2, grp, name, ids, hs)
  {
    var n := |g1.nodes|;
    assert g2.nodes[grp] == g1.nodes[grp];
    forall i | 0 <= i < |hs| ensures grp < hs[i] && ChildOf(g2, hs[i], grp) && IdOf(g2.nodes[hs[i]]) == IdOf(g1.nodes[hs[i]]) {
      assert g2.nodes[hs[i]] == g1.nodes[hs[i]];
    }
    forall j | grp < j < |g2.nodes| ensures ChildOf(g2, j, grp) ==> j in hs {
      if j < n {
        assert g2.nodes[j] == g1.nodes[j];
      } else {
        assert Beside(g2, j, q, n);
      }
    }
    var added := g2.edges[|g1.edges|..];
    assert g2.edges == g1.edges + added by {
      assert g2.edges[..|g1.edges|] == g1.edges;
    }
    LevelEdgesStable(g1, g2, g1.edges, grp);
    forall k | 0 <= k < |added| ensures !ChildOf(g2, added[k].from, grp) {
      assert added[k] == g2.edges[|g1.edges| + k];
      assert Beside(g2, added[k].from, q, n);
    }
    LevelEdgesNone(g2, added, grp);
    LevelEdgesAppend(g2, g1.edges, added, grp);
  }
}
